=== FILE: README.md ===
# GovCon AutoPilot dashboard logic in Dafny

This project models the decision logic of the GovCon AutoPilot dashboard.
The dashboard is a React front end for government-contracting work over a
Supabase store. The model covers:

- the record filters for opportunities, documents, templates and
  subcontractors, and the filter bar and panel state that feed them;
- the price escalation projector;
- the list and set editors: NAICS codes, bulk tags, sync keywords,
  document selection, and comparison slots;
- the state transitions of the template approval workflow, version
  restore, ratings, comments and proposal saves;
- the classifiers that map scores, statuses and MIME types onto badges,
  icons and viewers.

Each component is one Dafny module named after it. Three shared modules
support them:

- `Seqs`: an order-preserving filter, removal by value and counting.
- `Text`: case mapping, trimming, splitting and joining, comma-separated
  tags, the e-mail user name, and first-underscore replacement.
- `Dates`: milliseconds per day, and the UTC day of a timestamp, as a
  date-only input is read.

The store is not modelled as a database. An insert is a returned row, and
an update is a returned state. Where the component branches on a write's
error, a boolean (or optional error message) parameter stands for that
outcome. Clocks, file contents and service responses are also parameters.

The pricing calculator validates nothing: a term of one year, zero years
or a negative number of years all give the single first-year price. The model follows the code (`PricingEngine.YearCount`,
`PricingEngine.ShortTermSingleEntry`).

## Model

| member | source | states |
|---|---|---|
| AppLayout.FilterOpportunities | AppLayout.tsx:57-82 | a record is in the result exactly when it was loaded and passes every active predicate; the result is never longer than the input |
| AppLayout.FilterOpportunitiesIsSubsequence | AppLayout.tsx:57 | the filtered list keeps the loaded order (an order-preserving subsequence) |
| AppLayout.FilterOpportunitiesExact | AppLayout.tsx:58-70 | a loaded record is kept if and only if every one of these holds: the classification and status selectors match exactly unless they are "" or "all"; the title contains the search ignoring case; the value lies within the inclusive bounds; a NAICS code from a non-empty list occurs in the record's code |
| AppLayout.SelectorRule | AppLayout.tsx:58-59 | "" and "all" disable a selector; any other value demands exact equality |
| AppLayout.InitialFiltersKeepAll | AppLayout.tsx:34 | the page's initial filters return the loaded list unchanged |
| AppLayout.FilterOpportunitiesIdempotent | AppLayout.tsx:57-82 | filtering the filtered list again changes nothing |
| AppLayout.ZipCodeIgnored | AppLayout.tsx:73-79 | the ZIP code and radius never change the result, because the geographic branch is empty |
| AppLayout.ValueBoundsInclusive | AppLayout.tsx:63-64 | a value equal to either bound passes |
| AppLayout.MissingValueIsZero | AppLayout.tsx:63 | a record without an estimated value compares as 0, so a positive minimum drops it |
| AppLayout.NaicsSubstringExample | AppLayout.tsx:67-69 | NAICS matching is by substring: "5415" selects "541512" and "9999" does not |
| AppLayout.MissingNaicsExcluded | AppLayout.tsx:68-69 | a record without a NAICS code fails any non-empty list of non-empty codes |
| AppLayout.ComputeStats | AppLayout.tsx:85-90 | the statistics count all loaded records, not the filtered ones; the prime and proposal counts never exceed the total; the value total is the sum of the estimated values, a missing one counted as 0, and is non-negative when no value is negative |
| AppLayout.StatsOfOne | AppLayout.tsx:85-90 | a single record is one active record, counted as prime or proposal by its own fields, with its estimate as the value total and 0 when the estimate is missing |
| AppLayout.StatsAppend | AppLayout.tsx:85-90 | every statistic of two batches together is the sum of the two batches' statistics |
| AppLayout.QuickAction | AppLayout.tsx:112-117 | search, proposal and outreach switch to their views; any other action leaves the view unchanged |
| AppLayout.QuickActionIdempotent | AppLayout.tsx:112-117 | repeating a quick action has no further effect |
| FilterBar.Merge | FilterBar.tsx:30 | an object spread: each key present on the right overrides, each absent key keeps its left value |
| FilterBar.MergeIdempotent | FilterBar.tsx:30 | spreading the same object twice is the same as spreading it once |
| FilterBar.MergeAssociative | FilterBar.tsx:30 | spreading is associative |
| FilterBar.ApplyAdvanced | FilterBar.tsx:29-32 | the page filters become the merge with the advanced keys overriding; the sheet state is untouched |
| FilterBar.ApplyDefaultsKeepsBasicKeys | FilterBar.tsx:19-25 | applying the default sheet keeps search, classification and status and sets the five advanced keys to 0, 10,000,000, no codes, no ZIP and radius 100 |
| FilterBar.DefaultsCapValue | FilterBar.tsx:21 | once the defaults are applied, a record is kept exactly when its value lies in [0, 10,000,000] |
| FilterBar.SavePreset | FilterBar.tsx:34-50 | a blank name (after trimming) inserts nothing; otherwise the untrimmed name and the merged filters are inserted, and the name is cleared only when the insert succeeded |
| FilterBar.SaveThenApplyPreset | FilterBar.tsx:41-59 | applying a saved preset reproduces the filters that applying the sheet gave when it was saved |
| FilterBar.ApplyPreset | FilterBar.tsx:57-61 | both the page filters and the advanced sheet become the preset's filters; the preset name being typed is kept |
| FilterBar.ApplyAfterPresetRestoresPresetSearch | FilterBar.tsx:30-59 | after a preset is applied, the sheet also holds the preset's search, so a later Apply Filters overwrites a newly typed search with it |
| FilterBar.EditSearch | FilterBar.tsx:69 | typing in the search box changes only the search key |
| FilterBar.EditClassification | FilterBar.tsx:71 | the classification selector changes only that key |
| FilterBar.EditStatus | FilterBar.tsx:79 | the status selector changes only that key |
| FilterBar.EditAdvanced | FilterBar.tsx:97-108 | each sheet control changes only its own key of the sheet state; the page filters wait for Apply |
| DocumentLibrary.FileTypeCategory | DocumentLibrary.tsx:197-204 | the category is that of the first pattern occurring in the MIME type, in the order pdf, image, text, word or document, excel or spreadsheet; each category is characterised in both directions |
| DocumentLibrary.WordBeforeExcel | DocumentLibrary.tsx:201-202 | a type naming both a document and a spreadsheet is classified as Word, never Excel |
| DocumentLibrary.FilterDocuments | DocumentLibrary.tsx:206-229 | a document is in the result exactly when it was loaded and passes every active predicate |
| DocumentLibrary.FilterDocumentsIsSubsequence | DocumentLibrary.tsx:206 | the result keeps the loaded order |
| DocumentLibrary.DefaultFiltersKeepAll | DocumentLibrary.tsx:32 | the initial filters and an empty search keep every document |
| DocumentLibrary.TagFilterRule | DocumentLibrary.tsx:211 | a non-empty tag filter keeps a document exactly when it carries a listed tag; untagged documents never pass |
| DocumentLibrary.DateBoundsInclusive | DocumentLibrary.tsx:214-215 | both bounds compare with midnight UTC at the start of the picked day, so the from-day counts whole but a document passes the to-day bound only if created before that day or exactly at its midnight; each side is active only when set |
| DocumentLibrary.LaterOnToDayExcluded | DocumentLibrary.tsx:215 | a document created on the to-day after its first instant is filtered out |
| Dates.DayOf | DocumentLibrary.tsx:214-215 | the UTC day of a timestamp: the timestamp lies between that day's midnight and the next |
| DocumentLibrary.TypeFilterRule | DocumentLibrary.tsx:218-221 | a non-empty type filter keeps a document exactly when its category label is listed; a document without a type is Other |
| DocumentLibrary.SizeFilterExample | DocumentLibrary.tsx:224-226 | sizes compare in megabytes of 1024 * 1024 bytes: a 2 MB file passes 1..5 MB and fails a 1 MB maximum |
| DocumentLibrary.ToggleSelection | DocumentLibrary.tsx:129-137 | exactly the given id changes membership |
| DocumentLibrary.ToggleTwice | DocumentLibrary.tsx:129-137 | toggling twice restores the selection |
| DocumentLibrary.UploadDocument | DocumentLibrary.tsx:86-96 | the row takes the typed name or else the file's name, the file's size and type, and as tags the comma-separated pieces of the typed list, trimmed, with empty ones dropped |
| DocumentLibrary.UploadTagsRoundTrip | DocumentLibrary.tsx:86 | tags typed as a comma-separated list are recovered exactly |
| DocumentLibrary.AllTagOccurrences | DocumentLibrary.tsx:233 | a tag occurs exactly when some document carries it |
| DocumentLibrary.AllTags | DocumentLibrary.tsx:233 | the tag vocabulary has no duplicates, holds exactly the tags some document carries, and lists them in the order they first occur |
| DocumentFilterPanel.ActiveFilterCount | DocumentFilterPanel.tsx:67-72 | the count is at most 4; it is 0 exactly when no group constrains and 4 exactly when all four do |
| DocumentFilterPanel.ClearFilters | DocumentFilterPanel.tsx:74-76 | clearing gives the library's initial filters, with no active group |
| DocumentFilterPanel.InactiveFiltersKeepAll | DocumentFilterPanel.tsx:67-72 | with a count of 0 and no search, every document is shown |
| DocumentFilterPanel.Toggle | DocumentFilterPanel.tsx:99-101 | checking appends the value; unchecking removes every copy and keeps the other values |
| DocumentFilterPanel.ToggleTag | DocumentFilterPanel.tsx:98-103 | the tag checkbox changes only the tag list, and the tag is listed exactly when checked |
| DocumentFilterPanel.ToggleFileType | DocumentFilterPanel.tsx:126-131 | the type checkbox changes only the type list, and the type is listed exactly when checked |
| DocumentFilterPanel.ToggleTagTwice | DocumentFilterPanel.tsx:98-103 | checking and unchecking an unlisted tag restores the filters |
| DocumentFilterPanel.ToggleFileTypeTwice | DocumentFilterPanel.tsx:126-131 | checking and unchecking an unlisted type restores the filters |
| DocumentFilterPanel.EditDateFrom | DocumentFilterPanel.tsx:114 | the from-date input changes only the lower bound |
| DocumentFilterPanel.EditDateTo | DocumentFilterPanel.tsx:115 | the to-date input changes only the upper bound |
| DocumentFilterPanel.SizeDisplayRoundTrip | DocumentFilterPanel.tsx:142-144 | reading back what a size field shows gives the stored bound |
| DocumentFilterPanel.MinSizeFromInput | DocumentFilterPanel.tsx:142 | an empty minimum field means a minimum of 0, that is none; a typed number is the minimum |
| DocumentFilterPanel.MaxSizeFromInput | DocumentFilterPanel.tsx:144 | an empty maximum field means no maximum (Infinity); a typed number is the maximum |
| DocumentFilterPanel.EditMinSize | DocumentFilterPanel.tsx:142 | the size group is active after the edit exactly when the new minimum is positive or a maximum is set |
| DocumentFilterPanel.EditMaxSize | DocumentFilterPanel.tsx:144 | a typed maximum activates the size group |
| DocumentFilterPanel.Store | DocumentFilterPanel.tsx:44-47 | the stored filter object keeps every field, except that an unbounded maximum (Infinity) is stored as JSON null |
| DocumentFilterPanel.SaveSearch | DocumentFilterPanel.tsx:42-55 | an empty name inserts nothing; otherwise the name and the stored form of the current filters are inserted, and the name is cleared only on success |
| DocumentFilterPanel.BlankNameIsSaved | DocumentFilterPanel.tsx:43 | a name made only of spaces is saved, unlike a preset name |
| DocumentFilterPanel.LoadSearch | DocumentFilterPanel.tsx:57-59 | the panel takes the stored filters back; a stored null maximum acts as a maximum of 0 MB |
| DocumentFilterPanel.SaveThenLoadBounded | DocumentFilterPanel.tsx:42-59 | a search saved with a finite maximum is restored exactly when loaded |
| DocumentFilterPanel.UnboundedSearchReloadsAsZeroCap | DocumentFilterPanel.tsx:42-59 | a search saved with no maximum reloads with a 0 MB cap: the size group counts as active and every non-empty document is hidden |
| DocumentFilterPanel.ClearedSearchReloadHidesFiles | DocumentFilterPanel.tsx:42-76 | saving the cleared filters and loading them back hides a non-empty document that the cleared filters show |
| DocumentFilterPanel.LoadSearchCorrected | DocumentFilterPanel.tsx:57-59 | reading a stored null maximum back as Infinity gives no maximum exactly for null, and keeps every other field |
| DocumentFilterPanel.SaveThenLoadCorrected | DocumentFilterPanel.tsx:42-59 | with that load, every saved search, unbounded or not, restores the filters it was saved with |
| TemplatesLibrary.FilterTemplates | TemplatesLibrary.tsx:108-112 | a template is kept exactly when its name contains the search ignoring case and its category matches, unless the category is "all" |
| TemplatesLibrary.FilterTemplatesIsSubsequence | TemplatesLibrary.tsx:108 | the result keeps the loaded order |
| TemplatesLibrary.InitialViewShowsAll | TemplatesLibrary.tsx:23-24 | the initial empty search and category "all" show every template |
| TemplatesLibrary.CategoryRule | TemplatesLibrary.tsx:110 | a concrete category shows exactly the templates of that category |
| TemplatesLibrary.CreateTemplate | TemplatesLibrary.tsx:45-56 | refused with "Please fill required fields" exactly when the name, category or content is empty; otherwise the form's fields, with as tags the comma-separated pieces of the tag field, trimmed, with empty ones dropped |
| TemplatesLibrary.FormAfterCreate | TemplatesLibrary.tsx:58-65 | the form is reset only after a successful insert |
| TemplatesLibrary.CategoryOfType | TemplatesLibrary.tsx:72-76 | every generated type maps to one of the six categories; a type maps to Other exactly when it is none of the five named types |
| TemplatesLibrary.AIFormGuard | TemplatesLibrary.tsx:46-77 | an AI-filled form passes the required-field guard exactly when the generated content is non-empty |
| TemplatesLibrary.AIFormTags | TemplatesLibrary.tsx:51-78 | with a tag-shaped agency and contract type, the saved tags are "AI-generated", the contract type and the agency |
| TemplatesLibrary.AIFormTagsWithoutMetadata | TemplatesLibrary.tsx:51-78 | without metadata the empty pieces are dropped, leaving only "AI-generated" |
| TemplatesLibrary.UseTemplate | TemplatesLibrary.tsx:85-89 | the rows with the template's id get the count the template object carried plus one; all others are unchanged |
| TemplatesLibrary.UseTemplateIncrements | TemplatesLibrary.tsx:87 | using a template as stored raises its count by exactly one |
| PricingEngine.YearPriceClosedForm | PricingEngine.tsx:13-15 | year i costs the first-year price times (1 + escalation / 100) to the power i |
| PricingEngine.YearCount | PricingEngine.tsx:11-13 | the projection always has at least one year: the term when it is at least 1, otherwise 1 |
| PricingEngine.PriceSeries | PricingEngine.tsx:9-18 | one entry per year, each the first-year price escalated by its year index |
| PricingEngine.CalculatePricing | PricingEngine.tsx:9-18 | the loop's list starts at base times (1 + markup / 100); each later entry is the previous one escalated; it equals the price series |
| PricingEngine.TotalValue | PricingEngine.tsx:21 | the total is the sum of the yearly prices, and at least the first year's when no price is negative |
| PricingEngine.SeriesNonDecreasing | PricingEngine.tsx:14 | with a non-negative first year and escalation, no year is negative and none costs less than the year before |
| PricingEngine.ShortTermSingleEntry | PricingEngine.tsx:11-13 | zero, negative and one-year terms give only the first-year price |
| PricingEngine.DefaultProjection | PricingEngine.tsx:4-7 | the defaults give 115,000, 118,450 and 122,003.5, a total of 355,453.5 |
| NaicsSelector.AddCode | NAICSSelector.tsx:25-30 | a non-empty new code is appended; an empty or present code changes nothing; the input is cleared either way |
| NaicsSelector.RemoveCode | NAICSSelector.tsx:32-34 | the code is gone, every other code stays, and the order is kept |
| NaicsSelector.AddCodePreservesValid | NAICSSelector.tsx:25-30 | adding keeps the selection free of duplicates and of the empty code |
| NaicsSelector.RemoveCodePreservesValid | NAICSSelector.tsx:32-34 | removing keeps the selection free of duplicates and of the empty code |
| NaicsSelector.AddCodeIdempotent | NAICSSelector.tsx:26 | adding a code twice is the same as adding it once |
| NaicsSelector.AddCodeDoesNotTrim | NAICSSelector.tsx:26-27 | codes are taken verbatim: a code with a trailing space is listed next to the bare code |
| NaicsSelector.AddThenRemoveCode | NAICSSelector.tsx:25-34 | adding a new code and removing it restores the selection |
| BulkTagEditor.AddTag | BulkTagEditor.tsx:19-24 | the trimmed input is appended when non-empty and new, and only then is the input cleared |
| BulkTagEditor.RemoveTag | BulkTagEditor.tsx:26-28 | the tag is gone, the other tags stay in their order, and the input is untouched |
| BulkTagEditor.Save | BulkTagEditor.tsx:30-35 | the collected tags are handed over and the editor is reset |
| BulkTagEditor.EmptyEditorValid | BulkTagEditor.tsx:16-17 | the initial editor holds distinct trimmed tags (none) |
| BulkTagEditor.AddTagPreservesValid | BulkTagEditor.tsx:19-24 | adding keeps the tags distinct, trimmed and non-empty |
| BulkTagEditor.RemoveTagPreservesValid | BulkTagEditor.tsx:26-28 | removing keeps the tags distinct, trimmed and non-empty |
| BulkTagEditor.AddExistingTagIsNoop | BulkTagEditor.tsx:20 | retyping a listed tag, even padded with spaces, changes nothing, and the input is not cleared |
| BulkTagEditor.AddThenRemoveTag | BulkTagEditor.tsx:19-28 | adding a fresh tag and removing it gives back the tag list |
| SubcontractorList.FilterSubcontractors | SubcontractorList.tsx:11-14 | a subcontractor is kept exactly when its name or one of its services contains the term ignoring case |
| SubcontractorList.FilterSubcontractorsIsSubsequence | SubcontractorList.tsx:11 | the result keeps the input order |
| SubcontractorList.EmptyTermKeepsAll | SubcontractorList.tsx:9-14 | the empty term hides nothing |
| SubcontractorList.NoServicesNameOnly | SubcontractorList.tsx:13 | without a service list only the name is searched |
| SubcontractorList.ShownServices | SubcontractorList.tsx:34 | a card shows the first three services, or all of them when there are fewer |
| SamSyncConfig.DefaultConfig | SamSyncConfig.tsx:44-54 | the default row: its name, empty keyword and NAICS lists, the four set-asides, the four source types, 14 days before due, 3 months back, active |
| SamSyncConfig.ClearInput | SamSyncConfig.tsx:91-103 | only the edited list's input is cleared |
| SamSyncConfig.ApplyPatch | SamSyncConfig.tsx:121-129 | an update changes only its own column |
| SamSyncConfig.UpdateConfig | SamSyncConfig.tsx:121-129 | the panel shows the updated row, or no row after a failed update |
| SamSyncConfig.AddEntry | SamSyncConfig.tsx:87-104 | a blank input or a missing row does nothing; otherwise the trimmed input is appended without a duplicate check and the input is cleared; the other list, its input and the rest of the configuration are unchanged |
| SamSyncConfig.RemoveEntry | SamSyncConfig.tsx:94-109 | every copy of the entry is dropped, and the other list is unchanged |
| SamSyncConfig.AddEntryKeepsDuplicates | SamSyncConfig.tsx:89 | adding a keyword already present lists it twice |
| SamSyncConfig.AddThenRemoveEntry | SamSyncConfig.tsx:87-97 | adding a new entry and removing it restores the list |
| SamSyncConfig.ToggleAutoSync | SamSyncConfig.tsx:111-119 | only the active flag changes |
| SamSyncConfig.FailedUpdateDisablesEditing | SamSyncConfig.tsx:121-129 | after a failed update the panel has no row, so adding does nothing until it is reloaded |
| ProposalComparison.AddSlot | ProposalComparison.tsx:39-41 | one empty slot is appended and the others are kept |
| ProposalComparison.RemoveSlot | ProposalComparison.tsx:43-45 | the slot at the index is spliced out and the later slots shift down; an index out of range changes nothing |
| ProposalComparison.Upload | ProposalComparison.tsx:25-37 | a chosen file replaces exactly its slot; no file changes nothing |
| ProposalComparison.Compare | ProposalComparison.tsx:47-51 | refused with the two-proposals message exactly when fewer than two slots exist; otherwise every slot is sent |
| ProposalComparison.FailureMessage | ProposalComparison.tsx:64 | the service's message when it gives one, otherwise the fixed failure text |
| ProposalComparison.EnabledCompareIsRequested | ProposalComparison.tsx:106 | an enabled button always reaches the service |
| ProposalComparison.EmptySlotsPassGuard | ProposalComparison.tsx:39-51 | two never-filled slots already pass the guard |
| ProposalComparison.ChartData | ProposalComparison.tsx:126-133 | one bar group per score, in order, with its name and five metric values; nothing without scores |
| ProposalComparison.SeriesKeysDistinct | ProposalComparison.tsx:139 | different proposals get different series keys |
| ProposalComparison.RadarData | ProposalComparison.tsx:136-142 | exactly five rows, one per metric, each with the keyed value of every proposal |
| ProposalComparison.ChartsAgree | ProposalComparison.tsx:126-142 | a proposal shows the same metric value in both charts |
| ProposalComparison.SeriesColorCycle | ProposalComparison.tsx:202-203 | two series share a colour exactly when their positions agree mod 6 |
| TemplateApprovalWorkflow.Submit | TemplateApprovalWorkflow.tsx:35-50 | a successful update makes the template pending; a failed one changes nothing |
| TemplateApprovalWorkflow.Approve | TemplateApprovalWorkflow.tsx:52-73 | a successful update records approved, the approver and the time |
| TemplateApprovalWorkflow.Reject | TemplateApprovalWorkflow.tsx:75-95 | refused without a reason; otherwise a successful update makes it rejected |
| TemplateApprovalWorkflow.Offered | TemplateApprovalWorkflow.tsx:120-127 | buttons appear only on draft or pending templates; the decision buttons only for administrators and the submit button only for others |
| TemplateApprovalWorkflow.Press | TemplateApprovalWorkflow.tsx:120-145 | a press either leaves the row unchanged (a failed update, or a rejection without a reason) or moves the template to the button's own status, and it moves it whenever the update succeeds and any needed reason is given |
| TemplateApprovalWorkflow.OnlyUiTransitions | TemplateApprovalWorkflow.tsx:120-127 | through the offered buttons the status stays or moves draft to pending, or pending to approved or rejected |
| TemplateApprovalWorkflow.UiTransitionsReachable | TemplateApprovalWorkflow.tsx:120-127 | each of those three moves is made by some offered button |
| TemplateApprovalWorkflow.SubmitAndDecideExclusive | TemplateApprovalWorkflow.tsx:120-127 | the submit and decision buttons are never offered together |
| TemplateApprovalWorkflow.PressKeepsConsistent | TemplateApprovalWorkflow.tsx:147 | offered moves keep the approval date shown exactly for approved templates |
| TemplateApprovalWorkflow.ReasonNotStored | TemplateApprovalWorkflow.tsx:76-84 | the reason is demanded but not stored: two reasons give the same row |
| TemplateVersionHistory.Backup | TemplateVersionHistory.tsx:46-52 | the backup row records the template's current number and content as a pre-restore backup by the restoring user |
| TemplateVersionHistory.Restore | TemplateVersionHistory.tsx:33-66 | a missing template changes nothing; otherwise each write independently appends the backup or sets the chosen content with the number raised by one |
| TemplateVersionHistory.RestoreGrows | TemplateVersionHistory.tsx:46-61 | a successful restore adds one version row and raises the number |
| TemplateVersionHistory.RestoreAllCounts | TemplateVersionHistory.tsx:59 | n successful restores raise the number by n and add n rows |
| TemplateVersionHistory.RestoreBackupUndoes | TemplateVersionHistory.tsx:46-61 | restoring the backup just made brings the earlier content back, two numbers further on |
| TemplateVersionHistory.FailedBackupLosesContent | TemplateVersionHistory.tsx:46-61 | the writes are unchecked: a failed backup with a successful update keeps the old content nowhere |
| ProposalBuilder.MaxVersion | ProposalBuilder.tsx:42 | the highest stored number, which the newest-first query returns |
| ProposalBuilder.NextVersion | ProposalBuilder.tsx:43 | above every stored number; 1 for the first save; one more than a stored number otherwise |
| ProposalBuilder.NextVersionAfterSave | ProposalBuilder.tsx:43-45 | two saves are numbered one after the other |
| ProposalBuilder.SaveManyNumbers | ProposalBuilder.tsx:43-45 | k saves raise the next number by k |
| ProposalBuilder.SaveVersion | ProposalBuilder.tsx:40-48 | the row holds the content, a number above all stored ones, "Manual save", the user's id, and a non-empty author name without "@" ("User" when signed out) |
| ProposalBuilder.AuthorIsLocalPart | ProposalBuilder.tsx:45 | the author of local@domain is local |
| ProposalBuilder.GenerateNeedsSolicitation | ProposalBuilder.tsx:68 | the generate button is disabled without a solicitation |
| Text.UserNameFromEmail | CommentThread.tsx:42 | the author name is never empty and never contains "@"; it is "User" without an address, for an empty address and for one starting with "@"; it is the whole address when that has no "@", and otherwise the part before the first "@", a prefix of the address |
| Text.UserNameOfAddress | CommentThread.tsx:42 | the user name of an address is the part before its first "@" |
| Text.CommaTags | DocumentLibrary.tsx:86 | every parsed tag is non-empty, trimmed and free of commas |
| Text.CommaTagsOfPieces | DocumentLibrary.tsx:86 | parsing comma-joined pieces gives the pieces trimmed, in order, with those that trim to nothing dropped |
| Text.CommaTagsExample | TemplatesLibrary.tsx:51 | " a, ,b " parses to "a" and "b" |
| Text.CommaTagsRoundTrip | DocumentLibrary.tsx:86 | splitting a comma-joined list of tags, trimming and dropping empties, gives the tags back |
| TemplateRatingReview.Average | TemplateRatingReview.tsx:33-36 | with ratings, average times count is the sum; without, the previous value stays |
| TemplateRatingReview.LoadAverage | TemplateRatingReview.tsx:33-36 | the left-to-right fold computes that average |
| TemplateRatingReview.AverageInStarRange | TemplateRatingReview.tsx:33-36 | with ratings of 1 to 5 stars, the average is between 1 and 5 |
| TemplateRatingReview.UserRows | TemplateRatingReview.tsx:38-46 | exactly the rows of the user |
| TemplateRatingReview.LoadUserRating | TemplateRatingReview.tsx:38-46 | a loaded rating is the user's own row; none is loaded only when the user does not have exactly one |
| TemplateRatingReview.OneRowPerUserBound | TemplateRatingReview.tsx:38-46 | with one row per user, a user has at most one row |
| TemplateRatingReview.SubmitRating | TemplateRatingReview.tsx:60-71 | the loaded row is updated by id, or a row is inserted when none was loaded |
| TemplateRatingReview.SubmitKeepsOneRowPerUser | TemplateRatingReview.tsx:38-71 | with the rating freshly loaded, submitting never gives a user a second row |
| TemplateRatingReview.StaleSecondSubmitDuplicates | TemplateRatingReview.tsx:57-85 | a user with no row who submits twice, the second time before the un-awaited reload finishes, gets two rows, and from then on no rating loads for them |
| TemplateRatingReview.SubmitReview | TemplateRatingReview.tsx:73-84 | a review is written exactly when text was entered, and the box is emptied |
| TemplateRatingReview.FilledStarsArePrefix | TemplateRatingReview.tsx:97 | the filled stars are a leading run |
| TemplateRatingReview.HoveredStarsShowHover | TemplateRatingReview.tsx:97 | while hovering, exactly the stars up to the hovered one are filled |
| TemplateRatingReview.SubmitNeedsRating | TemplateRatingReview.tsx:115 | submitting is possible exactly when a star is chosen |
| TemplateRatingReview.RestingStarsShowRating | TemplateRatingReview.tsx:97 | without hovering exactly the first rating stars are filled |
| TemplateAnalytics.SuccessRate | TemplateAnalytics.tsx:38 | undefined exactly when there are no events; otherwise a percentage equal to 100 times successes over events |
| TemplateAnalytics.ComputeStats | TemplateAnalytics.tsx:34-40 | each count is the number of events with that action, and the three together never exceed the events; the rate is undefined exactly without events and otherwise a percentage of successful events; the win total adds the win values, a missing one as 0, so with no negative values it is positive exactly when some event won something |
| TemplateAnalytics.PositiveTotalHasWin | TemplateAnalytics.tsx:39 | a positive total needs some event with a positive win value |
| TemplateAnalytics.WinSumPositiveIffSomeWin | TemplateAnalytics.tsx:39 | with no negative win values, the total is positive exactly when some event won a positive value |
| TemplateAnalytics.WinCardIffSomeWin | TemplateAnalytics.tsx:107 | with no negative win values, the value card is shown exactly when some event won something |
| CommentThread.AddComment | CommentThread.tsx:37-47 | a blank comment is ignored; otherwise the untrimmed text is inserted, unresolved, under a non-empty name without "@"; the box is cleared only on success and the store's error is shown on failure |
| CommentThread.CommentAuthor | CommentThread.tsx:42 | a comment from local@domain is signed local |
| CommentThread.AnonymousAuthor | CommentThread.tsx:42 | a signed-out comment is signed "User" |
| CommentThread.ToggleResolved | CommentThread.tsx:49-51 | rows with the id get the negation of the shown flag; others are unchanged |
| CommentThread.ToggleTwice | CommentThread.tsx:49-51 | clicking twice on what is shown restores the thread |
| CommentThread.ToggleFlips | CommentThread.tsx:49-51 | a click flips the clicked comment |
| DocumentPreviewModal.RenderPreview | DocumentPreviewModal.tsx:85-99 | loading until the URL exists; then image for an image/ prefix, the PDF frame only for exactly application/pdf, the text frame for a text/ prefix, a download otherwise |
| DocumentPreviewModal.MissingTypeFallsBack | DocumentPreviewModal.tsx:88 | a file without a type is offered for download |
| DocumentPreviewModal.PdfDisagreement | DocumentPreviewModal.tsx:90-97 | a type mentioning pdf other than exactly application/pdf is filed as PDF in the library but only offered for download in the preview |
| DocumentPreviewModal.XPdfExample | DocumentPreviewModal.tsx:90-97 | for instance application/x-pdf |
| DocumentPreviewModal.AddComment | DocumentPreviewModal.tsx:60-74 | a blank comment is ignored; otherwise it is inserted as typed and the box is cleared only on success |
| DocumentPreviewModal.WhitespaceCommentIgnored | DocumentPreviewModal.tsx:61 | a comment of spaces never reaches the store |
| ScoreBadge.GetColor | ScoreBadge.tsx:7-12 | the four bands at 85, 70 and 50, each characterised in both directions |
| ScoreBadge.GetColorMonotone | ScoreBadge.tsx:7-12 | a higher score never gets a lower band |
| ScoreBadge.Boundaries | ScoreBadge.tsx:8-10 | each threshold belongs to the upper band |
| ScoreBadge.ClassesDistinct | ScoreBadge.tsx:8-11 | different bands have different classes |
| ProposalEvaluator.Evaluate | ProposalEvaluator.tsx:59-69 | refused with an alert exactly when either text is empty; otherwise the request carries both texts, the contract type and the agency as entered |
| ProposalEvaluator.FailureAlert | ProposalEvaluator.tsx:78 | the alert is the fixed prefix followed by the error message |
| ProposalEvaluator.GetScoreColor | ProposalEvaluator.tsx:84-88 | green from 80, yellow from 60, red below, in both directions |
| ProposalEvaluator.ScoreColorMonotone | ProposalEvaluator.tsx:84-88 | a higher score never gets a worse colour |
| ProposalEvaluator.GetSeverityColor | ProposalEvaluator.tsx:90-97 | critical and high are destructive, medium default, anything else secondary |
| ProposalEvaluator.IssueAlertVariant | ProposalEvaluator.tsx:256 | an issue's alert is destructive or default |
| ProposalEvaluator.AlertAgreesWithBadge | ProposalEvaluator.tsx:256 | an issue's alert is destructive exactly when its badge is |
| ProposalEvaluator.SectionBadge | ProposalEvaluator.tsx:214 | a section badge is destructive exactly below 70 |
| ProposalEvaluator.SectionBadgeNests | ProposalEvaluator.tsx:214 | a red section badge never goes with a green score colour |
| ProposalEvaluator.PriorityBadge | ProposalEvaluator.tsx:280 | high destructive, medium default, anything else secondary |
| ProposalEvaluator.PriorityMatchesSeverity | ProposalEvaluator.tsx:280 | priority and severity badges agree except that critical is only a severity |
| StatusBadge.GetStyles | StatusBadge.tsx:7-24 | on the upper-cased status each known style is chosen exactly for its status; REJECT and all unknown statuses are grey |
| StatusBadge.StylesIgnoreCase | StatusBadge.tsx:8 | the style does not depend on letter case |
| StatusBadge.RejectLooksUnknown | StatusBadge.tsx:13-22 | a rejected opportunity looks like one with an unknown status |
| Text.StatusLabel | StatusBadge.tsx:28 | the label has the status's length, and a status without underscores is shown as is |
| Text.StatusLabelReplacesFirstOnly | StatusBadge.tsx:28 | only the first underscore becomes a space |
| StatusBadge.LabelExample | StatusBadge.tsx:28 | A_B_C shows as "A B_C" |
| ScheduledSyncStatus.GetStatusIcon | ScheduledSyncStatus.tsx:39-46 | each icon exactly for its status; any other status gets the red alert |
| ScheduledSyncStatus.GetStatusColor | ScheduledSyncStatus.tsx:48-55 | each variant exactly for its status; any other status is destructive |
| ScheduledSyncStatus.IconAndColorAgree | ScheduledSyncStatus.tsx:39-55 | the badge determines the icon, and two statuses share an icon exactly when they share a badge |
| ScheduledSyncStatus.LabelExample | ScheduledSyncStatus.tsx:90 | completed_with_errors shows as "completed with_errors" |
| ScheduledSyncStatus.CountsOnlyForGreenRuns | ScheduledSyncStatus.tsx:92-96 | counts are shown exactly for runs with the green check |
| WorkflowTracker.FindIndex | WorkflowTracker.tsx:15 | the first stage with the id, or -1 exactly when none has it |
| WorkflowTracker.StageFlags | WorkflowTracker.tsx:22-24 | a stage is complete exactly before the current index, current exactly at it, and pending exactly after it |
| WorkflowTracker.Circles | WorkflowTracker.tsx:22-33 | one circle per stage: green exactly before the first stage with the current id, blue exactly at it, grey otherwise |
| WorkflowTracker.FlagsPartition | WorkflowTracker.tsx:22-24 | exactly one of the three flags holds for each stage |
| WorkflowTracker.KnownStage | WorkflowTracker.tsx:15-33 | for a known stage the earlier circles are green, its own blue, and the later grey |
| WorkflowTracker.StageIdsDistinct | WorkflowTracker.tsx:6-13 | the six stage ids are distinct |
| WorkflowTracker.UnknownStage | WorkflowTracker.tsx:15-24 | an unknown stage leaves every stage pending and grey |
| WorkflowTracker.Connectors | WorkflowTracker.tsx:42-45 | one connector between each pair of neighbours, green exactly when its left stage is complete |
| WorkflowTracker.ConnectorsUpToCurrent | WorkflowTracker.tsx:42-45 | the green connectors run exactly up to the current stage |
| OpportunityCard.DaysRemaining | OpportunityCard.tsx:10 | the least whole number of days covering the time to the due date |
| OpportunityCard.UrgentIffWithinAWeek | OpportunityCard.tsx:11 | urgent exactly when the due date is at most seven days away |
| OpportunityCard.PastDueIsUrgent | OpportunityCard.tsx:10-11 | a past-due opportunity shows zero or fewer days and is urgent |
| OpportunityCard.DaysRemainingMonotone | OpportunityCard.tsx:10 | a later due date never shows fewer days |
| OpportunityCard.ExactDays | OpportunityCard.tsx:10 | exactly k days ahead shows k, and one millisecond ahead shows 1 |

## Left out

- Store reads and writes, realtime subscriptions, and the evaluation, comparison, generation and e-mail services: outside the logic. Stored rows, write outcomes and service results are parameters.
- Load-time ordering: the store's `order(...)` clauses, the version list, the top-templates list and the sync history are not modelled. The filters preserve whatever order they are given.
- Date parsing: `created_at`, the opportunity due dates and `Date.now()` are caller-supplied timestamps in milliseconds. A date input's "YYYY-MM-DD" value is the number of its day, read as midnight UTC of that day (`Dates.DayStart`). Turning the string into that number is not modelled. An empty date input is `None`.
- DocumentFilterPanel.LoadSearch: the Max field shows nothing for a loaded null maximum, while a typed 0 shows "0". The field's display after a load is not modelled, only the filtering and counting it causes.
- Number formatting: `toFixed`, `toLocaleString` and the "$…M" total string. The model keeps the exact numbers.
- JavaScript `NaN` and `undefined` arithmetic: a missing estimated value is modelled as 0, as JavaScript's `null < x` compares it. The analytics success rate for zero events (0/0) is `None`. Win values are exact reals.
- Unicode: case mapping covers ASCII letters only, and trimming covers the ASCII whitespace characters.
- Browser objects: the `File` read, the object URL and the download anchor. A chosen file is its name and text.
- The upload handler in the comparison page reads the slot list from the closure it was created in; concurrent uploads racing on a stale list are not modelled.
- Timers, toasts other than their text, dialogs opening and closing, loading flags, and the layout of the pages.
- The sync-now button, manual refresh and loading a configuration are store calls without logic of their own.
- The version preview and switching in the proposal builder, and the template preview modal: they only display stored rows.
- The delete, bulk delete, bulk move, bulk tag save and folder creation handlers of the document library: each is a single store write with a toast.
- TemplateRatingReview.SubmitKeepsOneRowPerUser: submits are modelled one at a time, each on a completed load. The reload after a submit (TemplateRatingReview.tsx:83) is not awaited, so a second submit before it finishes takes the insert branch again; `StaleSecondSubmitDuplicates` shows the second row that results.
- SamSyncConfig.RemoveEntry: reads a list stored as null as the empty list. The source's remove handlers would fail on a null list, but a null list renders no entries, so no remove button exists for it.
- PricingEngine.CalculatePricing: prices are exact reals rather than IEEE doubles, so rounding of the floating-point products is not modelled.

## Findings

| source | as written | input that shows it | evidently intended | confidence | as-written member | corrected member |
|---|---|---|---|---|---|---|
| DocumentFilterPanel.tsx:44-59 | the saved search's filters are sent to the store as JSON, which writes the unbounded maximum Infinity as null; loading hands that null to the filters, and `null` compares as 0 in both the active-filter count and the library's size test | save a search with the Max field empty (for instance right after Clear All), then load it: only 0-byte documents remain and the size group counts as active | loading a saved search restores the filters it was saved with | not executed | DocumentFilterPanel.UnboundedSearchReloadsAsZeroCap | DocumentFilterPanel.SaveThenLoadCorrected |

=== FILE: app_layout.dfy ===
/** The opportunity pipeline of the dashboard page: the record filter applied
    to the loaded solicitations, the headline statistics, and the quick-action
    navigation. */
module AppLayout {
  import opened Options
  import Seqs
  import Text

  /** A solicitation row. `estimatedValue`, `naicsCode` and
      `placeOfPerformance` may be missing in the store. */
  datatype Opportunity = Opportunity(
    id: string,
    title: string,
    classification: string,
    status: string,
    estimatedValue: Option<real>,
    naicsCode: Option<string>,
    placeOfPerformance: Option<string>,
    dueDate: int)

  /** The filter object. Every key may be absent from the JavaScript object;
      `None` stands for an absent key. */
  datatype Filters = Filters(
    classification: Option<string>,
    status: Option<string>,
    search: Option<string>,
    minValue: Option<real>,
    maxValue: Option<real>,
    naicsCodes: Option<seq<string>>,
    zipCode: Option<string>,
    radius: Option<real>)

  /** The page's initial filter state: the three basic keys, all empty. */
  const InitialFilters := Filters(Some(""), Some(""), Some(""), None, None, None, None, None)

  /** A classification or status selector constrains only when it holds a
      value other than "" and the wildcard "all". */
  predicate SelectorActive(v: Option<string>) {
    v.Some? && v.value != "" && v.value != "all"
  }

  predicate MatchesSelector(v: Option<string>, actual: string) {
    !SelectorActive(v) || actual == v.value
  }

  predicate MatchesSearch(search: Option<string>, title: string) {
    search.None? || search.value == "" || Text.ContainsIgnoringCase(title, search.value)
  }

  /** A missing value compares as 0 (`null < x` in JavaScript). */
  function ValueOrZero(o: Opportunity): real {
    o.estimatedValue.GetOr(0.0)
  }

  predicate MatchesValue(f: Filters, o: Opportunity) {
    && (f.minValue.None? || ValueOrZero(o) >= f.minValue.value)
    && (f.maxValue.None? || ValueOrZero(o) <= f.maxValue.value)
  }

  /** Some listed code occurs in the record's NAICS code (missing = ""). */
  predicate NaicsListed(codes: seq<string>, naics: string) {
    exists i :: 0 <= i < |codes| && Text.Contains(naics, codes[i])
  }

  predicate MatchesNaics(f: Filters, o: Opportunity) {
    f.naicsCodes.None? || |f.naicsCodes.value| == 0 || NaicsListed(f.naicsCodes.value, o.naicsCode.GetOr(""))
  }

  /** The geographic block extracts a ZIP code from the place of performance
      but its branch body is empty, so it never rejects a record. */
  predicate MatchesZip(f: Filters, o: Opportunity) {
    true
  }

  /** A record is kept when it passes every predicate. */
  predicate Keep(f: Filters, o: Opportunity) {
    && MatchesSelector(f.classification, o.classification)
    && MatchesSelector(f.status, o.status)
    && MatchesSearch(f.search, o.title)
    && MatchesValue(f, o)
    && MatchesNaics(f, o)
    && MatchesZip(f, o)
  }

  /** `filteredOpps`: the records passing every active predicate, in their
      original order. */
  function FilterOpportunities(opps: seq<Opportunity>, f: Filters): (r: seq<Opportunity>)
    ensures |r| <= |opps|
    ensures forall o :: o in r <==> o in opps && Keep(f, o)
  {
    Seqs.Filter(opps, o => Keep(f, o))
  }

  /** The result is an order-preserving subsequence of the input. */
  lemma FilterOpportunitiesIsSubsequence(opps: seq<Opportunity>, f: Filters)
    ensures Seqs.IsSubsequence(FilterOpportunities(opps, f), opps)
  {
    Seqs.FilterIsSubsequence(opps, o => Keep(f, o));
  }

  /** Every kept record satisfies each predicate, and every dropped record
      violates at least one of them. */
  lemma FilterOpportunitiesExact(opps: seq<Opportunity>, f: Filters, o: Opportunity)
    requires o in opps
    ensures o in FilterOpportunities(opps, f) <==>
      && (!SelectorActive(f.classification) || o.classification == f.classification.value)
      && (!SelectorActive(f.status) || o.status == f.status.value)
      && (f.search.None? || f.search.value == "" || Text.Contains(Text.ToLower(o.title), Text.ToLower(f.search.value)))
      && (f.minValue.None? || o.estimatedValue.GetOr(0.0) >= f.minValue.value)
      && (f.maxValue.None? || o.estimatedValue.GetOr(0.0) <= f.maxValue.value)
      && (f.naicsCodes.None? || |f.naicsCodes.value| == 0 ||
          exists i :: 0 <= i < |f.naicsCodes.value| && Text.Contains(o.naicsCode.GetOr(""), f.naicsCodes.value[i]))
  {
  }

  /** Selectors: "" and "all" disable the predicate, anything else demands
      exact equality. */
  lemma SelectorRule(v: string, actual: string)
    ensures MatchesSelector(Some(v), actual) <==> v == "" || v == "all" || actual == v
    ensures MatchesSelector(None, actual)
  {
  }

  /** With all predicates inactive (the initial state) the input is returned
      unchanged. */
  lemma InitialFiltersKeepAll(opps: seq<Opportunity>)
    ensures FilterOpportunities(opps, InitialFilters) == opps
  {
    Seqs.FilterAll(opps, o => Keep(InitialFilters, o));
  }

  /** Filtering twice with the same filters is the same as filtering once. */
  lemma FilterOpportunitiesIdempotent(opps: seq<Opportunity>, f: Filters)
    ensures FilterOpportunities(FilterOpportunities(opps, f), f) == FilterOpportunities(opps, f)
  {
    Seqs.FilterIdempotent(opps, o => Keep(f, o));
  }

  /** The ZIP code and radius never influence the result. */
  lemma ZipCodeIgnored(opps: seq<Opportunity>, f: Filters, zip: Option<string>, radius: Option<real>)
    ensures FilterOpportunities(opps, f.(zipCode := zip, radius := radius)) == FilterOpportunities(opps, f)
  {
    var g := f.(zipCode := zip, radius := radius);
    Seqs.FilterCongruent(opps, o => Keep(g, o), o => Keep(f, o));
  }

  /** Both value bounds are inclusive. */
  lemma ValueBoundsInclusive(f: Filters, o: Opportunity)
    requires f.minValue.Some? && f.maxValue.Some?
    requires ValueOrZero(o) == f.minValue.value || ValueOrZero(o) == f.maxValue.value
    requires f.minValue.value <= f.maxValue.value
    ensures MatchesValue(f, o)
  {
  }

  /** A record without a value behaves as one worth 0: a positive minimum
      excludes it. */
  lemma MissingValueIsZero(f: Filters, o: Opportunity)
    requires o.estimatedValue.None? && f.minValue.Some? && f.minValue.value > 0.0
    ensures !Keep(f, o)
  {
  }

  /** NAICS matching is by substring: "5415" selects "541512", "9999" does not. */
  lemma NaicsSubstringExample(o: Opportunity)
    requires o.naicsCode == Some("541512")
    ensures MatchesNaics(InitialFilters.(naicsCodes := Some(["5415"])), o)
    ensures !MatchesNaics(InitialFilters.(naicsCodes := Some(["9999"])), o)
  {
    assert Text.StartsWith("541512"[0..], "5415");
    var codes := ["5415"];
    assert Text.Contains("541512", codes[0]);
    forall i | 0 <= i <= 2 ensures !Text.StartsWith("541512"[i..], "9999") {
      assert "541512"[i..][0] != '9';
    }
  }

  /** A missing NAICS code is the empty string, which no non-empty code list
      entry can occur in. */
  lemma MissingNaicsExcluded(f: Filters, o: Opportunity)
    requires o.naicsCode.None? && f.naicsCodes.Some?
    requires |f.naicsCodes.value| > 0 && forall i :: 0 <= i < |f.naicsCodes.value| ==> f.naicsCodes.value[i] != ""
    ensures !Keep(f, o)
  {
    forall i | 0 <= i < |f.naicsCodes.value| ensures !Text.Contains("", f.naicsCodes.value[i]) {
      Text.ContainsLength("", f.naicsCodes.value[i]);
    }
  }

  /** Sum of the estimated values, a missing one counting as 0. */
  function SumValues(opps: seq<Opportunity>): real {
    if |opps| == 0 then 0.0 else ValueOrZero(opps[0]) + SumValues(opps[1..])
  }

  /** The value sum distributes over concatenation. */
  lemma {:induction false} SumValuesAppend(a: seq<Opportunity>, b: seq<Opportunity>)
    ensures SumValues(a + b) == SumValues(a) + SumValues(b)
  {
    if |a| > 0 {
      assert (a + b)[1..] == a[1..] + b;
      SumValuesAppend(a[1..], b);
    } else {
      assert a + b == b;
    }
  }

  /** The value sum is non-negative when no record has a negative value. */
  lemma {:induction false} SumValuesNonNegative(opps: seq<Opportunity>)
    ensures (forall i :: 0 <= i < |opps| ==> ValueOrZero(opps[i]) >= 0.0) ==> SumValues(opps) >= 0.0
  {
    if |opps| > 0 {
      SumValuesNonNegative(opps[1..]);
      assert forall i :: 0 <= i < |opps[1..]| ==> opps[1..][i] == opps[i + 1];
    }
  }

  predicate IsPrime(o: Opportunity) { o.classification == "PRIME" }

  predicate IsProposalDraft(o: Opportunity) { o.status == "proposal_draft" }

  datatype Stats = Stats(active: nat, prime: nat, proposals: nat, totalValue: real)

  /** `stats`: counts over ALL loaded records (not the filtered ones). */
  function ComputeStats(opps: seq<Opportunity>): (s: Stats)
    ensures s.active == |opps|
    ensures s.prime <= s.active && s.proposals <= s.active
    ensures s.prime == |Seqs.Filter(opps, IsPrime)| && s.proposals == |Seqs.Filter(opps, IsProposalDraft)|
    ensures s.totalValue == SumValues(opps)
    ensures (forall i :: 0 <= i < |opps| ==> ValueOrZero(opps[i]) >= 0.0) ==> s.totalValue >= 0.0
  {
    SumValuesNonNegative(opps);
    Stats(|opps|, Seqs.Count(opps, IsPrime), Seqs.Count(opps, IsProposalDraft), SumValues(opps))
  }

  /** The statistics of two batches of records add up. */
  lemma StatsAppend(a: seq<Opportunity>, b: seq<Opportunity>)
    ensures ComputeStats(a + b).active == ComputeStats(a).active + ComputeStats(b).active
    ensures ComputeStats(a + b).prime == ComputeStats(a).prime + ComputeStats(b).prime
    ensures ComputeStats(a + b).proposals == ComputeStats(a).proposals + ComputeStats(b).proposals
    ensures ComputeStats(a + b).totalValue == ComputeStats(a).totalValue + ComputeStats(b).totalValue
  {
    Seqs.FilterAppend(a, b, IsPrime);
    Seqs.FilterAppend(a, b, IsProposalDraft);
    SumValuesAppend(a, b);
  }

  /** The statistics of a single record: it is active, counted by its own
      classification and status, and its value is its estimate, 0 when
      missing. With `StatsAppend` this pins the statistics of any list. */
  lemma StatsOfOne(o: Opportunity)
    ensures ComputeStats([o]).active == 1
    ensures ComputeStats([o]).prime == (if IsPrime(o) then 1 else 0)
    ensures ComputeStats([o]).proposals == (if IsProposalDraft(o) then 1 else 0)
    ensures ComputeStats([o]).totalValue == ValueOrZero(o)
    ensures o.estimatedValue.None? ==> ComputeStats([o]).totalValue == 0.0
  {
    assert [o][1..] == [];
    assert SumValues([o]) == ValueOrZero(o) + SumValues([]);
    assert IsPrime(o) ==> o in Seqs.Filter([o], IsPrime);
    assert IsProposalDraft(o) ==> o in Seqs.Filter([o], IsProposalDraft);
  }

  /** `handleQuickAction`: three actions switch the view, any other action
      leaves it unchanged. */
  function QuickAction(view: string, action: string): (r: string)
    ensures r == view || r in {"opportunities", "proposals", "subcontractors"}
    ensures action == "search" ==> r == "opportunities"
    ensures action == "proposal" ==> r == "proposals"
    ensures action == "outreach" ==> r == "subcontractors"
    ensures action != "search" && action != "proposal" && action != "outreach" ==> r == view
  {
    if action == "search" then "opportunities"
    else if action == "proposal" then "proposals"
    else if action == "outreach" then "subcontractors"
    else view
  }

  /** Repeating a quick action has no further effect. */
  lemma QuickActionIdempotent(view: string, action: string)
    ensures QuickAction(QuickAction(view, action), action) == QuickAction(view, action)
  {
  }
}

=== FILE: badges.dfy ===
/** The badge variants of the UI kit, shared by the components that map a
    value onto a badge. */
module Badges {
  datatype Variant = Default | Secondary | Outline | Destructive {
    /** The variant's name as the components write it. */
    function Name(): string {
      match this
      case Default => "default"
      case Secondary => "secondary"
      case Outline => "outline"
      case Destructive => "destructive"
    }
  }
}

=== FILE: comment_thread.dfy ===
/** The comment thread of a proposal section: adding a comment under the
    signed-in user's name, and flipping a comment's resolved flag. */
module CommentThread {
  import opened Options
  import Text

  datatype CommentRow = CommentRow(
    id: string,
    proposalId: string,
    section: string,
    content: string,
    userId: Option<string>,
    userName: string,
    resolved: bool)

  /** What `addComment` does: the row it inserts (if it gets that far), the
      text left in the box, and the notice shown. */
  datatype AddResult = AddResult(inserted: Option<CommentRow>, input: string, notice: Option<string>)

  /** `addComment`: a blank comment is ignored. Otherwise the text, as
      typed, is inserted under the user's name; the box is cleared only when
      the insert succeeded, and the store's message is shown when it did
      not. */
  function AddComment(input: string, newId: string, proposalId: string, section: string,
                      userId: Option<string>, email: Option<string>,
                      insertError: Option<string>): (r: AddResult)
    ensures Text.IsBlank(input) ==> r == AddResult(None, input, None)
    ensures !Text.IsBlank(input) ==> r.inserted.Some?
    ensures !Text.IsBlank(input) ==> r.inserted.value.content == input && !r.inserted.value.resolved
    ensures !Text.IsBlank(input) ==> r.inserted.value.proposalId == proposalId && r.inserted.value.section == section
    ensures !Text.IsBlank(input) ==> r.inserted.value.userId == userId
    ensures !Text.IsBlank(input) ==> r.inserted.value.userName != "" && '@' !in r.inserted.value.userName
    ensures !Text.IsBlank(input) && insertError.None? ==> r.input == "" && r.notice == Some("Comment added")
    ensures !Text.IsBlank(input) && insertError.Some? ==> r.input == input && r.notice == insertError
  {
    if Text.Trim(input) == "" then AddResult(None, input, None)
    else
      var row := CommentRow(newId, proposalId, section, input, userId, Text.UserNameFromEmail(email), false);
      if insertError.None? then AddResult(Some(row), "", Some("Comment added"))
      else AddResult(Some(row), input, insertError)
  }

  /** The author shown for a comment is the local part of the address. */
  lemma CommentAuthor(input: string, local: string, domain: string)
    requires !Text.IsBlank(input) && local != "" && '@' !in local
    ensures AddComment(input, "c", "p", "s", None, Some(local + "@" + domain), None).inserted.value.userName == local
  {
    Text.UserNameOfAddress(local, domain);
  }

  /** A signed-out user comments as "User". */
  lemma AnonymousAuthor(input: string)
    requires !Text.IsBlank(input)
    ensures AddComment(input, "c", "p", "s", None, None, None).inserted.value.userName == "User"
  {
  }

  /** `toggleResolved(id, resolved)`: every row with that id is written the
      negation of the flag the button showed. */
  function ToggleResolved(rows: seq<CommentRow>, id: string, shown: bool): (r: seq<CommentRow>)
    ensures |r| == |rows|
    ensures forall i :: 0 <= i < |rows| && rows[i].id == id ==> r[i] == rows[i].(resolved := !shown)
    ensures forall i :: 0 <= i < |rows| && rows[i].id != id ==> r[i] == rows[i]
  {
    seq(|rows|, i requires 0 <= i < |rows| => if rows[i].id == id then rows[i].(resolved := !shown) else rows[i])
  }

  /** Clicking twice, each time on what is shown, restores the thread. */
  lemma ToggleTwice(rows: seq<CommentRow>, i: nat)
    requires i < |rows|
    requires forall k :: 0 <= k < |rows| && rows[k].id == rows[i].id ==> rows[k].resolved == rows[i].resolved
    ensures var once := ToggleResolved(rows, rows[i].id, rows[i].resolved);
      ToggleResolved(once, rows[i].id, once[i].resolved) == rows
  {
  }

  /** A click flips the comment it was made on. */
  lemma ToggleFlips(rows: seq<CommentRow>, i: nat)
    requires i < |rows|
    ensures ToggleResolved(rows, rows[i].id, rows[i].resolved)[i].resolved == !rows[i].resolved
  {
  }
}

=== FILE: dates.dfy ===
/** Days and milliseconds as the browser's `Date` counts them: timestamps
    are milliseconds since 1970-01-01T00:00Z, and the value "YYYY-MM-DD" of a
    date-only input is read by `new Date(...)` as midnight UTC of that day.
    Days are numbered from 1970-01-01 as day 0. */
module Dates {

  const MillisPerDay: int := 1000 * 60 * 60 * 24

  /** The timestamp of midnight UTC at the start of `day`. */
  function DayStart(day: int): int {
    day * MillisPerDay
  }

  /** The UTC day a timestamp falls on. */
  function DayOf(t: int): (day: int)
    ensures DayStart(day) <= t < DayStart(day + 1)
  {
    t / MillisPerDay
  }

  /** Day starts are ordered as the days are. */
  lemma DayStartOrder(a: int, b: int)
    ensures a <= b <==> DayStart(a) <= DayStart(b)
  {
    assert DayStart(b) - DayStart(a) == (b - a) * MillisPerDay;
  }

  /** A timestamp is at or after a day's start exactly when it falls on that
      day or a later one. */
  lemma AtOrAfterDayStart(t: int, day: int)
    ensures DayStart(day) <= t <==> day <= DayOf(t)
  {
    DayStartOrder(day, DayOf(t));
    DayStartOrder(day, DayOf(t) + 1);
  }
}

=== FILE: document_filter_panel.dfy ===
/** The advanced filter panel of the document library: the active-filter
    badge, clearing, the tag and file-type checkboxes, the date and size
    inputs, and saved searches. A number input's content is `None` when the
    field is empty and `Some(x)` when it holds the number `x`. */
module DocumentFilterPanel {
  import opened Options
  import Seqs
  import Text
  import DocumentLibrary

  type DocFilters = DocumentLibrary.DocFilters

  /** A number as a JSON document holds it: `JSON.stringify` writes a
      non-finite number such as Infinity as `null`. */
  datatype JsonNumber = JsonNull | JsonNum(x: real)

  /** The filter object as the saved-search row's JSON column holds it. The
      day bounds are the date inputs' strings, which JSON keeps. */
  datatype StoredFilters = StoredFilters(
    tags: seq<string>,
    dateFrom: Option<int>,
    dateTo: Option<int>,
    fileTypes: seq<string>,
    minSize: real,
    maxSize: JsonNumber)

  /** A saved-search row: its name and the stored filter object. */
  datatype SavedSearch = SavedSearch(name: string, filters: StoredFilters)

  /** The store client sends the row as JSON: every field is kept except an
      unbounded maximum (Infinity), which becomes `null`. */
  function Store(f: DocFilters): (s: StoredFilters)
    ensures s.maxSize == JsonNull <==> f.maxSize.None?
    ensures f.maxSize.Some? ==> s.maxSize == JsonNum(f.maxSize.value)
    ensures s.tags == f.tags && s.dateFrom == f.dateFrom && s.dateTo == f.dateTo
    ensures s.fileTypes == f.fileTypes && s.minSize == f.minSize
  {
    StoredFilters(f.tags, f.dateFrom, f.dateTo, f.fileTypes, f.minSize,
                  if f.maxSize.Some? then JsonNum(f.maxSize.value) else JsonNull)
  }

  predicate TagsActive(f: DocFilters) { |f.tags| > 0 }
  predicate DatesActive(f: DocFilters) { f.dateFrom.Some? || f.dateTo.Some? }
  predicate TypesActive(f: DocFilters) { |f.fileTypes| > 0 }
  predicate SizeActive(f: DocFilters) { f.minSize > 0.0 || f.maxSize.Some? }

  function Indicator(b: bool): nat { if b then 1 else 0 }

  /** `activeFilterCount`: how many of the four filter groups constrain. */
  function ActiveFilterCount(f: DocFilters): (n: nat)
    ensures n <= 4
    ensures n == 0 <==> !TagsActive(f) && !DatesActive(f) && !TypesActive(f) && !SizeActive(f)
    ensures n == 4 <==> TagsActive(f) && DatesActive(f) && TypesActive(f) && SizeActive(f)
  {
    Indicator(TagsActive(f)) + Indicator(DatesActive(f)) + Indicator(TypesActive(f)) + Indicator(SizeActive(f))
  }

  /** `clearFilters`: every group back to its inactive default. */
  function ClearFilters(): (f: DocFilters)
    ensures ActiveFilterCount(f) == 0
    ensures f == DocumentLibrary.DefaultDocFilters
  {
    DocumentLibrary.DocFilters([], None, None, [], 0.0, None)
  }

  /** With no active group the filter keeps every document whose name
      matches the search. */
  lemma InactiveFiltersKeepAll(docs: seq<DocumentLibrary.Document>, f: DocFilters)
    requires ActiveFilterCount(f) == 0
    ensures DocumentLibrary.FilterDocuments(docs, "", f) == docs
  {
    Seqs.FilterAll(docs, d => DocumentLibrary.KeepDoc("", f, d));
  }

  /** Checking a box appends its value; unchecking removes every copy. */
  function Toggle(list: seq<string>, v: string, checked: bool): (r: seq<string>)
    ensures checked ==> r == list + [v]
    ensures !checked ==> v !in r && forall x :: x != v ==> (x in r <==> x in list)
  {
    if checked then list + [v] else Seqs.RemoveAll(list, v)
  }

  /** The tag checkbox changes only the tag list. */
  function ToggleTag(f: DocFilters, tag: string, checked: bool): (r: DocFilters)
    ensures r == f.(tags := r.tags)
    ensures checked <==> tag in r.tags
  {
    f.(tags := Toggle(f.tags, tag, checked))
  }

  /** The file-type checkbox changes only the type list. */
  function ToggleFileType(f: DocFilters, t: string, checked: bool): (r: DocFilters)
    ensures r == f.(fileTypes := r.fileTypes)
    ensures checked <==> t in r.fileTypes
  {
    f.(fileTypes := Toggle(f.fileTypes, t, checked))
  }

  /** Checking an unchecked tag and unchecking it again restores the filters. */
  lemma ToggleTagTwice(f: DocFilters, tag: string)
    requires tag !in f.tags
    ensures ToggleTag(ToggleTag(f, tag, true), tag, false) == f
  {
    Seqs.AppendThenRemove(f.tags, tag);
  }

  /** The same for a file type. */
  lemma ToggleFileTypeTwice(f: DocFilters, t: string)
    requires t !in f.fileTypes
    ensures ToggleFileType(ToggleFileType(f, t, true), t, false) == f
  {
    Seqs.AppendThenRemove(f.fileTypes, t);
  }

  /** Editing a date input changes only that bound; clearing it deactivates it. */
  function EditDateFrom(f: DocFilters, v: Option<int>): (r: DocFilters)
    ensures r.dateFrom == v && r == f.(dateFrom := r.dateFrom)
  {
    f.(dateFrom := v)
  }

  function EditDateTo(f: DocFilters, v: Option<int>): (r: DocFilters)
    ensures r.dateTo == v && r == f.(dateTo := r.dateTo)
  {
    f.(dateTo := v)
  }

  /** The minimum-size field: `Number('')` is 0, so an empty field means no
      minimum. */
  function MinSizeFromInput(input: Option<real>): (m: real)
    ensures input.None? ==> m == 0.0
    ensures input.Some? ==> m == input.value
  {
    input.GetOr(0.0)
  }

  /** The minimum-size field shows `minSize || ''`: empty for 0. */
  function MinSizeDisplay(m: real): (input: Option<real>)
    ensures input.None? <==> m == 0.0
    ensures input.Some? ==> input.value == m
  {
    if m == 0.0 then None else Some(m)
  }

  /** The maximum-size field: empty means Infinity (no maximum). */
  function MaxSizeFromInput(input: Option<real>): (m: Option<real>)
    ensures m.None? <==> input.None?
    ensures input.Some? ==> m == input
  {
    if input.Some? then input else None
  }

  /** The maximum-size field shows '' for Infinity. */
  function MaxSizeDisplay(m: Option<real>): (input: Option<real>)
    ensures input.None? <==> m.None?
    ensures m.Some? ==> input == m
  {
    m
  }

  /** Reading back what a size field shows gives the stored bound. */
  lemma SizeDisplayRoundTrip(f: DocFilters)
    ensures MinSizeFromInput(MinSizeDisplay(f.minSize)) == f.minSize
    ensures MaxSizeFromInput(MaxSizeDisplay(f.maxSize)) == f.maxSize
  {
  }

  /** Typing a number into the minimum-size field activates the size group
      exactly when the number is positive or a maximum is set. */
  function EditMinSize(f: DocFilters, input: Option<real>): (r: DocFilters)
    ensures r == f.(minSize := MinSizeFromInput(input))
    ensures SizeActive(r) <==> MinSizeFromInput(input) > 0.0 || f.maxSize.Some?
  {
    f.(minSize := MinSizeFromInput(input))
  }

  function EditMaxSize(f: DocFilters, input: Option<real>): (r: DocFilters)
    ensures r == f.(maxSize := MaxSizeFromInput(input))
    ensures input.Some? ==> SizeActive(r)
  {
    f.(maxSize := MaxSizeFromInput(input))
  }

  /** `saveSearch`: an EMPTY name is refused (a name of spaces is accepted,
      untrimmed). Otherwise the name and current filters are inserted; the
      name field is cleared only when the insert succeeded. */
  function SaveSearch(name: string, f: DocFilters, insertOk: bool): (r: (string, Option<SavedSearch>))
    ensures name == "" ==> r == (name, None)
    ensures name != "" ==> r.1 == Some(SavedSearch(name, Store(f))) && r.0 == (if insertOk then "" else name)
  {
    if name == "" then (name, None)
    else (if insertOk then "" else name, Some(SavedSearch(name, Store(f))))
  }

  /** Unlike the opportunity presets, a blank name of spaces is saved. */
  lemma BlankNameIsSaved(f: DocFilters)
    ensures Text.IsBlank(" ") && SaveSearch(" ", f, true).1 == Some(SavedSearch(" ", Store(f)))
  {
    assert Text.LeadingSpaces(" ") == 1;
  }

  /** `loadSearch`: the panel's filters become the stored object as read
      back. A stored `null` maximum is handed on as `null`, which both the
      active-filter count (`null < Infinity`) and the library's size test
      (`sizeMB > null`) compare as 0: it acts as a maximum of 0 MB. */
  function LoadSearch(s: SavedSearch): (f: DocFilters)
    ensures s.filters.maxSize == JsonNull ==> f.maxSize == Some(0.0)
    ensures s.filters.maxSize.JsonNum? ==> f.maxSize == Some(s.filters.maxSize.x)
    ensures f.tags == s.filters.tags && f.dateFrom == s.filters.dateFrom && f.dateTo == s.filters.dateTo
    ensures f.fileTypes == s.filters.fileTypes && f.minSize == s.filters.minSize
  {
    var g := s.filters;
    DocumentLibrary.DocFilters(g.tags, g.dateFrom, g.dateTo, g.fileTypes, g.minSize,
                               Some(if g.maxSize.JsonNum? then g.maxSize.x else 0.0))
  }

  /** A saved search with a finite maximum comes back as it was saved. */
  lemma SaveThenLoadBounded(name: string, f: DocFilters, ok: bool)
    requires name != "" && f.maxSize.Some?
    ensures SaveSearch(name, f, ok).1.Some? && LoadSearch(SaveSearch(name, f, ok).1.value) == f
  {
  }

  /** A search saved with the maximum field empty comes back capped at 0 MB:
      the size group counts as active and every non-empty document is
      filtered out. */
  lemma UnboundedSearchReloadsAsZeroCap(name: string, f: DocFilters, ok: bool, search: string, d: DocumentLibrary.Document)
    requires name != "" && f.maxSize.None? && d.fileSize > 0
    ensures var g := LoadSearch(SaveSearch(name, f, ok).1.value);
      g.maxSize == Some(0.0) && SizeActive(g) && !DocumentLibrary.KeepDoc(search, g, d)
  {
    assert DocumentLibrary.SizeMB(d) > 0.0;
  }

  /** For instance, saving the cleared filters and loading them back turns
      a view of every document into one of empty files only. */
  lemma ClearedSearchReloadHidesFiles(d: DocumentLibrary.Document)
    requires d.fileSize > 0
    ensures DocumentLibrary.KeepDoc("", ClearFilters(), d)
    ensures !DocumentLibrary.KeepDoc("", LoadSearch(SaveSearch("All", ClearFilters(), true).1.value), d)
  {
    UnboundedSearchReloadsAsZeroCap("All", ClearFilters(), true, "", d);
  }

  /** The load that reads a stored `null` maximum back as Infinity
      (`maxSize ?? Infinity`), undoing what JSON did to it. */
  function LoadSearchCorrected(s: SavedSearch): (f: DocFilters)
    ensures f.maxSize.None? <==> s.filters.maxSize == JsonNull
    ensures s.filters.maxSize.JsonNum? ==> f.maxSize == Some(s.filters.maxSize.x)
    ensures f.tags == s.filters.tags && f.dateFrom == s.filters.dateFrom && f.dateTo == s.filters.dateTo
    ensures f.fileTypes == s.filters.fileTypes && f.minSize == s.filters.minSize
  {
    var g := s.filters;
    DocumentLibrary.DocFilters(g.tags, g.dateFrom, g.dateTo, g.fileTypes, g.minSize,
                               if g.maxSize.JsonNum? then Some(g.maxSize.x) else None)
  }

  /** With that load every saved search restores the filters it was saved
      with, unbounded or not. */
  lemma SaveThenLoadCorrected(name: string, f: DocFilters, ok: bool)
    requires name != ""
    ensures SaveSearch(name, f, ok).1.Some? && LoadSearchCorrected(SaveSearch(name, f, ok).1.value) == f
  {
  }
}

=== FILE: document_library.dfy ===
/** The document library: the MIME-type classifier, the document filter,
    multi-selection, upload tag parsing and the tag vocabulary offered to the
    filter panel. */
module DocumentLibrary {
  import opened Options
  import Seqs
  import Text
  import Dates

  /** A document row. `createdAt` is the `created_at` timestamp in
      milliseconds. */
  datatype Document = Document(
    id: string,
    name: string,
    tags: Option<seq<string>>,
    createdAt: int,
    fileSize: nat,
    fileType: Option<string>)

  datatype Category = Pdf | Image | TextDoc | Word | Excel | Other {
    /** The label the filter panel stores in `fileTypes`. */
    function Label(): string {
      match this
      case Pdf => "PDF"
      case Image => "Image"
      case TextDoc => "Text"
      case Word => "Word"
      case Excel => "Excel"
      case Other => "Other"
    }
  }

  /** `getFileTypeCategory`: the FIRST pattern that occurs in the MIME string,
      in the order pdf, image, text, word|document, excel|spreadsheet. */
  function FileTypeCategory(mime: string): (c: Category)
    ensures c == Pdf <==> Text.Contains(mime, "pdf")
    ensures c == Image <==> !Text.Contains(mime, "pdf") && Text.Contains(mime, "image")
    ensures c == TextDoc <==>
      !Text.Contains(mime, "pdf") && !Text.Contains(mime, "image") && Text.Contains(mime, "text")
    ensures c == Word <==>
      && !Text.Contains(mime, "pdf") && !Text.Contains(mime, "image") && !Text.Contains(mime, "text")
      && (Text.Contains(mime, "word") || Text.Contains(mime, "document"))
    ensures c == Excel <==>
      && !Text.Contains(mime, "pdf") && !Text.Contains(mime, "image") && !Text.Contains(mime, "text")
      && !Text.Contains(mime, "word") && !Text.Contains(mime, "document")
      && (Text.Contains(mime, "excel") || Text.Contains(mime, "spreadsheet"))
  {
    if Text.Contains(mime, "pdf") then Pdf
    else if Text.Contains(mime, "image") then Image
    else if Text.Contains(mime, "text") then TextDoc
    else if Text.Contains(mime, "word") || Text.Contains(mime, "document") then Word
    else if Text.Contains(mime, "excel") || Text.Contains(mime, "spreadsheet") then Excel
    else Other
  }

  /** The first match wins: a MIME type naming both a document and a
      spreadsheet (an OpenDocument spreadsheet, say) is classified as Word. */
  lemma WordBeforeExcel(mime: string)
    requires !Text.Contains(mime, "pdf") && !Text.Contains(mime, "image") && !Text.Contains(mime, "text")
    requires Text.Contains(mime, "document") && Text.Contains(mime, "spreadsheet")
    ensures FileTypeCategory(mime) == Word && FileTypeCategory(mime) != Excel
  {
  }

  /** The library's filter state. `dateFrom`/`dateTo` are the days picked
      in the date inputs, `None` when the input is empty; `maxSize` is `None`
      for Infinity. */
  datatype DocFilters = DocFilters(
    tags: seq<string>,
    dateFrom: Option<int>,
    dateTo: Option<int>,
    fileTypes: seq<string>,
    minSize: real,
    maxSize: Option<real>)

  const DefaultDocFilters := DocFilters([], None, None, [], 0.0, None)

  /** Size in megabytes: bytes / (1024 * 1024). */
  function SizeMB(d: Document): real {
    d.fileSize as real / 1048576.0
  }

  /** The document carries at least one of the listed tags. */
  predicate HasListedTag(listed: seq<string>, d: Document) {
    exists i :: 0 <= i < |listed| && d.tags.Some? && listed[i] in d.tags.value
  }

  /** A document is kept when it passes every active predicate. */
  predicate KeepDoc(search: string, f: DocFilters, d: Document) {
    && (search == "" || Text.ContainsIgnoringCase(d.name, search))
    && (|f.tags| == 0 || HasListedTag(f.tags, d))
    && (f.dateFrom.None? || d.createdAt >= Dates.DayStart(f.dateFrom.value))
    && (f.dateTo.None? || d.createdAt <= Dates.DayStart(f.dateTo.value))
    && (|f.fileTypes| == 0 || FileTypeCategory(d.fileType.GetOr("")).Label() in f.fileTypes)
    && (!(f.minSize > 0.0) || SizeMB(d) >= f.minSize)
    && (f.maxSize.None? || SizeMB(d) <= f.maxSize.value)
  }

  /** `filteredDocs`: the documents passing every active predicate, in order. */
  function FilterDocuments(docs: seq<Document>, search: string, f: DocFilters): (r: seq<Document>)
    ensures |r| <= |docs|
    ensures forall d :: d in r <==> d in docs && KeepDoc(search, f, d)
  {
    Seqs.Filter(docs, d => KeepDoc(search, f, d))
  }

  /** The result is an order-preserving subsequence of the input. */
  lemma FilterDocumentsIsSubsequence(docs: seq<Document>, search: string, f: DocFilters)
    ensures Seqs.IsSubsequence(FilterDocuments(docs, search, f), docs)
  {
    Seqs.FilterIsSubsequence(docs, d => KeepDoc(search, f, d));
  }

  /** Default filters and an empty search keep every document. */
  lemma DefaultFiltersKeepAll(docs: seq<Document>)
    ensures FilterDocuments(docs, "", DefaultDocFilters) == docs
  {
    Seqs.FilterAll(docs, d => KeepDoc("", DefaultDocFilters, d));
  }

  /** A non-empty tag filter keeps a document iff it carries a listed tag; a
      document without tags never passes it. */
  lemma TagFilterRule(docs: seq<Document>, d: Document, tags: seq<string>)
    requires d in docs && |tags| > 0
    ensures d in FilterDocuments(docs, "", DefaultDocFilters.(tags := tags)) <==>
      d.tags.Some? && exists t :: t in tags && t in d.tags.value
    ensures d.tags.None? || d.tags == Some([]) ==> d !in FilterDocuments(docs, "", DefaultDocFilters.(tags := tags))
  {
    if d.tags.Some? && exists t :: t in tags && t in d.tags.value {
      var t :| t in tags && t in d.tags.value;
      var i :| 0 <= i < |tags| && tags[i] == t;
    }
  }

  /** Both bounds compare against midnight UTC at the START of the picked
      day, so the from-day counts whole, but of the to-day only its first
      instant does: a document is kept exactly when it was created on the
      from-day or later, and before the to-day or exactly at its midnight.
      Each side is active only when set. */
  lemma DateBoundsInclusive(f: DocFilters, d: Document)
    requires f == DefaultDocFilters.(dateFrom := f.dateFrom, dateTo := f.dateTo)
    ensures KeepDoc("", f, d) <==>
      && (f.dateFrom.None? || f.dateFrom.value <= Dates.DayOf(d.createdAt))
      && (f.dateTo.None? || Dates.DayOf(d.createdAt) < f.dateTo.value || d.createdAt == Dates.DayStart(f.dateTo.value))
  {
    if f.dateFrom.Some? {
      Dates.AtOrAfterDayStart(d.createdAt, f.dateFrom.value);
    }
    if f.dateTo.Some? {
      Dates.AtOrAfterDayStart(d.createdAt, f.dateTo.value);
    }
  }

  /** A document created later on the to-day itself, even a millisecond
      after midnight UTC, is filtered out. */
  lemma LaterOnToDayExcluded(day: int, d: Document)
    requires Dates.DayOf(d.createdAt) == day && d.createdAt != Dates.DayStart(day)
    ensures !KeepDoc("", DefaultDocFilters.(dateTo := Some(day)), d)
  {
    DateBoundsInclusive(DefaultDocFilters.(dateTo := Some(day)), d);
  }

  /** A non-empty type filter keeps a document iff its category label is
      listed; a document without a MIME type is classified as Other. */
  lemma TypeFilterRule(d: Document, types: seq<string>)
    requires |types| > 0
    ensures KeepDoc("", DefaultDocFilters.(fileTypes := types), d) <==> FileTypeCategory(d.fileType.GetOr("")).Label() in types
    ensures d.fileType.None? ==> (KeepDoc("", DefaultDocFilters.(fileTypes := types), d) <==> "Other" in types)
  {
    if d.fileType.None? {
      var c := FileTypeCategory("");
      forall p: string | p != "" ensures !Text.Contains("", p) {
        Text.ContainsLength("", p);
      }
      assert c == Other;
    }
  }

  /** A 2 MB document passes size bounds 1..5 MB and fails a 1 MB maximum. */
  lemma SizeFilterExample(d: Document)
    requires d.fileSize == 2097152
    ensures KeepDoc("", DefaultDocFilters.(minSize := 1.0, maxSize := Some(5.0)), d)
    ensures !KeepDoc("", DefaultDocFilters.(maxSize := Some(1.0)), d)
  {
    assert SizeMB(d) == 2.0;
  }

  /** `toggleDocSelection`: flips the membership of exactly the given id. */
  function ToggleSelection(selected: set<string>, id: string): (r: set<string>)
    ensures id in r <==> id !in selected
    ensures forall x :: x != id ==> (x in r <==> x in selected)
  {
    if id in selected then selected - {id} else selected + {id}
  }

  /** Toggling twice restores the selection. */
  lemma ToggleTwice(selected: set<string>, id: string)
    ensures ToggleSelection(ToggleSelection(selected, id), id) == selected
  {
  }

  /** The row `handleUpload` inserts after a successful storage upload: the
      typed name or else the file's name, and the parsed tag list. */
  function UploadDocument(id: string, nameInput: string, tagsInput: string, fileName: string,
                          fileSize: nat, fileType: string, createdAt: int): (d: Document)
    ensures d.name == (if nameInput != "" then nameInput else fileName)
    ensures d.tags == Some(Text.CommaTags(tagsInput))
    ensures forall i :: 0 <= i < |d.tags.value| ==> Text.IsTag(d.tags.value[i])
    ensures d.fileSize == fileSize && d.fileType == Some(fileType)
  {
    Document(id, if nameInput != "" then nameInput else fileName, Some(Text.CommaTags(tagsInput)),
             createdAt, fileSize, Some(fileType))
  }

  /** Tags typed as a comma-separated list are recovered exactly. */
  lemma UploadTagsRoundTrip(tags: seq<string>, id: string, name: string, fileName: string, size: nat, mime: string, at: int)
    requires |tags| >= 1 && forall i :: 0 <= i < |tags| ==> Text.IsTag(tags[i])
    ensures UploadDocument(id, name, Text.Join(tags, ','), fileName, size, mime, at).tags == Some(tags)
  {
    Text.CommaTagsRoundTrip(tags);
  }

  function TagsOf(d: Document): seq<string> {
    d.tags.GetOr([])
  }

  /** `documents.flatMap(d => d.tags || [])`. */
  function AllTagOccurrences(docs: seq<Document>): (r: seq<string>)
    ensures forall t :: t in r <==> exists j :: 0 <= j < |docs| && t in TagsOf(docs[j])
  {
    if |docs| == 0 then []
    else
      var rest := AllTagOccurrences(docs[1..]);
      assert forall j :: 0 < j < |docs| ==> docs[j] == docs[1..][j - 1];
      TagsOf(docs[0]) + rest
  }

  /** `allTags`: the distinct tags of all documents, first occurrence first:
      a `Set` keeps insertion order, so tags come in the order they are
      first met in the flattened list. */
  method AllTags(docs: seq<Document>) returns (r: seq<string>)
    ensures Seqs.NoDuplicates(r)
    ensures forall t :: t in r <==> t in AllTagOccurrences(docs)
    ensures forall t :: t in r <==> exists j :: 0 <= j < |docs| && t in TagsOf(docs[j])
    ensures forall a, b :: 0 <= a < b < |r| ==>
      Seqs.IndexOf(AllTagOccurrences(docs), r[a]) < Seqs.IndexOf(AllTagOccurrences(docs), r[b])
  {
    var flat := AllTagOccurrences(docs);
    r := [];
    var i := 0;
    while i < |flat|
      invariant 0 <= i <= |flat|
      invariant Seqs.NoDuplicates(r)
      invariant forall t :: t in r <==> t in flat[..i]
      invariant forall a :: 0 <= a < |r| ==> r[a] in flat
      invariant forall a :: 0 <= a < |r| ==> Seqs.IndexOf(flat, r[a]) < i
      invariant forall a, b :: 0 <= a < b < |r| ==> Seqs.IndexOf(flat, r[a]) < Seqs.IndexOf(flat, r[b])
    {
      assert flat[..i + 1] == flat[..i] + [flat[i]];
      if flat[i] !in r {
        Seqs.IndexOfFresh(flat, i);
        r := r + [flat[i]];
      }
      forall a | 0 <= a < |r| ensures Seqs.IndexOf(flat, r[a]) < i + 1 {
        Seqs.IndexOfBefore(flat, i + 1, r[a]);
      }
      i := i + 1;
    }
    assert flat[..i] == flat;
  }
}

=== FILE: document_preview_modal.dfy ===
/** The document preview dialog: which viewer the file type selects, and
    the comment box's guard. */
module DocumentPreviewModal {
  import opened Options
  import Text
  import DocumentLibrary

  /** What the preview pane shows. */
  datatype Preview = Loading | ImageView | PdfFrame | TextFrame | DownloadFallback

  /** `renderPreview`: a loading state until the file's URL exists; then,
      on the type (missing as ""), the first of: an "image/" prefix, exactly
      "application/pdf", a "text/" prefix; anything else offers a
      download. */
  function RenderPreview(previewUrl: Option<string>, fileType: Option<string>): (p: Preview)
    ensures p == Loading <==> previewUrl.None? || previewUrl.value == ""
    ensures p == ImageView <==> p != Loading && Text.StartsWith(fileType.GetOr(""), "image/")
    ensures p == PdfFrame <==> p != Loading && !Text.StartsWith(fileType.GetOr(""), "image/")
                               && fileType.GetOr("") == "application/pdf"
    ensures p == TextFrame <==> p != Loading && !Text.StartsWith(fileType.GetOr(""), "image/")
                                && fileType.GetOr("") != "application/pdf" && Text.StartsWith(fileType.GetOr(""), "text/")
  {
    if previewUrl.None? || previewUrl.value == "" then Loading
    else
      var t := fileType.GetOr("");
      if Text.StartsWith(t, "image/") then ImageView
      else if t == "application/pdf" then PdfFrame
      else if Text.StartsWith(t, "text/") then TextFrame
      else DownloadFallback
  }

  /** A file without a type falls through to the download offer. */
  lemma MissingTypeFallsBack(url: string)
    requires url != ""
    ensures RenderPreview(Some(url), None) == DownloadFallback
  {
  }

  /** The library and the preview disagree on PDFs: a type mentioning "pdf"
      other than exactly "application/pdf" (and not an image or text type)
      is filed as PDF in the library but only offered for download here. */
  lemma PdfDisagreement(url: string, mime: string)
    requires url != "" && Text.Contains(mime, "pdf") && mime != "application/pdf"
    requires !Text.StartsWith(mime, "image/") && !Text.StartsWith(mime, "text/")
    ensures DocumentLibrary.FileTypeCategory(mime) == DocumentLibrary.Pdf
    ensures RenderPreview(Some(url), Some(mime)) == DownloadFallback
  {
  }

  /** For instance "application/x-pdf". */
  lemma XPdfExample()
    ensures DocumentLibrary.FileTypeCategory("application/x-pdf") == DocumentLibrary.Pdf
    ensures RenderPreview(Some("blob:1"), Some("application/x-pdf")) == DownloadFallback
  {
    var m := "application/x-pdf";
    assert Text.StartsWith(m[14..], "pdf");
    assert m[..6] != "image/" by { assert m[0] == 'a'; }
    assert m[..5] != "text/" by { assert m[0] == 'a'; }
    PdfDisagreement("blob:1", m);
  }

  /** A comment row of the document. */
  datatype DocComment = DocComment(documentId: string, content: string)

  /** `addComment`: a blank comment is ignored; otherwise the text is
      inserted as typed, and the box is cleared only on success. */
  function AddComment(documentId: string, input: string, insertOk: bool): (r: (Option<DocComment>, string, Option<string>))
    ensures Text.IsBlank(input) ==> r == (None, input, None)
    ensures !Text.IsBlank(input) ==> r.0 == Some(DocComment(documentId, input))
    ensures !Text.IsBlank(input) && insertOk ==> r.1 == "" && r.2 == Some("Comment added")
    ensures !Text.IsBlank(input) && !insertOk ==> r.1 == input && r.2 == Some("Failed to add comment")
  {
    if Text.Trim(input) == "" then (None, input, None)
    else if insertOk then (Some(DocComment(documentId, input)), "", Some("Comment added"))
    else (Some(DocComment(documentId, input)), input, Some("Failed to add comment"))
  }

  /** Whitespace alone never reaches the store. */
  lemma WhitespaceCommentIgnored(documentId: string, n: nat, ok: bool)
    ensures AddComment(documentId, seq(n, _ => ' '), ok).0.None?
  {
    Text.BlankIffAllSpace(seq(n, _ => ' '));
  }
}

=== FILE: filter_bar.dfy ===
/** The opportunity filter bar: the basic search/classification/status
    controls, the advanced-filter sheet with its defaults, and saved presets.
    The page's filter object and the sheet's advanced state are modelled
    together as one `BarState`; a store insert is returned, not performed. */
module FilterBar {
  import opened Options
  import Text
  import AppLayout

  type Filters = AppLayout.Filters

  /** The advanced sheet's initial state: five keys only. */
  const DefaultAdvanced: Filters :=
    AppLayout.Filters(None, None, None, Some(0.0), Some(10000000.0), Some([]), Some(""), Some(100.0))

  datatype BarState = BarState(filters: Filters, advanced: Filters, presetName: string)

  /** A saved preset row: its name and the merged filter object. */
  datatype Preset = Preset(name: string, filters: Filters)

  const InitialBar := BarState(AppLayout.InitialFilters, DefaultAdvanced, "")

  /** One key of an object spread `{...base, ...over}`. */
  function Pick<T>(base: Option<T>, over: Option<T>): Option<T> {
    if over.Some? then over else base
  }

  /** `{...base, ...over}`: every key present in `over` overrides `base`;
      keys absent from `over` keep their value from `base`. */
  function Merge(base: Filters, over: Filters): (r: Filters)
    ensures over.classification.Some? ==> r.classification == over.classification
    ensures over.classification.None? ==> r.classification == base.classification
    ensures over.status.Some? ==> r.status == over.status
    ensures over.status.None? ==> r.status == base.status
    ensures over.search.Some? ==> r.search == over.search
    ensures over.search.None? ==> r.search == base.search
    ensures over.minValue.Some? ==> r.minValue == over.minValue
    ensures over.minValue.None? ==> r.minValue == base.minValue
    ensures over.maxValue.Some? ==> r.maxValue == over.maxValue
    ensures over.maxValue.None? ==> r.maxValue == base.maxValue
    ensures over.naicsCodes.Some? ==> r.naicsCodes == over.naicsCodes
    ensures over.naicsCodes.None? ==> r.naicsCodes == base.naicsCodes
    ensures over.zipCode.Some? ==> r.zipCode == over.zipCode
    ensures over.zipCode.None? ==> r.zipCode == base.zipCode
    ensures over.radius.Some? ==> r.radius == over.radius
    ensures over.radius.None? ==> r.radius == base.radius
  {
    AppLayout.Filters(
      Pick(base.classification, over.classification),
      Pick(base.status, over.status),
      Pick(base.search, over.search),
      Pick(base.minValue, over.minValue),
      Pick(base.maxValue, over.maxValue),
      Pick(base.naicsCodes, over.naicsCodes),
      Pick(base.zipCode, over.zipCode),
      Pick(base.radius, over.radius))
  }

  /** Spreading the same object twice changes nothing more. */
  lemma MergeIdempotent(base: Filters, over: Filters)
    ensures Merge(Merge(base, over), over) == Merge(base, over)
  {
  }

  /** Spreading is associative. */
  lemma MergeAssociative(a: Filters, b: Filters, c: Filters)
    ensures Merge(Merge(a, b), c) == Merge(a, Merge(b, c))
  {
  }

  /** `applyAdvancedFilters`: the parent filters with the advanced keys
      overriding; the advanced state and preset name are untouched. */
  function ApplyAdvanced(st: BarState): (r: BarState)
    ensures r.advanced == st.advanced && r.presetName == st.presetName
    ensures r.filters == Merge(st.filters, st.advanced)
  {
    st.(filters := Merge(st.filters, st.advanced))
  }

  /** Applying the default advanced state keeps the basic keys and sets the
      five advanced keys to their defaults. */
  lemma ApplyDefaultsKeepsBasicKeys(st: BarState)
    requires st.advanced == DefaultAdvanced
    ensures ApplyAdvanced(st).filters.search == st.filters.search
    ensures ApplyAdvanced(st).filters.classification == st.filters.classification
    ensures ApplyAdvanced(st).filters.status == st.filters.status
    ensures ApplyAdvanced(st).filters.minValue == Some(0.0)
    ensures ApplyAdvanced(st).filters.maxValue == Some(10000000.0)
    ensures ApplyAdvanced(st).filters.naicsCodes == Some([])
    ensures ApplyAdvanced(st).filters.zipCode == Some("") && ApplyAdvanced(st).filters.radius == Some(100.0)
  {
  }

  /** After the defaults are applied, 10,000,000 becomes an active upper
      bound: any opportunity worth more is dropped, one within [0, 10,000,000]
      is kept. */
  lemma DefaultsCapValue(opps: seq<AppLayout.Opportunity>, o: AppLayout.Opportunity)
    requires o in opps
    ensures var f := ApplyAdvanced(InitialBar).filters;
      o in AppLayout.FilterOpportunities(opps, f) <==>
        0.0 <= AppLayout.ValueOrZero(o) <= 10000000.0
  {
  }

  /** `savePreset`: a blank name (after trimming) is refused with nothing
      inserted. Otherwise the untrimmed name and the merged filters are
      inserted; the name field is cleared only when the insert succeeded. */
  function SavePreset(st: BarState, insertOk: bool): (r: (BarState, Option<Preset>))
    ensures Text.IsBlank(st.presetName) ==> r == (st, None)
    ensures !Text.IsBlank(st.presetName) ==>
      && r.1 == Some(Preset(st.presetName, Merge(st.filters, st.advanced)))
      && r.0.filters == st.filters && r.0.advanced == st.advanced
      && r.0.presetName == (if insertOk then "" else st.presetName)
  {
    if Text.IsBlank(st.presetName) then (st, None)
    else
      var row := Preset(st.presetName, Merge(st.filters, st.advanced));
      (if insertOk then st.(presetName := "") else st, Some(row))
  }

  /** A preset saved from a state and applied later reproduces what applying
      the advanced filters gave at saving time. */
  lemma SaveThenApplyPreset(st: BarState, later: BarState, ok: bool)
    requires !Text.IsBlank(st.presetName)
    ensures ApplyPreset(later, SavePreset(st, ok).1.value).filters == ApplyAdvanced(st).filters
  {
  }

  /** `applyPreset`: both the parent filters and the advanced state become the
      preset's filters. */
  function ApplyPreset(st: BarState, p: Preset): (r: BarState)
    ensures r.filters == p.filters && r.advanced == p.filters
    ensures r.presetName == st.presetName
  {
    st.(filters := p.filters, advanced := p.filters)
  }

  /** Because the advanced state now holds the preset's basic keys too, a
      later "Apply Filters" overwrites a search typed after the preset was
      applied with the preset's own search. */
  lemma ApplyAfterPresetRestoresPresetSearch(st: BarState, p: Preset, q: string)
    requires p.filters.search.Some?
    ensures ApplyAdvanced(EditSearch(ApplyPreset(st, p), q)).filters.search == p.filters.search
  {
  }

  /** Typing in the search box sets only the search key. */
  function EditSearch(st: BarState, v: string): (r: BarState)
    ensures r.filters.search == Some(v)
    ensures r.filters == st.filters.(search := r.filters.search)
    ensures r.advanced == st.advanced && r.presetName == st.presetName
  {
    st.(filters := st.filters.(search := Some(v)))
  }

  /** Choosing a classification sets only that key. */
  function EditClassification(st: BarState, v: string): (r: BarState)
    ensures r.filters.classification == Some(v)
    ensures r.filters == st.filters.(classification := r.filters.classification)
    ensures r.advanced == st.advanced && r.presetName == st.presetName
  {
    st.(filters := st.filters.(classification := Some(v)))
  }

  /** Choosing a status sets only that key. */
  function EditStatus(st: BarState, v: string): (r: BarState)
    ensures r.filters.status == Some(v)
    ensures r.filters == st.filters.(status := r.filters.status)
    ensures r.advanced == st.advanced && r.presetName == st.presetName
  {
    st.(filters := st.filters.(status := Some(v)))
  }

  /** One control of the advanced sheet. */
  datatype AdvancedEdit =
    | MinValue(min: real)
    | MaxValue(max: real)
    | NaicsCodes(codes: seq<string>)
    | ZipCode(zip: string)
    | Radius(radius: real)

  /** Editing a control of the advanced sheet changes only that key of the
      advanced state; the page's filters are not touched until applied. */
  function EditAdvanced(st: BarState, e: AdvancedEdit): (r: BarState)
    ensures r.filters == st.filters && r.presetName == st.presetName
    ensures e.MinValue? ==> r.advanced == st.advanced.(minValue := Some(e.min))
    ensures e.MaxValue? ==> r.advanced == st.advanced.(maxValue := Some(e.max))
    ensures e.NaicsCodes? ==> r.advanced == st.advanced.(naicsCodes := Some(e.codes))
    ensures e.ZipCode? ==> r.advanced == st.advanced.(zipCode := Some(e.zip))
    ensures e.Radius? ==> r.advanced == st.advanced.(radius := Some(e.radius))
  {
    var a := st.advanced;
    var a' := match e
      case MinValue(v) => a.(minValue := Some(v))
      case MaxValue(v) => a.(maxValue := Some(v))
      case NaicsCodes(c) => a.(naicsCodes := Some(c))
      case ZipCode(z) => a.(zipCode := Some(z))
      case Radius(d) => a.(radius := Some(d));
    st.(advanced := a')
  }
}

=== FILE: list_editors.dfy ===
/** The NAICS code picker of the advanced filter sheet: codes are added
    verbatim (not trimmed), at most once each, and removed by value. */
module NaicsSelector {
  import Seqs

  datatype NaicsEntry = NaicsEntry(code: string, name: string)

  /** The quick-pick list offered under the input. */
  const CommonNaics: seq<NaicsEntry> := [
    NaicsEntry("541330", "Engineering Services"),
    NaicsEntry("541511", "Custom Computer Programming"),
    NaicsEntry("541512", "Computer Systems Design"),
    NaicsEntry("541519", "Other Computer Related"),
    NaicsEntry("541611", "Administrative Management"),
    NaicsEntry("541990", "Professional Services")
  ]

  /** `addCode`: a non-empty code not yet selected is appended; anything
      else leaves the selection unchanged. The input is cleared either way. */
  function AddCode(codes: seq<string>, code: string): (r: (seq<string>, string))
    ensures r.1 == ""
    ensures code != "" && code !in codes ==> r.0 == codes + [code]
    ensures code == "" || code in codes ==> r.0 == codes
  {
    if code != "" && code !in codes then (codes + [code], "") else (codes, "")
  }

  /** `removeCode`: every copy of the code is dropped, the others keep their
      order. */
  function RemoveCode(codes: seq<string>, code: string): (r: seq<string>)
    ensures code !in r
    ensures forall c :: c != code ==> (c in r <==> c in codes)
    ensures Seqs.IsSubsequence(r, codes)
  {
    Seqs.RemoveAllIsSubsequence(codes, code);
    Seqs.RemoveAll(codes, code)
  }

  /** A selection built by these operations never holds a code twice or the
      empty code. */
  predicate ValidSelection(codes: seq<string>) {
    Seqs.NoDuplicates(codes) && "" !in codes
  }

  lemma AddCodePreservesValid(codes: seq<string>, code: string)
    requires ValidSelection(codes)
    ensures ValidSelection(AddCode(codes, code).0)
  {
  }

  lemma RemoveCodePreservesValid(codes: seq<string>, code: string)
    requires ValidSelection(codes)
    ensures ValidSelection(RemoveCode(codes, code))
  {
    Seqs.RemoveAllNoDuplicates(codes, code);
  }

  /** Adding a code twice is the same as adding it once. */
  lemma AddCodeIdempotent(codes: seq<string>, code: string)
    ensures AddCode(AddCode(codes, code).0, code) == AddCode(codes, code)
  {
  }

  /** Codes are not trimmed: a code typed with a trailing space is a second,
      different entry next to the bare code. */
  lemma AddCodeDoesNotTrim(code: string)
    requires code != ""
    ensures AddCode([code], code + " ").0 == [code, code + " "]
  {
    assert |code + " "| != |code|;
  }

  /** Adding a new code and removing it again restores the selection. */
  lemma AddThenRemoveCode(codes: seq<string>, code: string)
    requires code != "" && code !in codes
    ensures RemoveCode(AddCode(codes, code).0, code) == codes
  {
    Seqs.AppendThenRemove(codes, code);
  }
}

/** The bulk tag editor: a local list of distinct trimmed tags, built up one
    at a time and handed to the caller on save. */
module BulkTagEditor {
  import Seqs
  import Text

  datatype Editor = Editor(tags: seq<string>, input: string)

  const EmptyEditor := Editor([], "")

  /** Every tag is trimmed and non-blank, and none occurs twice. */
  predicate Valid(e: Editor) {
    && Seqs.NoDuplicates(e.tags)
    && forall i :: 0 <= i < |e.tags| ==> e.tags[i] != "" && Text.Trim(e.tags[i]) == e.tags[i]
  }

  /** `handleAddTag`: the trimmed input is appended when non-empty and not
      already listed, and only then is the input cleared. */
  function AddTag(e: Editor): (r: Editor)
    ensures var t := Text.Trim(e.input);
      if t != "" && t !in e.tags then r == Editor(e.tags + [t], "") else r == e
  {
    var t := Text.Trim(e.input);
    if t != "" && t !in e.tags then Editor(e.tags + [t], "") else e
  }

  /** `handleRemoveTag`: the tag is dropped; the input is untouched. */
  function RemoveTag(e: Editor, tag: string): (r: Editor)
    ensures tag !in r.tags && r.input == e.input
    ensures forall t :: t != tag ==> (t in r.tags <==> t in e.tags)
    ensures Seqs.IsSubsequence(r.tags, e.tags)
  {
    Seqs.RemoveAllIsSubsequence(e.tags, tag);
    e.(tags := Seqs.RemoveAll(e.tags, tag))
  }

  /** `handleSave`: the collected tags are handed over and the editor is
      reset. */
  function Save(e: Editor): (r: (seq<string>, Editor))
    ensures r.0 == e.tags && r.1 == EmptyEditor
  {
    (e.tags, EmptyEditor)
  }

  lemma EmptyEditorValid()
    ensures Valid(EmptyEditor)
  {
  }

  lemma AddTagPreservesValid(e: Editor)
    requires Valid(e)
    ensures Valid(AddTag(e))
  {
    Text.TrimIdempotent(e.input);
  }

  lemma RemoveTagPreservesValid(e: Editor, tag: string)
    requires Valid(e)
    ensures Valid(RemoveTag(e, tag))
  {
    Seqs.RemoveAllNoDuplicates(e.tags, tag);
  }

  /** Typing a listed tag again, even padded with spaces, changes nothing:
      the input is not cleared either. */
  lemma AddExistingTagIsNoop(e: Editor)
    requires Valid(e) && |e.tags| > 0
    requires Text.Trim(e.input) == e.tags[0]
    ensures AddTag(e) == e
  {
  }

  /** Adding a fresh tag and removing it again gives back the tag list. */
  lemma AddThenRemoveTag(e: Editor)
    requires Text.Trim(e.input) != "" && Text.Trim(e.input) !in e.tags
    ensures RemoveTag(AddTag(e), Text.Trim(e.input)).tags == e.tags
  {
    Seqs.AppendThenRemove(e.tags, Text.Trim(e.input));
  }
}

/** The subcontractor directory: a case-insensitive search over the name
    and the listed services, and the first three services shown per card. */
module SubcontractorList {
  import opened Options
  import Seqs
  import Text

  datatype Subcontractor = Subcontractor(id: string, name: string, services: Option<seq<string>>)

  /** Some listed service contains the search term. */
  predicate ServiceMatches(sub: Subcontractor, term: string) {
    sub.services.Some? &&
    exists i :: 0 <= i < |sub.services.value| && Text.ContainsIgnoringCase(sub.services.value[i], term)
  }

  predicate Matches(sub: Subcontractor, term: string) {
    Text.ContainsIgnoringCase(sub.name, term) || ServiceMatches(sub, term)
  }

  /** `filtered`: the subcontractors whose name or a service contains the
      term, order preserved. */
  function FilterSubcontractors(subs: seq<Subcontractor>, term: string): (r: seq<Subcontractor>)
    ensures |r| <= |subs|
    ensures forall s :: s in r <==> s in subs && Matches(s, term)
  {
    Seqs.Filter(subs, s => Matches(s, term))
  }

  lemma FilterSubcontractorsIsSubsequence(subs: seq<Subcontractor>, term: string)
    ensures Seqs.IsSubsequence(FilterSubcontractors(subs, term), subs)
  {
    Seqs.FilterIsSubsequence(subs, s => Matches(s, term));
  }

  /** The empty term matches every name, so nothing is hidden. */
  lemma EmptyTermKeepsAll(subs: seq<Subcontractor>)
    ensures FilterSubcontractors(subs, "") == subs
  {
    forall i | 0 <= i < |subs| ensures Matches(subs[i], "") {
      Text.ContainsEmpty(Text.ToLower(subs[i].name));
    }
    Seqs.FilterAll(subs, s => Matches(s, ""));
  }

  /** A subcontractor without a service list is found by its name only. */
  lemma NoServicesNameOnly(sub: Subcontractor, term: string)
    requires sub.services.None?
    ensures Matches(sub, term) <==> Text.ContainsIgnoringCase(sub.name, term)
  {
  }

  /** `services?.slice(0, 3)`: at most the first three services. */
  function ShownServices(sub: Subcontractor): (r: seq<string>)
    ensures |r| <= 3
    ensures sub.services.None? ==> r == []
    ensures sub.services.Some? ==> |r| == if |sub.services.value| < 3 then |sub.services.value| else 3
    ensures sub.services.Some? ==> r == sub.services.value[..|r|]
  {
    match sub.services
    case None => []
    case Some(s) => if |s| <= 3 then s else s[..3]
  }
}

=== FILE: opportunity_card.dfy ===
/** The opportunity card's deadline figure: whole days left until the due
    date, rounded up, and the urgency flag. Times are milliseconds supplied
    by the caller. */
module OpportunityCard {
  import opened Dates

  /** `Math.ceil((due - now) / MillisPerDay)`: the least whole number of
      days that covers the time left; zero or negative once due. */
  function DaysRemaining(due: int, now: int): (d: int)
    ensures (d - 1) * MillisPerDay < due - now <= d * MillisPerDay
  {
    -((now - due) / MillisPerDay)
  }

  /** `isUrgent`: seven days or fewer. */
  predicate IsUrgent(due: int, now: int) {
    DaysRemaining(due, now) <= 7
  }

  /** Urgency in time units: at most seven whole days left. */
  lemma UrgentIffWithinAWeek(due: int, now: int)
    ensures IsUrgent(due, now) <==> due - now <= 7 * MillisPerDay
  {
  }

  /** Past-due opportunities are urgent. */
  lemma PastDueIsUrgent(due: int, now: int)
    requires due <= now
    ensures DaysRemaining(due, now) <= 0 && IsUrgent(due, now)
  {
  }

  /** A later due date never shows fewer days. */
  lemma DaysRemainingMonotone(due1: int, due2: int, now: int)
    requires due1 <= due2
    ensures DaysRemaining(due1, now) <= DaysRemaining(due2, now)
  {
    var d1, d2 := DaysRemaining(due1, now), DaysRemaining(due2, now);
    CancelFactor(d1 - 1, d2, MillisPerDay);
  }

  lemma CancelFactor(a: int, b: int, c: int)
    requires c > 0 && a * c < b * c
    ensures a < b
  {
    assert (b - a) * c == b * c - a * c;
  }

  /** Exactly `k` days ahead shows `k`; one millisecond ahead shows 1. */
  lemma ExactDays(now: int, k: int)
    ensures DaysRemaining(now + k * MillisPerDay, now) == k
    ensures DaysRemaining(now + 1, now) == 1
  {
  }
}

=== FILE: pricing_engine.dfy ===
/** The price escalation projector: a base price with markup for the first
    year, compounded by a fixed escalation rate for each later year, and the
    contract total. Prices are exact reals; no input is validated. */
module PricingEngine {

  /** The escalation rate in percent; the component never changes it. */
  const Escalation: real := 3.0

  const DefaultBasePrice: real := 100000.0
  const DefaultMarkup: real := 15.0
  const DefaultYears: int := 3

  /** The prime's first-year price: base plus markup percent. */
  function FirstYear(basePrice: real, markup: real): real {
    basePrice * (1.0 + markup / 100.0)
  }

  /** The yearly growth factor for an escalation rate in percent. */
  function Growth(escalation: real): real {
    1.0 + escalation / 100.0
  }

  /** One year of escalation applied to a price. */
  function NextYear(price: real, escalation: real): real {
    price * Growth(escalation)
  }

  /** The price of year `i`: the first-year price escalated `i` times. */
  function YearPrice(first: real, escalation: real, i: nat): real {
    if i == 0 then first else NextYear(YearPrice(first, escalation, i - 1), escalation)
  }

  function Pow(x: real, n: nat): real {
    if n == 0 then 1.0 else x * Pow(x, n - 1)
  }

  /** The step of the compounding: (p * q) * g == p * (g * q). */
  lemma MulRegroup(p: real, q: real, g: real)
    ensures (p * q) * g == p * (g * q)
  {
  }

  /** Closed form: year `i` costs first * (1 + escalation / 100)^i. */
  lemma {:induction false} YearPriceClosedForm(first: real, escalation: real, i: nat)
    ensures YearPrice(first, escalation, i) == first * Pow(Growth(escalation), i)
  {
    if i > 0 {
      YearPriceClosedForm(first, escalation, i - 1);
      MulRegroup(first, Pow(Growth(escalation), i - 1), Growth(escalation));
    }
  }

  /** The number of yearly entries: at least one, whatever `years` holds. */
  function YearCount(years: int): (n: nat)
    ensures n >= 1
    ensures years >= 1 ==> n == years
    ensures years < 1 ==> n == 1
  {
    if years >= 1 then years else 1
  }

  /** The projection as a whole: one entry per year. */
  function PriceSeries(basePrice: real, markup: real, years: int, escalation: real): (r: seq<real>)
    ensures |r| == YearCount(years)
    ensures forall i :: 0 <= i < |r| ==> r[i] == YearPrice(FirstYear(basePrice, markup), escalation, i)
  {
    seq(YearCount(years), i requires 0 <= i => YearPrice(FirstYear(basePrice, markup), escalation, i))
  }

  /** `calculatePricing`: start from the first-year price and append each
      year's price as the previous one times (1 + escalation / 100). */
  method CalculatePricing(basePrice: real, markup: real, years: int, escalation: real) returns (prices: seq<real>)
    ensures |prices| == YearCount(years)
    ensures prices[0] == FirstYear(basePrice, markup)
    ensures forall i :: 1 <= i < |prices| ==> prices[i] == NextYear(prices[i - 1], escalation)
    ensures prices == PriceSeries(basePrice, markup, years, escalation)
  {
    prices := [FirstYear(basePrice, markup)];
    var i := 1;
    while i < years
      invariant 1 <= i <= YearCount(years)
      invariant |prices| == i
      invariant forall k :: 0 <= k < i ==> prices[k] == YearPrice(FirstYear(basePrice, markup), escalation, k)
    {
      prices := prices + [NextYear(prices[i - 1], escalation)];
      i := i + 1;
    }
  }

  function Sum(s: seq<real>): real {
    if |s| == 0 then 0.0 else s[0] + Sum(s[1..])
  }

  lemma {:induction false} SumNonNegative(s: seq<real>)
    ensures (forall i :: 0 <= i < |s| ==> s[i] >= 0.0) ==> Sum(s) >= 0.0
  {
    if |s| > 0 {
      SumNonNegative(s[1..]);
      assert forall i :: 0 <= i < |s[1..]| ==> s[1..][i] == s[i + 1];
    }
  }

  /** `totalValue`: the sum of the yearly prices. */
  method TotalValue(prices: seq<real>) returns (total: real)
    ensures total == Sum(prices)
    ensures (forall i :: 0 <= i < |prices| ==> prices[i] >= 0.0) && |prices| > 0 ==> total >= prices[0]
  {
    total := 0.0;
    var i := |prices|;
    while i > 0
      invariant 0 <= i <= |prices|
      invariant total == Sum(prices[i..])
    {
      i := i - 1;
      total := prices[i] + total;
    }
    if |prices| > 0 && forall k :: 0 <= k < |prices| ==> prices[k] >= 0.0 {
      SumNonNegative(prices[1..]);
      assert forall k :: 0 <= k < |prices[1..]| ==> prices[1..][k] == prices[k + 1];
    }
  }

  /** With a non-negative first-year price and a non-negative escalation,
      every year costs at least as much as the year before, and no year costs
      less than zero. */
  lemma {:induction false} SeriesNonDecreasing(first: real, escalation: real, i: nat)
    requires first >= 0.0 && escalation >= 0.0
    ensures 0.0 <= YearPrice(first, escalation, i) <= YearPrice(first, escalation, i + 1)
  {
    if i > 0 {
      SeriesNonDecreasing(first, escalation, i - 1);
    }
    var p := YearPrice(first, escalation, i);
    assert YearPrice(first, escalation, i + 1) == p + p * (escalation / 100.0);
  }

  /** Zero, negative and one-year terms all give the single first-year entry. */
  lemma ShortTermSingleEntry(basePrice: real, markup: real, years: int, escalation: real)
    requires years <= 1
    ensures PriceSeries(basePrice, markup, years, escalation) == [FirstYear(basePrice, markup)]
  {
  }

  /** The component's defaults: 100,000 at 15% markup over 3 years at 3%. */
  lemma DefaultProjection()
    ensures PriceSeries(DefaultBasePrice, DefaultMarkup, DefaultYears, Escalation) == [115000.0, 118450.0, 122003.5]
    ensures Sum(PriceSeries(DefaultBasePrice, DefaultMarkup, DefaultYears, Escalation)) == 355453.5
  {
    var r := PriceSeries(DefaultBasePrice, DefaultMarkup, DefaultYears, Escalation);
    assert FirstYear(DefaultBasePrice, DefaultMarkup) == 115000.0;
    assert YearPrice(115000.0, Escalation, 1) == 118450.0;
    assert YearPrice(115000.0, Escalation, 2) == 122003.5;
    assert r == [115000.0, 118450.0, 122003.5];
    assert Sum(r[2..]) == 122003.5;
    assert Sum(r[1..]) == 118450.0 + 122003.5;
  }
}

=== FILE: proposal_builder.dfy ===
/** The proposal builder's manual save: the next version number for the
    proposal, the author name written with it, and the guard on the generate
    button. */
module ProposalBuilder {
  import opened Options
  import Text

  /** The highest stored version number, which is what the newest-first
      query limited to one row returns. */
  function MaxVersion(vs: seq<int>): (m: int)
    requires |vs| > 0
    ensures m in vs
    ensures forall i :: 0 <= i < |vs| ==> vs[i] <= m
  {
    if |vs| == 1 then vs[0]
    else
      var rest := MaxVersion(vs[1..]);
      if vs[0] >= rest then vs[0] else rest
  }

  /** `saveVersion`'s number: one more than the highest stored version, or 1
      for the first save. */
  function NextVersion(vs: seq<int>): (n: int)
    ensures forall i :: 0 <= i < |vs| ==> vs[i] < n
    ensures |vs| == 0 ==> n == 1
    ensures |vs| > 0 ==> n - 1 in vs
  {
    if |vs| == 0 then 1 else MaxVersion(vs) + 1
  }

  /** Saving twice numbers the saves one after the other. */
  lemma NextVersionAfterSave(vs: seq<int>)
    ensures NextVersion(vs + [NextVersion(vs)]) == NextVersion(vs) + 1
  {
    var n := NextVersion(vs);
    assert (vs + [n])[|vs|] == n;
  }

  /** `k` saves in a row. */
  function SaveMany(vs: seq<int>, k: nat): seq<int>
    decreases k
  {
    if k == 0 then vs else SaveMany(vs + [NextVersion(vs)], k - 1)
  }

  /** Each save takes the next number: after `k` saves the next number has
      grown by `k`, so saves from nothing are numbered 1, 2, 3, ... */
  lemma {:induction false} SaveManyNumbers(vs: seq<int>, k: nat)
    ensures NextVersion(SaveMany(vs, k)) == NextVersion(vs) + k
    decreases k
  {
    if k > 0 {
      NextVersionAfterSave(vs);
      SaveManyNumbers(vs + [NextVersion(vs)], k - 1);
    }
  }

  /** The signed-in user, as far as the save uses it. */
  datatype User = User(id: string, email: Option<string>)

  /** The row written by a manual save. */
  datatype ProposalVersion = ProposalVersion(
    proposalId: string,
    versionNumber: int,
    content: string,
    createdBy: Option<string>,
    createdByName: string,
    changeSummary: string)

  function EmailOf(user: Option<User>): Option<string> {
    if user.Some? then user.value.email else None
  }

  /** The row `saveVersion` inserts. */
  function SaveVersion(proposalId: string, content: string, stored: seq<int>, user: Option<User>): (v: ProposalVersion)
    ensures v.proposalId == proposalId && v.content == content && v.changeSummary == "Manual save"
    ensures forall i :: 0 <= i < |stored| ==> stored[i] < v.versionNumber
    ensures v.createdBy == (if user.Some? then Some(user.value.id) else None)
    ensures v.createdByName != "" && '@' !in v.createdByName
    ensures user.None? ==> v.createdByName == "User"
  {
    ProposalVersion(proposalId, NextVersion(stored), content,
                    if user.Some? then Some(user.value.id) else None,
                    Text.UserNameFromEmail(EmailOf(user)), "Manual save")
  }

  /** The author of an address `local@domain` is its local part. */
  lemma AuthorIsLocalPart(local: string, domain: string, id: string)
    requires local != "" && '@' !in local
    ensures SaveVersion("p", "c", [], Some(User(id, Some(local + "@" + domain)))).createdByName == local
  {
    Text.UserNameOfAddress(local, domain);
  }

  /** The generate button is disabled until a solicitation is chosen, and
      while a generation runs. */
  predicate GenerateEnabled(selectedSolicitation: string, generating: bool) {
    selectedSolicitation != "" && !generating
  }

  lemma GenerateNeedsSolicitation(generating: bool)
    ensures !GenerateEnabled("", generating)
  {
  }
}

=== FILE: proposal_comparison.dfy ===
/** The proposal comparison page: the list of upload slots, the guard in
    front of the comparison service, and the two chart transforms applied to
    the scores the service returns. */
module ProposalComparison {
  import opened Options
  import Text

  /** An upload slot: the file's name and text, both empty until a file is
      read into it. */
  datatype Proposal = Proposal(name: string, content: string)

  const EmptySlot := Proposal("", "")

  /** `addProposalSlot`: one empty slot at the end. */
  function AddSlot(slots: seq<Proposal>): (r: seq<Proposal>)
    ensures |r| == |slots| + 1 && r[..|slots|] == slots && r[|slots|] == EmptySlot
  {
    slots + [EmptySlot]
  }

  /** `removeProposal`: keeps the slots whose position differs from `index`,
      in order. */
  method RemoveSlot(slots: seq<Proposal>, index: nat) returns (r: seq<Proposal>)
    ensures index < |slots| ==> r == slots[..index] + slots[index + 1..]
    ensures index >= |slots| ==> r == slots
    ensures index < |slots| ==> |r| == |slots| - 1
    ensures forall k :: 0 <= k < |r| ==> r[k] == (if k < index then slots[k] else slots[k + 1])
  {
    r := [];
    var i := 0;
    while i < |slots|
      invariant 0 <= i <= |slots|
      invariant r == if i <= index then slots[..i] else slots[..index] + slots[index + 1..i]
    {
      if i != index {
        r := r + [slots[i]];
      }
      i := i + 1;
    }
    assert slots[..|slots|] == slots;
  }

  /** The upload handler: a chosen file replaces exactly slot `index`;
      choosing no file changes nothing. The index comes from the rendered
      slot list, so it is always in range. */
  function Upload(slots: seq<Proposal>, index: nat, file: Option<Proposal>): (r: seq<Proposal>)
    requires index < |slots|
    ensures |r| == |slots|
    ensures file.Some? ==> r[index] == file.value
    ensures file.None? ==> r == slots
    ensures forall k :: 0 <= k < |slots| && k != index ==> r[k] == slots[k]
  {
    match file
    case None => slots
    case Some(p) => slots[index := p]
  }

  /** What pressing "Compare" does: show an error, or send every slot to the
      service. */
  datatype CompareStep = Refused(message: string) | Request(proposals: seq<Proposal>)

  /** `compareProposals`: fewer than two slots is refused before the
      service is called. Empty slots count: nothing checks that a file was
      uploaded. */
  function Compare(slots: seq<Proposal>): (r: CompareStep)
    ensures r.Refused? <==> |slots| < 2
    ensures r.Refused? ==> r.message == "Please upload at least 2 proposals to compare"
    ensures r.Request? ==> r.proposals == slots
  {
    if |slots| < 2 then Refused("Please upload at least 2 proposals to compare") else Request(slots)
  }

  /** The message shown when the service fails. */
  function FailureMessage(serviceMessage: Option<string>): (m: string)
    ensures m != ""
    ensures serviceMessage.Some? && serviceMessage.value != "" ==> m == serviceMessage.value
    ensures serviceMessage.None? || serviceMessage.value == "" ==> m == "Failed to compare proposals"
  {
    if serviceMessage.Some? && serviceMessage.value != "" then serviceMessage.value else "Failed to compare proposals"
  }

  /** The compare button is enabled when idle with at least two slots. */
  predicate CompareEnabled(loading: bool, slots: seq<Proposal>) {
    !loading && |slots| >= 2
  }

  /** The button and the handler agree: an enabled button always reaches
      the service. */
  lemma EnabledCompareIsRequested(loading: bool, slots: seq<Proposal>)
    requires CompareEnabled(loading, slots)
    ensures Compare(slots).Request?
  {
  }

  /** Two freshly added, never filled slots already pass the guard. */
  lemma EmptySlotsPassGuard()
    ensures Compare(AddSlot(AddSlot([]))) == Request([EmptySlot, EmptySlot])
  {
  }

  /** One proposal's scores as returned by the service. */
  datatype Score = Score(
    proposalName: string,
    compliance: real,
    technical: real,
    clarity: real,
    completeness: real,
    competitiveness: real)

  /** The five scored aspects, in chart order. */
  datatype Metric = Compliance | Technical | Clarity | Completeness | Competitiveness {
    function Label(): string {
      match this
      case Compliance => "Compliance"
      case Technical => "Technical"
      case Clarity => "Clarity"
      case Completeness => "Completeness"
      case Competitiveness => "Competitiveness"
    }

    function Of(s: Score): real {
      match this
      case Compliance => s.compliance
      case Technical => s.technical
      case Clarity => s.clarity
      case Completeness => s.completeness
      case Competitiveness => s.competitiveness
    }
  }

  const Metrics: seq<Metric> := [Compliance, Technical, Clarity, Completeness, Competitiveness]

  /** A bar-chart group: the proposal's name and its five scores. */
  datatype ChartRow = ChartRow(name: string, values: seq<real>)

  function ScoreValues(s: Score): (r: seq<real>)
    ensures |r| == |Metrics| && forall m :: 0 <= m < |Metrics| ==> r[m] == Metrics[m].Of(s)
  {
    [s.compliance, s.technical, s.clarity, s.completeness, s.competitiveness]
  }

  /** `chartData`: one group per score, in the service's order; nothing
      when the service returned no scores. */
  function ChartData(scores: Option<seq<Score>>): (r: seq<ChartRow>)
    ensures scores.None? ==> r == []
    ensures scores.Some? ==> |r| == |scores.value|
    ensures scores.Some? ==> forall i :: 0 <= i < |r| ==>
      r[i].name == scores.value[i].proposalName &&
      |r[i].values| == |Metrics| &&
      forall m :: 0 <= m < |Metrics| ==> r[i].values[m] == Metrics[m].Of(scores.value[i])
  {
    match scores
    case None => []
    case Some(ss) => seq(|ss|, i requires 0 <= i < |ss| => ChartRow(ss[i].proposalName, ScoreValues(ss[i])))
  }

  /** The series key of the proposal at position `i`, counted from one. */
  function SeriesKey(i: nat): string {
    "Proposal " + Text.NatToString(i + 1)
  }

  /** Series keys never collide, so no proposal's value overwrites another's
      in a radar row. */
  lemma SeriesKeysDistinct(i: nat, j: nat)
    requires i != j
    ensures SeriesKey(i) != SeriesKey(j)
  {
    Text.NatToStringInjective(i + 1, j + 1);
    assert SeriesKey(i)[9..] == Text.NatToString(i + 1);
    assert SeriesKey(j)[9..] == Text.NatToString(j + 1);
  }

  /** A radar-chart point: the metric and one keyed value per proposal. */
  datatype RadarRow = RadarRow(metric: string, entries: seq<(string, real)>)

  /** `radarData`: exactly five rows, one per metric, each holding the
      entry "Proposal k" for every score k = 1..n. */
  function RadarData(scores: Option<seq<Score>>): (r: seq<RadarRow>)
    ensures |r| == |Metrics|
    ensures forall m :: 0 <= m < |r| ==> r[m].metric == Metrics[m].Label()
    ensures forall m :: 0 <= m < |r| ==> |r[m].entries| == (if scores.Some? then |scores.value| else 0)
    ensures scores.Some? ==> forall m, k :: 0 <= m < |r| && 0 <= k < |scores.value| ==>
      r[m].entries[k] == (SeriesKey(k), Metrics[m].Of(scores.value[k]))
  {
    var ss := scores.GetOr([]);
    seq(|Metrics|, m requires 0 <= m < |Metrics| =>
      RadarRow(Metrics[m].Label(), seq(|ss|, k requires 0 <= k < |ss| => (SeriesKey(k), Metrics[m].Of(ss[k])))))
  }

  /** Bars and radar agree: the value a proposal shows for a metric is the
      same in both charts. */
  lemma ChartsAgree(ss: seq<Score>, k: nat, m: nat)
    requires k < |ss| && m < |Metrics|
    ensures ChartData(Some(ss))[k].values[m] == RadarData(Some(ss))[m].entries[k].1
  {
  }

  /** The series palette. */
  const Colors: seq<string> := ["#3b82f6", "#10b981", "#f59e0b", "#8b5cf6", "#ef4444", "#06b6d4"]

  /** The radar series at position `idx` takes the palette colour idx mod 6. */
  function SeriesColor(idx: nat): (c: string)
    ensures c in Colors && c == Colors[idx % 6]
  {
    Colors[idx % |Colors|]
  }

  /** Colours repeat exactly every six series. */
  lemma SeriesColorCycle(i: nat, j: nat)
    ensures SeriesColor(i) == SeriesColor(j) <==> i % 6 == j % 6
  {
    assert forall a, b :: 0 <= a < 6 && 0 <= b < 6 && a != b ==> Colors[a] != Colors[b] by {
      assert Colors[0][1] == '3' && Colors[1][1] == '1' && Colors[2][1] == 'f';
      assert Colors[3][1] == '8' && Colors[4][1] == 'e' && Colors[5][1] == '0';
    }
  }
}

=== FILE: proposal_evaluator.dfy ===
/** The proposal evaluator page: the guard in front of the evaluation
    service and the colour rules applied to its result. */
module ProposalEvaluator {
  import opened Badges

  /** What pressing "Evaluate" does. */
  datatype EvaluateStep =
    | Alert(message: string)
    | Request(proposalText: string, rfpRequirements: string, contractType: string, agency: string)

  /** `handleEvaluate`: refused with an alert when either text is empty;
      whitespace counts as text. Otherwise the service receives the two
      texts together with the optional contract type and agency fields,
      which may be empty. */
  function Evaluate(proposalText: string, rfpRequirements: string, contractType: string, agency: string): (r: EvaluateStep)
    ensures r.Alert? <==> proposalText == "" || rfpRequirements == ""
    ensures r.Alert? ==> r.message == "Please provide both proposal text and RFP requirements"
    ensures r.Request? ==> r == Request(proposalText, rfpRequirements, contractType, agency)
  {
    if proposalText == "" || rfpRequirements == "" then
      Alert("Please provide both proposal text and RFP requirements")
    else
      Request(proposalText, rfpRequirements, contractType, agency)
  }

  /** The alert after a failed evaluation. */
  function FailureAlert(message: string): (m: string)
    ensures |m| == |"Evaluation failed: "| + |message| && m[|"Evaluation failed: "|..] == message
  {
    "Evaluation failed: " + message
  }

  datatype ScoreColor = GreenText | YellowText | RedText {
    function Class(): string {
      match this
      case GreenText => "text-green-600"
      case YellowText => "text-yellow-600"
      case RedText => "text-red-600"
    }

    function Rank(): nat {
      match this
      case RedText => 0
      case YellowText => 1
      case GreenText => 2
    }
  }

  /** `getScoreColor`: 80 and up green, 60 and up yellow, otherwise red. */
  function GetScoreColor(score: real): (c: ScoreColor)
    ensures c == GreenText <==> score >= 80.0
    ensures c == YellowText <==> 60.0 <= score < 80.0
    ensures c == RedText <==> score < 60.0
  {
    if score >= 80.0 then GreenText else if score >= 60.0 then YellowText else RedText
  }

  /** A higher score never gets a worse colour. */
  lemma ScoreColorMonotone(s: real, t: real)
    requires s <= t
    ensures GetScoreColor(s).Rank() <= GetScoreColor(t).Rank()
  {
  }

  /** `getSeverityColor`: critical and high are destructive, medium is
      default, any other severity is secondary. */
  function GetSeverityColor(severity: string): (v: Variant)
    ensures v == Destructive <==> severity == "critical" || severity == "high"
    ensures v == Default <==> severity == "medium"
    ensures v == Secondary <==> severity !in ["critical", "high", "medium"]
  {
    if severity == "critical" || severity == "high" then Destructive
    else if severity == "medium" then Default
    else Secondary
  }

  /** The variant of a compliance issue's alert box. */
  function IssueAlertVariant(severity: string): (v: Variant)
    ensures v == Destructive || v == Default
  {
    if severity == "critical" || severity == "high" then Destructive else Default
  }

  /** The alert box and its severity badge agree on what is destructive. */
  lemma AlertAgreesWithBadge(severity: string)
    ensures IssueAlertVariant(severity) == Destructive <==> GetSeverityColor(severity) == Destructive
  {
  }

  /** A section's score badge is destructive below 70. */
  function SectionBadge(score: real): (v: Variant)
    ensures v == Destructive <==> score < 70.0
    ensures v == Default <==> score >= 70.0
  {
    if score >= 70.0 then Default else Destructive
  }

  /** A section red in the badge is not green in the score colour: the two
      thresholds nest. */
  lemma SectionBadgeNests(score: real)
    ensures SectionBadge(score) == Destructive ==> GetScoreColor(score) != GreenText
    ensures GetScoreColor(score) == GreenText ==> SectionBadge(score) == Default
  {
  }

  /** An improvement's priority badge: high destructive, medium default,
      anything else secondary. */
  function PriorityBadge(priority: string): (v: Variant)
    ensures v == Destructive <==> priority == "high"
    ensures v == Default <==> priority == "medium"
    ensures v == Secondary <==> priority != "high" && priority != "medium"
  {
    if priority == "high" then Destructive else if priority == "medium" then Default else Secondary
  }

  /** Priority and severity badges agree except that "critical" is only a
      severity. */
  lemma PriorityMatchesSeverity(level: string)
    requires level != "critical"
    ensures PriorityBadge(level) == GetSeverityColor(level)
  {
  }
}

=== FILE: sam_sync_config.dfy ===
/** The SAM.gov sync configuration panel: the default configuration, the
    keyword and NAICS lists edited through the store, and the auto-sync
    switch. Every edit is an update of one column; the panel then shows the
    row the store returns, which is nothing when the update failed. */
module SamSyncConfig {
  import opened Options
  import Seqs
  import Text

  datatype SyncConfig = SyncConfig(
    id: string,
    userId: string,
    name: string,
    keywords: Option<seq<string>>,
    setAsides: seq<string>,
    naicsCodes: Option<seq<string>>,
    locations: seq<string>,
    sourceTypes: seq<string>,
    minDaysUntilDue: int,
    lookbackMonths: int,
    isActive: bool)

  /** The row created for a user without a configuration (the id is assigned
      by the store). */
  function DefaultConfig(id: string, userId: string): (c: SyncConfig)
    ensures c.userId == userId && c.name == "Default Configuration"
    ensures c.keywords == Some([]) && c.naicsCodes == Some([]) && c.locations == []
    ensures c.setAsides == ["SBA", "8A", "WOSB", "SDVOSB"]
    ensures c.sourceTypes == ["federal", "state", "local", "education"]
    ensures c.minDaysUntilDue == 14 && c.lookbackMonths == 3 && c.isActive
  {
    SyncConfig(id, userId, "Default Configuration", Some([]), ["SBA", "8A", "WOSB", "SDVOSB"], Some([]),
               [], ["federal", "state", "local", "education"], 14, 3, true)
  }

  /** The panel: the loaded row (if any) and the two text inputs. */
  datatype Panel = Panel(config: Option<SyncConfig>, keywordInput: string, naicsInput: string)

  /** The two list columns the panel edits. */
  datatype ListField = KeywordList | NaicsList

  /** One column update. */
  datatype Patch = SetList(field: ListField, values: seq<string>) | SetActive(active: bool)

  function ListOf(c: SyncConfig, field: ListField): seq<string> {
    match field
    case KeywordList => c.keywords.GetOr([])
    case NaicsList => c.naicsCodes.GetOr([])
  }

  function InputOf(p: Panel, field: ListField): string {
    match field
    case KeywordList => p.keywordInput
    case NaicsList => p.naicsInput
  }

  function ClearInput(p: Panel, field: ListField): (r: Panel)
    ensures InputOf(r, field) == "" && r.config == p.config
    ensures forall f :: f != field ==> InputOf(r, f) == InputOf(p, f)
  {
    match field
    case KeywordList => p.(keywordInput := "")
    case NaicsList => p.(naicsInput := "")
  }

  /** The row with one column replaced; every other column is unchanged. */
  function ApplyPatch(c: SyncConfig, patch: Patch): (r: SyncConfig)
    ensures patch.SetList? ==> ListOf(r, patch.field) == patch.values
    ensures patch.SetList? ==> forall f :: f != patch.field ==> ListOf(r, f) == ListOf(c, f)
    ensures patch.SetList? ==> r.isActive == c.isActive
    ensures patch.SetActive? ==> r == c.(isActive := patch.active)
    ensures r.(keywords := c.keywords, naicsCodes := c.naicsCodes, isActive := c.isActive) == c
  {
    match patch
    case SetList(KeywordList, v) => c.(keywords := Some(v))
    case SetList(NaicsList, v) => c.(naicsCodes := Some(v))
    case SetActive(a) => c.(isActive := a)
  }

  /** `updateConfig`: the panel shows the updated row, or no row at all when
      the update failed (the store then returns no data). */
  function UpdateConfig(p: Panel, patch: Patch, updateOk: bool): (r: Panel)
    requires p.config.Some?
    ensures updateOk ==> r.config == Some(ApplyPatch(p.config.value, patch))
    ensures !updateOk ==> r.config.None?
    ensures r.keywordInput == p.keywordInput && r.naicsInput == p.naicsInput
  {
    p.(config := if updateOk then Some(ApplyPatch(p.config.value, patch)) else None)
  }

  /** `addKeyword` / `addNaics`: with a non-blank input and a loaded row, the
      trimmed input is appended (duplicates are not checked) and the input is
      cleared; otherwise nothing happens. */
  function AddEntry(p: Panel, field: ListField, updateOk: bool): (r: Panel)
    ensures Text.IsBlank(InputOf(p, field)) || p.config.None? ==> r == p
    ensures !Text.IsBlank(InputOf(p, field)) && p.config.Some? ==>
      && InputOf(r, field) == ""
      && (updateOk ==> r.config.Some?)
      && (updateOk ==> ListOf(r.config.value, field) == ListOf(p.config.value, field) + [Text.Trim(InputOf(p, field))])
      && (!updateOk ==> r.config.None?)
    ensures forall f :: f != field ==> InputOf(r, f) == InputOf(p, f)
    ensures updateOk && r.config.Some? && p.config.Some? ==>
      && (forall f :: f != field ==> ListOf(r.config.value, f) == ListOf(p.config.value, f))
      && r.config.value.(keywords := p.config.value.keywords, naicsCodes := p.config.value.naicsCodes) == p.config.value
  {
    var entry := Text.Trim(InputOf(p, field));
    if entry == "" || p.config.None? then p
    else ClearInput(UpdateConfig(p, SetList(field, ListOf(p.config.value, field) + [entry]), updateOk), field)
  }

  /** `removeKeyword` / `removeNaics`: every copy of the entry is dropped. */
  function RemoveEntry(p: Panel, field: ListField, entry: string, updateOk: bool): (r: Panel)
    requires p.config.Some?
    ensures updateOk ==> r.config.Some? && ListOf(r.config.value, field) == Seqs.RemoveAll(ListOf(p.config.value, field), entry)
    ensures updateOk ==> forall f :: f != field ==> ListOf(r.config.value, f) == ListOf(p.config.value, f)
    ensures r.keywordInput == p.keywordInput && r.naicsInput == p.naicsInput
  {
    UpdateConfig(p, SetList(field, Seqs.RemoveAll(ListOf(p.config.value, field), entry)), updateOk)
  }

  /** Keywords are not deduplicated: adding one already present lists it twice. */
  lemma AddEntryKeepsDuplicates(p: Panel, field: ListField)
    requires p.config.Some? && !Text.IsBlank(InputOf(p, field))
    requires Text.Trim(InputOf(p, field)) in ListOf(p.config.value, field)
    ensures var l := ListOf(AddEntry(p, field, true).config.value, field);
      |l| == |ListOf(p.config.value, field)| + 1 && l[|l| - 1] in l[..|l| - 1]
  {
    var l := ListOf(AddEntry(p, field, true).config.value, field);
    assert l[..|l| - 1] == ListOf(p.config.value, field);
  }

  /** Adding a new entry and removing it again restores the list. */
  lemma AddThenRemoveEntry(p: Panel, field: ListField)
    requires p.config.Some? && !Text.IsBlank(InputOf(p, field))
    requires Text.Trim(InputOf(p, field)) !in ListOf(p.config.value, field)
    ensures var q := AddEntry(p, field, true);
      ListOf(RemoveEntry(q, field, Text.Trim(InputOf(p, field)), true).config.value, field) == ListOf(p.config.value, field)
  {
    Seqs.AppendThenRemove(ListOf(p.config.value, field), Text.Trim(InputOf(p, field)));
  }

  /** `toggleAutoSync`: only the active flag changes. */
  function ToggleAutoSync(p: Panel, enabled: bool, updateOk: bool): (r: Panel)
    requires p.config.Some?
    ensures updateOk ==> r.config == Some(p.config.value.(isActive := enabled))
    ensures !updateOk ==> r.config.None?
  {
    UpdateConfig(p, SetActive(enabled), updateOk)
  }

  /** The notice shown after the switch is flipped. */
  function AutoSyncNotice(enabled: bool): (title: string)
    ensures title == (if enabled then "Auto-Sync Enabled" else "Auto-Sync Disabled")
  {
    if enabled then "Auto-Sync Enabled" else "Auto-Sync Disabled"
  }

  /** A failed update leaves the panel with no configuration, after which the
      add operations do nothing until the row is loaded again. */
  lemma FailedUpdateDisablesEditing(p: Panel, other: ListField, ok: bool)
    requires p.config.Some?
    ensures AddEntry(ToggleAutoSync(p, true, false), other, ok) == ToggleAutoSync(p, true, false)
  {
  }
}

=== FILE: scheduled_sync_status.dfy ===
/** The scheduled-sync history card: each run's status picks an icon and a
    badge variant, and the badge shows the status with its first underscore
    as a space. */
module ScheduledSyncStatus {
  import Text
  import opened Badges

  datatype Icon = GreenCheck | SpinningClock | YellowAlert | RedAlert

  /** `getStatusIcon`. */
  function GetStatusIcon(status: string): (i: Icon)
    ensures i == GreenCheck <==> status == "completed"
    ensures i == SpinningClock <==> status == "running"
    ensures i == YellowAlert <==> status == "completed_with_errors"
    ensures i == RedAlert <==> status !in ["completed", "running", "completed_with_errors"]
  {
    if status == "completed" then GreenCheck
    else if status == "running" then SpinningClock
    else if status == "completed_with_errors" then YellowAlert
    else RedAlert
  }

  /** `getStatusColor`. */
  function GetStatusColor(status: string): (v: Variant)
    ensures v == Default <==> status == "completed"
    ensures v == Secondary <==> status == "running"
    ensures v == Outline <==> status == "completed_with_errors"
    ensures v == Destructive <==> status !in ["completed", "running", "completed_with_errors"]
  {
    if status == "completed" then Default
    else if status == "running" then Secondary
    else if status == "completed_with_errors" then Outline
    else Destructive
  }

  /** The icon that goes with each badge variant. */
  function IconOf(v: Variant): Icon {
    match v
    case Default => GreenCheck
    case Secondary => SpinningClock
    case Outline => YellowAlert
    case Destructive => RedAlert
  }

  /** Icon and badge split the statuses the same four ways: the badge
      determines the icon, and different badges have different icons. */
  lemma IconAndColorAgree(status: string, other: string)
    ensures IconOf(GetStatusColor(status)) == GetStatusIcon(status)
    ensures GetStatusIcon(status) == GetStatusIcon(other) <==> GetStatusColor(status) == GetStatusColor(other)
  {
  }

  /** So "completed_with_errors" shows as "completed with_errors". */
  lemma LabelExample()
    ensures Text.StatusLabel("completed_with_errors") == "completed with_errors"
  {
    var a, b := "completed", "with_errors";
    assert '_' !in a by {
      assert a == ['c', 'o', 'm', 'p', 'l', 'e', 't', 'e', 'd'];
    }
    assert a + "_" + b == "completed_with_errors";
    assert a + " " + b == "completed with_errors";
    Text.StatusLabelReplacesFirstOnly(a, b);
  }

  /** The new/updated counts are shown under a run only when it completed
      cleanly. */
  predicate CountsShown(status: string) {
    status == "completed"
  }

  lemma CountsOnlyForGreenRuns(status: string)
    ensures CountsShown(status) <==> GetStatusIcon(status) == GreenCheck
  {
  }
}

=== FILE: score_badge.dfy ===
/** The score badge of an opportunity card: a score falls into one of four
    colour bands. */
module ScoreBadge {

  datatype Band = Green | Blue | Amber | Red {
    /** The classes the badge carries. */
    function Classes(): string {
      match this
      case Green => "text-green-600 bg-green-50"
      case Blue => "text-blue-600 bg-blue-50"
      case Amber => "text-amber-600 bg-amber-50"
      case Red => "text-red-600 bg-red-50"
    }

    /** Better bands rank higher. */
    function Rank(): nat {
      match this
      case Red => 0
      case Amber => 1
      case Blue => 2
      case Green => 3
    }
  }

  /** `getColor`: 85 and up green, 70 and up blue, 50 and up amber, below
      that red. */
  function GetColor(score: real): (b: Band)
    ensures b == Green <==> score >= 85.0
    ensures b == Blue <==> 70.0 <= score < 85.0
    ensures b == Amber <==> 50.0 <= score < 70.0
    ensures b == Red <==> score < 50.0
  {
    if score >= 85.0 then Green
    else if score >= 70.0 then Blue
    else if score >= 50.0 then Amber
    else Red
  }

  /** A higher score never gets a lower band. */
  lemma GetColorMonotone(s: real, t: real)
    requires s <= t
    ensures GetColor(s).Rank() <= GetColor(t).Rank()
  {
  }

  /** The band edges belong to the upper band. */
  lemma Boundaries()
    ensures GetColor(85.0) == Green && GetColor(84.0) == Blue
    ensures GetColor(70.0) == Blue && GetColor(69.0) == Amber
    ensures GetColor(50.0) == Amber && GetColor(49.0) == Red
  {
  }

  /** The bands have distinct classes, so the badge shows which band a score
      is in. */
  lemma ClassesDistinct(a: Band, b: Band)
    requires a != b
    ensures a.Classes() != b.Classes()
  {
    assert a.Classes()[5] != b.Classes()[5];
  }
}

=== FILE: seqs.dfy ===
/** Optional values and the order-preserving list operations that the
    dashboard components apply to the rows they hold in memory. */
module Options {

  /** A field that may be absent from a row (`null` / `undefined`). */
  datatype Option<+T> = None | Some(value: T) {

    /** The value, or `default` when absent (JavaScript's `x || default` for
        a value that is never falsy when present). */
    function GetOr(default: T): T {
      match this
      case Some(v) => v
      case None => default
    }
  }

  /** The outcome of an operation that can be refused with a message (the
      text of the error toast). */
  datatype Result<+T> = Ok(value: T) | Failure(error: string)
}

module Seqs {

  /** `a` can be obtained from `b` by deleting elements, keeping the order. */
  ghost predicate IsSubsequence<T(!new)>(a: seq<T>, b: seq<T>)
    decreases |b|
  {
    if |b| == 0 then |a| == 0
    else IsSubsequence(a, b[1..]) || (|a| > 0 && a[0] == b[0] && IsSubsequence(a[1..], b[1..]))
  }

  /** `Array.prototype.filter`: the elements of `s` satisfying `p`, in order. */
  function Filter<T(!new)>(s: seq<T>, p: T -> bool): (r: seq<T>)
    ensures |r| <= |s|
    ensures forall x :: x in r <==> x in s && p(x)
    ensures forall i :: 0 <= i < |r| ==> p(r[i])
    ensures forall x {:trigger multiset(r)[x]} :: multiset(r)[x] == if p(x) then multiset(s)[x] else 0
  {
    assert |s| > 0 ==> s == [s[0]] + s[1..];
    if |s| == 0 then []
    else if p(s[0]) then [s[0]] + Filter(s[1..], p)
    else Filter(s[1..], p)
  }

  /** The result of a filter is an order-preserving subsequence of its input. */
  lemma {:induction false} FilterIsSubsequence<T(!new)>(s: seq<T>, p: T -> bool)
    ensures IsSubsequence(Filter(s, p), s)
  {
    if |s| > 0 {
      FilterIsSubsequence(s[1..], p);
      if p(s[0]) {
        var r := Filter(s, p);
        assert r[0] == s[0] && r[1..] == Filter(s[1..], p);
      }
    }
  }

  /** A filter keeps everything exactly when every element passes. */
  lemma {:induction false} FilterKeepsAllIff<T(!new)>(s: seq<T>, p: T -> bool)
    ensures Filter(s, p) == s <==> forall i :: 0 <= i < |s| ==> p(s[i])
  {
    if |s| > 0 {
      FilterKeepsAllIff(s[1..], p);
      if p(s[0]) {
        assert s == [s[0]] + s[1..];
        if Filter(s, p) == s {
          assert Filter(s[1..], p) == s[1..];
        }
        if forall i :: 0 <= i < |s| ==> p(s[i]) {
          assert forall i :: 0 <= i < |s[1..]| ==> p(s[1..][i]) by {
            forall i | 0 <= i < |s[1..]| ensures p(s[1..][i]) {
              assert s[1..][i] == s[i + 1];
            }
          }
        }
      } else {
        assert |Filter(s[1..], p)| <= |s[1..]| < |s|;
      }
    }
  }

  /** Filtering with all elements passing is the identity. */
  lemma FilterAll<T(!new)>(s: seq<T>, p: T -> bool)
    requires forall i :: 0 <= i < |s| ==> p(s[i])
    ensures Filter(s, p) == s
  {
    FilterKeepsAllIff(s, p);
  }

  /** Two predicates that agree on the input select the same elements. */
  lemma {:induction false} FilterCongruent<T(!new)>(s: seq<T>, p: T -> bool, q: T -> bool)
    requires forall i :: 0 <= i < |s| ==> p(s[i]) == q(s[i])
    ensures Filter(s, p) == Filter(s, q)
  {
    if |s| > 0 {
      FilterCongruent(s[1..], p, q);
    }
  }

  /** Filtering is idempotent. */
  lemma FilterIdempotent<T(!new)>(s: seq<T>, p: T -> bool)
    ensures Filter(Filter(s, p), p) == Filter(s, p)
  {
    FilterAll(Filter(s, p), p);
  }

  /** Filtering distributes over concatenation. */
  lemma {:induction false} FilterAppend<T(!new)>(a: seq<T>, b: seq<T>, p: T -> bool)
    ensures Filter(a + b, p) == Filter(a, p) + Filter(b, p)
  {
    if |a| > 0 {
      assert (a + b)[1..] == a[1..] + b;
      FilterAppend(a[1..], b, p);
    } else {
      assert a + b == b;
    }
  }

  /** `s.filter(x => x !== v)`: every occurrence of `v` removed. */
  function RemoveAll<T(!new,==)>(s: seq<T>, v: T): (r: seq<T>)
    ensures v !in r
    ensures forall x :: x != v ==> (x in r <==> x in s)
  {
    Filter(s, x => x != v)
  }

  /** Removal keeps the remaining elements in their order. */
  lemma RemoveAllIsSubsequence<T(!new)>(s: seq<T>, v: T)
    ensures IsSubsequence(RemoveAll(s, v), s)
  {
    FilterIsSubsequence(s, x => x != v);
  }

  /** Removal keeps a duplicate-free list duplicate-free. */
  lemma RemoveAllNoDuplicates<T(!new)>(s: seq<T>, v: T)
    requires NoDuplicates(s)
    ensures NoDuplicates(RemoveAll(s, v))
  {
    FilterNoDuplicates(s, x => x != v);
  }

  /** Removing an absent value changes nothing. */
  lemma RemoveAbsent<T(!new)>(s: seq<T>, v: T)
    requires v !in s
    ensures RemoveAll(s, v) == s
  {
    FilterAll(s, x => x != v);
  }

  /** Appending a fresh value and then removing it restores the list. */
  lemma AppendThenRemove<T(!new)>(s: seq<T>, v: T)
    requires v !in s
    ensures RemoveAll(s + [v], v) == s
  {
    FilterAppend(s, [v], x => x != v);
    RemoveAbsent(s, v);
  }

  /** The position of the first occurrence of `x` in `s`. */
  function IndexOf<T(==)>(s: seq<T>, x: T): (i: nat)
    requires x in s
    ensures i < |s| && s[i] == x && x !in s[..i]
  {
    if s[0] == x then 0
    else
      var j := IndexOf(s[1..], x);
      assert s[..j + 1] == [s[0]] + s[1..][..j];
      j + 1
  }

  /** An element at position `i` that does not occur before it is first
      found there. */
  lemma IndexOfFresh<T>(s: seq<T>, i: nat)
    requires i < |s| && s[i] !in s[..i]
    ensures IndexOf(s, s[i]) == i
  {
    var k := IndexOf(s, s[i]);
    assert forall m :: 0 <= m < k ==> s[m] == s[..k][m];
    assert forall m :: 0 <= m < i ==> s[m] == s[..i][m];
  }

  /** An element occurring before position `i` is first found before it. */
  lemma IndexOfBefore<T>(s: seq<T>, i: nat, x: T)
    requires i <= |s| && x in s[..i]
    ensures IndexOf(s, x) < i
  {
    var j :| 0 <= j < i && s[..i][j] == x;
    var k := IndexOf(s, x);
    assert forall m :: 0 <= m < k ==> s[m] == s[..k][m];
    assert s[j] == x;
  }

  /** No element occurs twice. */
  predicate NoDuplicates<T(==)>(s: seq<T>) {
    forall i, j :: 0 <= i < j < |s| ==> s[i] != s[j]
  }

  /** A filter of a duplicate-free list is duplicate-free. */
  lemma {:induction false} FilterNoDuplicates<T(!new)>(s: seq<T>, p: T -> bool)
    requires NoDuplicates(s)
    ensures NoDuplicates(Filter(s, p))
  {
    if |s| > 0 {
      TailNoDuplicates(s);
      FilterNoDuplicates(s[1..], p);
      if p(s[0]) {
        assert s[0] !in Filter(s[1..], p);
        ConsNoDuplicates(s[0], Filter(s[1..], p));
      }
    }
  }

  lemma TailNoDuplicates<T>(s: seq<T>)
    requires |s| > 0 && NoDuplicates(s)
    ensures NoDuplicates(s[1..]) && s[0] !in s[1..]
  {
    forall i, j | 0 <= i < j < |s[1..]| ensures s[1..][i] != s[1..][j] {
      assert s[1..][i] == s[i + 1] && s[1..][j] == s[j + 1];
    }
  }

  lemma ConsNoDuplicates<T>(x: T, t: seq<T>)
    requires x !in t && NoDuplicates(t)
    ensures NoDuplicates([x] + t)
  {
    var r := [x] + t;
    forall i, j | 0 <= i < j < |r| ensures r[i] != r[j] {
      assert r[j] == t[j - 1];
      if i > 0 {
        assert r[i] == t[i - 1];
      }
    }
  }

  /** A sequence without members is empty. */
  lemma NoMembersEmpty<T>(s: seq<T>)
    ensures (forall x :: x !in s) ==> s == []
  {
    if |s| > 0 {
      assert s[0] in s;
    }
  }

  /** The number of elements satisfying `p`. */
  function Count<T(!new)>(s: seq<T>, p: T -> bool): (n: nat)
    ensures n <= |s|
  {
    |Filter(s, p)|
  }

  /** Counts of pairwise exclusive predicates add up to at most the length. */
  lemma {:induction false} CountDisjoint3<T(!new)>(s: seq<T>, p: T -> bool, q: T -> bool, u: T -> bool)
    requires forall x :: !(p(x) && q(x)) && !(p(x) && u(x)) && !(q(x) && u(x))
    ensures Count(s, p) + Count(s, q) + Count(s, u) <= |s|
  {
    if |s| > 0 {
      CountDisjoint3(s[1..], p, q, u);
    }
  }
}

=== FILE: status_badge.dfy ===
/** The classification badge of an opportunity: a colour chosen from the
    upper-cased status, and the status shown with its first underscore as a
    space. */
module StatusBadge {
  import Text

  datatype Style = GreenStyle | BlueStyle | GreyStyle | AmberStyle | PurpleStyle | CyanStyle {
    function Classes(): string {
      match this
      case GreenStyle => "bg-green-100 text-green-800 border-green-300"
      case BlueStyle => "bg-blue-100 text-blue-800 border-blue-300"
      case GreyStyle => "bg-gray-100 text-gray-600 border-gray-300"
      case AmberStyle => "bg-amber-100 text-amber-800 border-amber-300"
      case PurpleStyle => "bg-purple-100 text-purple-800 border-purple-300"
      case CyanStyle => "bg-cyan-100 text-cyan-800 border-cyan-300"
    }
  }

  /** The six statuses with a style of their own. */
  const KnownStatuses: seq<string> := ["PRIME", "SUB_PLAY", "REJECT", "NEW", "IN_REVIEW", "OUTREACH"]

  /** `getStyles`: on the upper-cased status, PRIME green, SUB_PLAY blue,
      REJECT grey, NEW amber, IN_REVIEW purple, OUTREACH cyan; every other
      status grey. */
  function GetStyles(status: string): (st: Style)
    ensures var u := Text.ToUpper(status);
      && (st == GreenStyle <==> u == "PRIME")
      && (st == BlueStyle <==> u == "SUB_PLAY")
      && (st == AmberStyle <==> u == "NEW")
      && (st == PurpleStyle <==> u == "IN_REVIEW")
      && (st == CyanStyle <==> u == "OUTREACH")
      && (st == GreyStyle <==> u !in KnownStatuses || u == "REJECT")
  {
    var u := Text.ToUpper(status);
    if u == "PRIME" then GreenStyle
    else if u == "SUB_PLAY" then BlueStyle
    else if u == "REJECT" then GreyStyle
    else if u == "NEW" then AmberStyle
    else if u == "IN_REVIEW" then PurpleStyle
    else if u == "OUTREACH" then CyanStyle
    else GreyStyle
  }

  /** The style does not depend on letter case. */
  lemma StylesIgnoreCase(status: string)
    ensures GetStyles(Text.ToLower(status)) == GetStyles(status)
    ensures GetStyles(Text.ToUpper(status)) == GetStyles(status)
  {
    Text.ToUpperIgnoresCase(status);
  }

  /** A rejected opportunity looks like one with an unknown status. */
  lemma RejectLooksUnknown(status: string)
    requires Text.ToUpper(status) !in KnownStatuses
    ensures GetStyles("REJECT") == GetStyles(status) == GreyStyle
  {
  }

  /** For instance "A_B_C" shows as "A B_C". */
  lemma LabelExample()
    ensures Text.StatusLabel("A_B_C") == "A B_C"
  {
    Text.StatusLabelReplacesFirstOnly("A", "B_C");
  }
}

=== FILE: template_analytics.dfy ===
/** The per-template analytics card: counts of views, uses and downloads,
    the share of recorded events with a successful outcome, and the total
    contract value won. */
module TemplateAnalytics {
  import opened Options
  import Seqs

  /** One analytics event of the template. A missing or zero win value
      counts as nothing won. */
  datatype AnalyticsRow = AnalyticsRow(action: string, successOutcome: bool, winValue: Option<real>)

  /** The card's figures. `successRate` is `None` where the page divides
      zero by zero (no events), which displays as "NaN%". */
  datatype Stats = Stats(
    totalViews: nat,
    totalUses: nat,
    totalDownloads: nat,
    successRate: Option<real>,
    totalWinValue: real)

  function ActionIs(action: string): AnalyticsRow -> bool {
    (a: AnalyticsRow) => a.action == action
  }

  function Succeeded(): AnalyticsRow -> bool {
    (a: AnalyticsRow) => a.successOutcome
  }

  /** `a.win_value || 0`. */
  function WinOf(a: AnalyticsRow): real {
    a.winValue.GetOr(0.0)
  }

  /** The reduce over the events, left to right. */
  function WinSum(rows: seq<AnalyticsRow>): real {
    if |rows| == 0 then 0.0 else WinSum(rows[..|rows| - 1]) + WinOf(rows[|rows| - 1])
  }

  /** The share of successful events in percent: `successes / n * 100`. */
  function SuccessRate(successes: nat, n: nat): (rate: Option<real>)
    requires successes <= n
    ensures rate.None? <==> n == 0
    ensures rate.Some? ==> 0.0 <= rate.value <= 100.0
    ensures rate.Some? ==> rate.value * (n as real) == 100.0 * (successes as real)
  {
    if n == 0 then None
    else
      var q := (successes as real) / (n as real);
      FractionBounds(successes as real, n as real);
      Some(q * 100.0)
  }

  lemma FractionBounds(c: real, n: real)
    requires n > 0.0 && 0.0 <= c <= n
    ensures 0.0 <= c / n <= 1.0
  {
  }

  /** Every win value is zero or more. */
  predicate NoNegativeWins(rows: seq<AnalyticsRow>) {
    forall i :: 0 <= i < |rows| ==> WinOf(rows[i]) >= 0.0
  }

  /** Some event won a positive value. */
  predicate SomeWin(rows: seq<AnalyticsRow>) {
    exists i :: 0 <= i < |rows| && WinOf(rows[i]) > 0.0
  }

  /** `stats`: each count is the number of events with that action, and an
      event has one action, so together they never exceed the number of
      events; with at least one event the success rate is a percentage and
      without events it is undefined; the win total adds every win value (a
      missing one as 0), so with no negative values it is positive exactly
      when some event won something. */
  function ComputeStats(rows: seq<AnalyticsRow>): (s: Stats)
    ensures s.totalViews == Seqs.Count(rows, ActionIs("view"))
    ensures s.totalUses == Seqs.Count(rows, ActionIs("use"))
    ensures s.totalDownloads == Seqs.Count(rows, ActionIs("download"))
    ensures s.totalViews + s.totalUses + s.totalDownloads <= |rows|
    ensures s.successRate == SuccessRate(Seqs.Count(rows, Succeeded()), |rows|)
    ensures s.successRate.None? <==> |rows| == 0
    ensures s.successRate.Some? ==> 0.0 <= s.successRate.value <= 100.0
    ensures s.totalWinValue == WinSum(rows)
    ensures NoNegativeWins(rows) ==> (s.totalWinValue > 0.0 <==> SomeWin(rows))
  {
    Seqs.CountDisjoint3(rows, ActionIs("view"), ActionIs("use"), ActionIs("download"));
    WinSumPositiveIffSomeWin(rows);
    Stats(Seqs.Count(rows, ActionIs("view")), Seqs.Count(rows, ActionIs("use")),
          Seqs.Count(rows, ActionIs("download")),
          SuccessRate(Seqs.Count(rows, Succeeded()), |rows|), WinSum(rows))
  }

  /** The "Total Contract Value Won" card is shown only for a positive
      total. */
  predicate WinCardShown(s: Stats) {
    s.totalWinValue > 0.0
  }

  /** With no negative win values, the card is shown exactly when some event
      won something. */
  lemma WinCardIffSomeWin(rows: seq<AnalyticsRow>)
    requires NoNegativeWins(rows)
    ensures WinCardShown(ComputeStats(rows)) <==> SomeWin(rows)
  {
  }

  /** A positive total needs some event that won a positive value. */
  lemma {:induction false} PositiveTotalHasWin(rows: seq<AnalyticsRow>)
    ensures WinSum(rows) > 0.0 ==> SomeWin(rows)
  {
    if |rows| > 0 && WinSum(rows) > 0.0 {
      var init := rows[..|rows| - 1];
      PositiveTotalHasWin(init);
      if WinOf(rows[|rows| - 1]) <= 0.0 {
        var i :| 0 <= i < |init| && WinOf(init[i]) > 0.0;
        assert rows[i] == init[i];
      }
    }
  }

  /** With no negative values, the sum is positive exactly when some event
      won something. */
  lemma {:induction false} WinSumPositiveIffSomeWin(rows: seq<AnalyticsRow>)
    ensures NoNegativeWins(rows) ==> (WinSum(rows) > 0.0 <==> SomeWin(rows))
  {
    PositiveTotalHasWin(rows);
    if NoNegativeWins(rows) && SomeWin(rows) {
      var i :| 0 <= i < |rows| && WinOf(rows[i]) > 0.0;
      WinSumAtLeast(rows, i);
    }
  }

  lemma {:induction false} WinSumAtLeast(rows: seq<AnalyticsRow>, i: nat)
    requires i < |rows|
    requires NoNegativeWins(rows)
    ensures WinSum(rows) >= WinOf(rows[i])
  {
    var init := rows[..|rows| - 1];
    WinSumNonNegative(init);
    if i < |rows| - 1 {
      WinSumAtLeast(init, i);
    }
  }

  lemma {:induction false} WinSumNonNegative(rows: seq<AnalyticsRow>)
    requires NoNegativeWins(rows)
    ensures WinSum(rows) >= 0.0
  {
    if |rows| > 0 {
      WinSumNonNegative(rows[..|rows| - 1]);
    }
  }
}

=== FILE: template_approval_workflow.dfy ===
/** The template approval workflow: a template moves from draft to pending
    when its author submits it, and from pending to approved or rejected when
    an administrator decides. Each handler writes the row and reports a
    notice; the buttons that call the handlers are offered only in some
    states. */
module TemplateApprovalWorkflow {
  import opened Options

  datatype ApprovalStatus = Draft | Pending | Approved | Rejected {
    /** The status badge's text. */
    function BadgeLabel(): string {
      match this
      case Draft => "Draft"
      case Pending => "Pending Review"
      case Approved => "Approved"
      case Rejected => "Rejected"
    }
  }

  /** The approval columns of a template row; times are caller-supplied. */
  datatype TemplateApproval = TemplateApproval(
    status: ApprovalStatus,
    approvedBy: Option<string>,
    approvedAt: Option<int>)

  /** The row after a handler, and the notice it shows. */
  datatype Outcome = Outcome(template: TemplateApproval, notice: string)

  /** `handleSubmitForApproval`: the status becomes pending when the update
      succeeds; a failed update changes nothing. */
  function Submit(t: TemplateApproval, updateOk: bool): (r: Outcome)
    ensures updateOk ==> r.template == t.(status := Pending) && r.notice == "Template submitted for approval"
    ensures !updateOk ==> r.template == t && r.notice == "Failed to submit for approval"
  {
    if updateOk then Outcome(t.(status := Pending), "Template submitted for approval")
    else Outcome(t, "Failed to submit for approval")
  }

  /** `handleApprove`: the status becomes approved and the approver and the
      approval time are recorded. */
  function Approve(t: TemplateApproval, approver: Option<string>, now: int, updateOk: bool): (r: Outcome)
    ensures updateOk ==> r.template == TemplateApproval(Approved, approver, Some(now)) && r.notice == "Template approved"
    ensures !updateOk ==> r.template == t && r.notice == "Failed to approve template"
  {
    if updateOk then Outcome(TemplateApproval(Approved, approver, Some(now)), "Template approved")
    else Outcome(t, "Failed to approve template")
  }

  /** `handleReject`: refused without a reason; otherwise the status becomes
      rejected. The reason itself is not stored anywhere. */
  function Reject(t: TemplateApproval, reason: string, updateOk: bool): (r: Outcome)
    ensures reason == "" ==> r.template == t && r.notice == "Please provide a rejection reason"
    ensures reason != "" && updateOk ==> r.template == t.(status := Rejected) && r.notice == "Template rejected"
    ensures reason != "" && !updateOk ==> r.template == t && r.notice == "Failed to reject template"
  {
    if reason == "" then Outcome(t, "Please provide a rejection reason")
    else if updateOk then Outcome(t.(status := Rejected), "Template rejected")
    else Outcome(t, "Failed to reject template")
  }

  /** The three buttons. */
  datatype Action = SubmitAction | ApproveAction | RejectAction

  /** Which buttons the card shows: submit only to a non-administrator on a
      draft; approve and reject only to an administrator on a pending
      template. A missing admin flag counts as false. */
  predicate Offered(t: TemplateApproval, isAdmin: bool, a: Action)
    ensures Offered(t, isAdmin, a) ==> t.status == Draft || t.status == Pending
    ensures Offered(t, isAdmin, a) ==> (isAdmin <==> a != SubmitAction)
  {
    match a
    case SubmitAction => t.status == Draft && !isAdmin
    case ApproveAction => t.status == Pending && isAdmin
    case RejectAction => t.status == Pending && isAdmin
  }

  /** The status a button moves a template to. */
  function Target(a: Action): ApprovalStatus {
    match a
    case SubmitAction => Pending
    case ApproveAction => Approved
    case RejectAction => Rejected
  }

  /** Pressing a button; the handler's other inputs are parameters. A press
      either leaves the row as it was (a failed update, or a rejection
      without a reason) or moves the template to the button's own status. */
  function Press(t: TemplateApproval, a: Action, reason: string, approver: Option<string>, now: int, updateOk: bool): (r: Outcome)
    ensures a == SubmitAction ==> r == Submit(t, updateOk)
    ensures a == ApproveAction ==> r == Approve(t, approver, now, updateOk)
    ensures a == RejectAction ==> r == Reject(t, reason, updateOk)
    ensures r.template.status == Target(a) <==> r.template != t || t.status == Target(a)
    ensures r.template != t ==> updateOk && (a == RejectAction ==> reason != "")
    ensures updateOk && (a == RejectAction ==> reason != "") ==> r.template.status == Target(a)
  {
    match a
    case SubmitAction => Submit(t, updateOk)
    case ApproveAction => Approve(t, approver, now, updateOk)
    case RejectAction => Reject(t, reason, updateOk)
  }

  /** The status moves the card can make. */
  predicate UiTransition(from: ApprovalStatus, to: ApprovalStatus) {
    (from == Draft && to == Pending) || (from == Pending && to == Approved) || (from == Pending && to == Rejected)
  }

  /** Through the offered buttons the status either stays put or makes one
      of the three moves draft to pending, pending to approved, pending to
      rejected. */
  lemma OnlyUiTransitions(t: TemplateApproval, isAdmin: bool, a: Action, reason: string,
                          approver: Option<string>, now: int, updateOk: bool)
    requires Offered(t, isAdmin, a)
    ensures var s := Press(t, a, reason, approver, now, updateOk).template.status;
      s == t.status || UiTransition(t.status, s)
  {
  }

  /** Each of the three moves is actually made by some button press. */
  lemma UiTransitionsReachable(t: TemplateApproval, to: ApprovalStatus)
    requires UiTransition(t.status, to)
    ensures exists isAdmin: bool, a: Action ::
      Offered(t, isAdmin, a) && Press(t, a, "reason", None, 0, true).template.status == to
  {
    if t.status == Draft {
      assert Offered(t, false, SubmitAction) && Press(t, SubmitAction, "reason", None, 0, true).template.status == to;
    } else if to == Approved {
      assert Offered(t, true, ApproveAction) && Press(t, ApproveAction, "reason", None, 0, true).template.status == to;
    } else {
      assert Offered(t, true, RejectAction) && Press(t, RejectAction, "reason", None, 0, true).template.status == to;
    }
  }

  /** No user both submits and decides: the submit button and the decision
      buttons are never shown together. */
  lemma SubmitAndDecideExclusive(t: TemplateApproval, isAdmin: bool)
    ensures !(Offered(t, isAdmin, SubmitAction) && Offered(t, isAdmin, ApproveAction))
    ensures !(Offered(t, isAdmin, SubmitAction) && Offered(t, isAdmin, RejectAction))
  {
  }

  /** "Approved on ..." is shown exactly when an approval time is set. */
  predicate ApprovalDateShown(t: TemplateApproval) {
    t.approvedAt.Some?
  }

  /** The approval date is shown exactly for approved templates. */
  predicate Consistent(t: TemplateApproval) {
    ApprovalDateShown(t) <==> t.status == Approved
  }

  /** A fresh draft, with no approval time, is consistent, and every offered
      move keeps it so. */
  lemma PressKeepsConsistent(t: TemplateApproval, isAdmin: bool, a: Action, reason: string,
                             approver: Option<string>, now: int, updateOk: bool)
    requires Consistent(t) && Offered(t, isAdmin, a)
    ensures Consistent(Press(t, a, reason, approver, now, updateOk).template)
  {
  }

  /** A rejection reason is demanded but dropped: two different reasons give
      the same row. */
  lemma ReasonNotStored(t: TemplateApproval, r1: string, r2: string)
    requires r1 != "" && r2 != ""
    ensures Reject(t, r1, true) == Reject(t, r2, true)
  {
  }
}

=== FILE: template_rating_review.dfy ===
/** Ratings and reviews of a template: the average shown, the star row,
    and the submit handler that updates the user's rating row or inserts
    one, and inserts a review when text was written. */
module TemplateRatingReview {
  import opened Options
  import Seqs

  /** A rating row of the template. */
  datatype RatingRow = RatingRow(id: string, userId: Option<string>, rating: int)

  /** A review row. */
  datatype ReviewRow = ReviewRow(userId: Option<string>, reviewText: string, rating: int)

  /** The running total of `reduce((sum, r) => sum + r.rating, 0)`. */
  function SumRatings(rs: seq<int>): int {
    if |rs| == 0 then 0 else SumRatings(rs[..|rs| - 1]) + rs[|rs| - 1]
  }

  /** The average shown after loading: the mean of the template's ratings,
      or the previous value when there are none. */
  function Average(previous: real, rs: seq<int>): (avg: real)
    ensures |rs| == 0 ==> avg == previous
    ensures |rs| > 0 ==> avg * (|rs| as real) == SumRatings(rs) as real
  {
    if |rs| > 0 then SumRatings(rs) as real / (|rs| as real) else previous
  }

  /** The fold as the loader runs it, left to right. */
  method LoadAverage(previous: real, rs: seq<int>) returns (avg: real)
    ensures avg == Average(previous, rs)
  {
    avg := previous;
    if |rs| > 0 {
      var sum := 0;
      var i := 0;
      while i < |rs|
        invariant 0 <= i <= |rs|
        invariant sum == SumRatings(rs[..i])
      {
        assert rs[..i + 1][..i] == rs[..i];
        sum := sum + rs[i];
        i := i + 1;
      }
      assert rs[..|rs|] == rs;
      avg := sum as real / (|rs| as real);
    }
  }

  lemma {:induction false} SumRatingsBounds(rs: seq<int>)
    requires forall i :: 0 <= i < |rs| ==> 1 <= rs[i] <= 5
    ensures |rs| <= SumRatings(rs) <= 5 * |rs|
  {
    if |rs| > 0 {
      SumRatingsBounds(rs[..|rs| - 1]);
    }
  }

  /** With every stored rating a star count from 1 to 5, the average is
      between 1 and 5. */
  lemma AverageInStarRange(previous: real, rs: seq<int>)
    requires |rs| > 0
    requires forall i :: 0 <= i < |rs| ==> 1 <= rs[i] <= 5
    ensures 1.0 <= Average(previous, rs) <= 5.0
  {
    SumRatingsBounds(rs);
    QuotientBounds(SumRatings(rs) as real, |rs| as real, 1.0, 5.0);
  }

  lemma QuotientBounds(s: real, n: real, lo: real, hi: real)
    requires n > 0.0 && lo * n <= s <= hi * n
    ensures lo <= s / n <= hi
  {
  }

  /** The rating rows of one user. */
  function UserRows(rows: seq<RatingRow>, user: string): (r: seq<RatingRow>)
    ensures forall x :: x in r <==> x in rows && x.userId == Some(user)
  {
    if |rows| == 0 then []
    else if rows[0].userId == Some(user) then [rows[0]] + UserRows(rows[1..], user)
    else UserRows(rows[1..], user)
  }

  /** The user's rating as loaded with `.single()`: the row when exactly one
      exists, nothing otherwise (and nothing for a signed-out user). */
  function LoadUserRating(rows: seq<RatingRow>, user: Option<string>): (r: Option<RatingRow>)
    ensures r.Some? ==> r.value in rows && r.value.userId == user
    ensures r.None? && user.Some? ==> |UserRows(rows, user.value)| != 1
  {
    if user.Some? && |UserRows(rows, user.value)| == 1 then Some(UserRows(rows, user.value)[0]) else None
  }

  /** No user holds two rating rows. */
  predicate OneRowPerUser(rows: seq<RatingRow>) {
    forall i, j :: 0 <= i < j < |rows| && rows[i].userId.Some? ==> rows[i].userId != rows[j].userId
  }

  lemma {:induction false} OneRowPerUserBound(rows: seq<RatingRow>, user: string)
    requires OneRowPerUser(rows)
    ensures |UserRows(rows, user)| <= 1
  {
    if |rows| > 0 {
      assert OneRowPerUser(rows[1..]) by {
        forall i, j | 0 <= i < j < |rows[1..]| && rows[1..][i].userId.Some?
          ensures rows[1..][i].userId != rows[1..][j].userId
        {
          assert rows[1..][i] == rows[i + 1] && rows[1..][j] == rows[j + 1];
        }
      }
      OneRowPerUserBound(rows[1..], user);
      if rows[0].userId == Some(user) {
        forall x | x in rows[1..] ensures x.userId != Some(user) {
          var k :| 0 <= k < |rows[1..]| && rows[1..][k] == x;
          assert rows[k + 1] == x;
        }
        Seqs.NoMembersEmpty(UserRows(rows[1..], user));
      }
    }
  }

  /** `handleRatingSubmit`'s rating write: the loaded row is updated by id,
      or, when none was loaded, a row is inserted. */
  function SubmitRating(rows: seq<RatingRow>, loaded: Option<RatingRow>, user: Option<string>,
                        rating: int, newId: string): (r: seq<RatingRow>)
    ensures loaded.None? ==> r == rows + [RatingRow(newId, user, rating)]
    ensures loaded.Some? ==> |r| == |rows|
    ensures loaded.Some? ==> forall i :: 0 <= i < |rows| ==>
      r[i] == if rows[i].id == loaded.value.id then rows[i].(rating := rating) else rows[i]
  {
    match loaded
    case None => rows + [RatingRow(newId, user, rating)]
    case Some(row) =>
      seq(|rows|, i requires 0 <= i < |rows| => if rows[i].id == row.id then rows[i].(rating := rating) else rows[i])
  }

  /** The submit handler never gives a user a second rating row: it updates
      the row it loaded, and inserts only when the user has none. */
  lemma SubmitKeepsOneRowPerUser(rows: seq<RatingRow>, user: Option<string>, rating: int, newId: string)
    requires OneRowPerUser(rows)
    ensures OneRowPerUser(SubmitRating(rows, LoadUserRating(rows, user), user, rating, newId))
  {
    var loaded := LoadUserRating(rows, user);
    var r := SubmitRating(rows, loaded, user, rating, newId);
    if loaded.None? && user.Some? {
      OneRowPerUserBound(rows, user.value);
      assert UserRows(rows, user.value) == [];
      forall i | 0 <= i < |rows| ensures rows[i].userId != user {
        assert rows[i] in rows;
      }
      assert forall i :: 0 <= i < |rows| ==> r[i] == rows[i];
    }
  }

  /** The rows of one user in a concatenation are those of each part. */
  lemma {:induction false} UserRowsAppend(s: seq<RatingRow>, t: seq<RatingRow>, user: string)
    ensures UserRows(s + t, user) == UserRows(s, user) + UserRows(t, user)
  {
    if |s| > 0 {
      assert (s + t)[0] == s[0] && (s + t)[1..] == s[1..] + t;
      UserRowsAppend(s[1..], t, user);
    } else {
      assert s + t == t;
    }
  }

  /** Submits are not serialised: the handler uses the rating row of the last
      completed load, and the reload after a submit is not awaited. A second
      submit made before that reload finishes still sees no row and inserts
      again, and from then on `.single()` loads no row for the user, so every
      later submit inserts too. */
  lemma StaleSecondSubmitDuplicates(rows: seq<RatingRow>, user: string, r1: int, r2: int, id1: string, id2: string)
    requires UserRows(rows, user) == []
    ensures var twice := SubmitRating(SubmitRating(rows, None, Some(user), r1, id1), None, Some(user), r2, id2);
      !OneRowPerUser(twice) && LoadUserRating(twice, Some(user)).None?
  {
    var a, b := RatingRow(id1, Some(user), r1), RatingRow(id2, Some(user), r2);
    var once := SubmitRating(rows, None, Some(user), r1, id1);
    var twice := SubmitRating(once, None, Some(user), r2, id2);
    assert once == rows + [a] && twice == once + [b];
    assert twice[|rows|] == a && twice[|rows| + 1] == b;
    assert UserRows([a], user) == [a] && UserRows([b], user) == [b];
    UserRowsAppend(rows, [a], user);
    UserRowsAppend(once, [b], user);
    assert |UserRows(twice, user)| == 2;
  }

  /** A review row is written exactly when review text was entered; the text
      box is emptied afterwards either way. */
  function SubmitReview(reviewText: string, user: Option<string>, rating: int): (r: (Option<ReviewRow>, string))
    ensures r.0.Some? <==> reviewText != ""
    ensures r.0.Some? ==> r.0.value == ReviewRow(user, reviewText, rating)
    ensures r.1 == ""
  {
    (if reviewText != "" then Some(ReviewRow(user, reviewText, rating)) else None, "")
  }

  /** The submit button is disabled while no star is chosen. */
  predicate SubmitEnabled(rating: int) {
    rating != 0
  }

  /** The rating the star row shows: the hovered star, or the chosen rating
      when nothing is hovered. */
  function ShownRating(hoverRating: int, rating: int): (s: int)
    ensures hoverRating != 0 ==> s == hoverRating
    ensures hoverRating == 0 ==> s == rating
  {
    if hoverRating != 0 then hoverRating else rating
  }

  /** Star `star` (1 to 5) is drawn filled. */
  predicate StarFilled(star: int, hoverRating: int, rating: int) {
    star <= ShownRating(hoverRating, rating)
  }

  /** The filled stars are always a leading run: filling a star fills every
      star before it. */
  lemma FilledStarsArePrefix(s: int, t: int, hoverRating: int, rating: int)
    requires 1 <= t <= s <= 5 && StarFilled(s, hoverRating, rating)
    ensures StarFilled(t, hoverRating, rating)
  {
  }

  /** While hovering, exactly the stars up to the hovered one are filled. */
  lemma HoveredStarsShowHover(hoverRating: int, rating: int, star: int)
    requires hoverRating != 0
    ensures StarFilled(star, hoverRating, rating) <==> star <= hoverRating
  {
  }

  /** No rating can be submitted before a star is chosen. */
  lemma SubmitNeedsRating(rating: int)
    ensures SubmitEnabled(rating) <==> rating != 0
    ensures !SubmitEnabled(0)
  {
  }

  /** Without hovering, exactly the first `rating` stars are filled. */
  lemma RestingStarsShowRating(rating: int, star: int)
    requires 1 <= star <= 5
    ensures StarFilled(star, 0, rating) <==> star <= rating
  {
  }
}

=== FILE: template_version_history.dfy ===
/** Restoring an earlier version of a template: the template's current
    content is first saved as a backup version row, then the chosen
    version's content becomes current under the next version number. */
module TemplateVersionHistory {
  import opened Options

  /** The versioned columns of a template row. */
  datatype TemplateRow = TemplateRow(id: string, content: string, versionNumber: int)

  /** A row of the version table. */
  datatype VersionRow = VersionRow(
    templateId: string,
    versionNumber: int,
    content: string,
    changesDescription: string,
    createdBy: Option<string>)

  /** What the restore reads and writes: the template row (absent when not
      found) and the version table. */
  datatype Store = Store(template: Option<TemplateRow>, versions: seq<VersionRow>)

  const BackupDescription := "Pre-restore backup"

  /** The backup row saved before a restore. */
  function Backup(t: TemplateRow, user: Option<string>): (v: VersionRow)
    ensures v.templateId == t.id && v.versionNumber == t.versionNumber && v.content == t.content
    ensures v.changesDescription == BackupDescription && v.createdBy == user
  {
    VersionRow(t.id, t.versionNumber, t.content, BackupDescription, user)
  }

  /** `handleRestore`: nothing happens when the template is not found.
      Otherwise the backup is inserted and the template takes the chosen
      content with its version number raised by one. Neither write's result
      is checked, so each flag only decides its own write. */
  function Restore(st: Store, chosen: VersionRow, user: Option<string>, insertOk: bool, updateOk: bool): (r: Store)
    ensures st.template.None? ==> r == st
    ensures st.template.Some? && insertOk ==> r.versions == st.versions + [Backup(st.template.value, user)]
    ensures st.template.Some? && !insertOk ==> r.versions == st.versions
    ensures st.template.Some? && updateOk ==> r.template == Some(st.template.value.(content := chosen.content, versionNumber := st.template.value.versionNumber + 1))
    ensures st.template.Some? && !updateOk ==> r.template == st.template
  {
    match st.template
    case None => st
    case Some(t) =>
      var versions := if insertOk then st.versions + [Backup(t, user)] else st.versions;
      var template := if updateOk then t.(content := chosen.content, versionNumber := t.versionNumber + 1) else t;
      Store(Some(template), versions)
  }

  /** Every successful restore adds exactly one version row and strictly
      raises the version number. */
  lemma RestoreGrows(st: Store, chosen: VersionRow, user: Option<string>)
    requires st.template.Some?
    ensures var r := Restore(st, chosen, user, true, true);
      |r.versions| == |st.versions| + 1 && r.template.value.versionNumber > st.template.value.versionNumber
  {
  }

  /** The version number counts restores: `n` successful restores raise it
      by `n`. */
  function RestoreAll(st: Store, chosen: seq<VersionRow>, user: Option<string>): Store
    decreases |chosen|
  {
    if |chosen| == 0 then st else RestoreAll(Restore(st, chosen[0], user, true, true), chosen[1..], user)
  }

  lemma {:induction false} RestoreAllCounts(st: Store, chosen: seq<VersionRow>, user: Option<string>)
    requires st.template.Some?
    ensures var r := RestoreAll(st, chosen, user);
      && r.template.Some?
      && r.template.value.versionNumber == st.template.value.versionNumber + |chosen|
      && |r.versions| == |st.versions| + |chosen|
    decreases |chosen|
  {
    if |chosen| > 0 {
      RestoreAllCounts(Restore(st, chosen[0], user, true, true), chosen[1..], user);
    }
  }

  /** Restoring the backup a restore just made brings the earlier content
      back, two version numbers further on. */
  lemma RestoreBackupUndoes(st: Store, chosen: VersionRow, user: Option<string>)
    requires st.template.Some?
    ensures var once := Restore(st, chosen, user, true, true);
      var backup := once.versions[|once.versions| - 1];
      var twice := Restore(once, backup, user, true, true);
      twice.template.value.content == st.template.value.content &&
      twice.template.value.versionNumber == st.template.value.versionNumber + 2
  {
  }

  /** The writes are not checked: when the backup insert fails but the
      update succeeds, the previous content is overwritten and kept
      nowhere. */
  lemma FailedBackupLosesContent(t: TemplateRow, chosen: VersionRow, user: Option<string>)
    requires chosen.content != t.content
    ensures var r := Restore(Store(Some(t), []), chosen, user, false, true);
      r.versions == [] && r.template.value.content != t.content
  {
  }
}

=== FILE: templates_library.dfy ===
/** The template library: the name/category filter, the creation form and
    its required-field guard, the form pre-filled from AI-generated content,
    and the usage counter bumped when a template is used. */
module TemplatesLibrary {
  import opened Options
  import Seqs
  import Text

  /** The six template categories, in display order. */
  const Categories: seq<string> :=
    ["RFP Response", "Cover Letter", "Technical Proposal", "Past Performance", "Capability Statement", "Other"]

  datatype Template = Template(
    id: string,
    name: string,
    description: string,
    category: string,
    content: string,
    tags: seq<string>,
    usageCount: int,
    isPublic: bool)

  /** The creation form; tags are typed as one comma-separated string. */
  datatype TemplateForm = TemplateForm(
    name: string,
    description: string,
    category: string,
    content: string,
    tags: string,
    isPublic: bool)

  const EmptyForm := TemplateForm("", "", "", "", "", false)

  /** The row inserted for a new template (the id is assigned by the store). */
  datatype NewTemplate = NewTemplate(
    name: string,
    description: string,
    category: string,
    content: string,
    tags: seq<string>,
    isPublic: bool)

  predicate KeepTemplate(search: string, category: string, t: Template) {
    && (search == "" || Text.ContainsIgnoringCase(t.name, search))
    && (category == "all" || t.category == category)
  }

  /** `filteredTemplates`: case-insensitive name search ("" matches all) and
      an exact category ("all" matches all), order preserved. */
  function FilterTemplates(ts: seq<Template>, search: string, category: string): (r: seq<Template>)
    ensures |r| <= |ts|
    ensures forall t :: t in r <==> t in ts && KeepTemplate(search, category, t)
  {
    Seqs.Filter(ts, t => KeepTemplate(search, category, t))
  }

  lemma FilterTemplatesIsSubsequence(ts: seq<Template>, search: string, category: string)
    ensures Seqs.IsSubsequence(FilterTemplates(ts, search, category), ts)
  {
    Seqs.FilterIsSubsequence(ts, t => KeepTemplate(search, category, t));
  }

  /** The initial state (empty search, category "all") shows every template. */
  lemma InitialViewShowsAll(ts: seq<Template>)
    ensures FilterTemplates(ts, "", "all") == ts
  {
    Seqs.FilterAll(ts, t => KeepTemplate("", "all", t));
  }

  /** A concrete category keeps exactly the templates of that category. */
  lemma CategoryRule(ts: seq<Template>, category: string)
    requires category != "all"
    ensures forall i :: 0 <= i < |FilterTemplates(ts, "", category)| ==> FilterTemplates(ts, "", category)[i].category == category
    ensures forall t :: t in ts && t.category == category ==> t in FilterTemplates(ts, "", category)
  {
  }

  /** `createTemplate`: refused unless name, category and content are all
      non-empty; otherwise the form's fields with the tag string parsed into a
      list of trimmed non-empty tags. */
  function CreateTemplate(form: TemplateForm): (r: Result<NewTemplate>)
    ensures r.Failure? <==> form.name == "" || form.category == "" || form.content == ""
    ensures r.Failure? ==> r.error == "Please fill required fields"
    ensures r.Ok? ==> && r.value.name == form.name && r.value.category == form.category
                      && r.value.content == form.content && r.value.description == form.description
                      && r.value.isPublic == form.isPublic
                      && r.value.tags == Text.CommaTags(form.tags)
                      && forall i :: 0 <= i < |r.value.tags| ==> Text.IsTag(r.value.tags[i])
  {
    if form.name == "" || form.category == "" || form.content == "" then
      Failure("Please fill required fields")
    else
      Ok(NewTemplate(form.name, form.description, form.category, form.content,
                     Text.CommaTags(form.tags), form.isPublic))
  }

  /** The form after a creation attempt: reset only when the row was
      inserted; a refused or failed attempt keeps what was typed. */
  function FormAfterCreate(form: TemplateForm, insertOk: bool): (r: TemplateForm)
    ensures CreateTemplate(form).Ok? && insertOk ==> r == EmptyForm
    ensures CreateTemplate(form).Failure? || !insertOk ==> r == form
  {
    if CreateTemplate(form).Ok? && insertOk then EmptyForm else form
  }

  /** The category chosen for an AI-generated template type. */
  function CategoryOfType(templateType: string): (c: string)
    ensures c in Categories
    ensures c == "Other" <==>
      templateType !in ["rfp_response", "cover_letter", "technical_proposal", "past_performance", "capability_statement"]
  {
    if templateType == "rfp_response" then "RFP Response"
    else if templateType == "cover_letter" then "Cover Letter"
    else if templateType == "technical_proposal" then "Technical Proposal"
    else if templateType == "past_performance" then "Past Performance"
    else if templateType == "capability_statement" then "Capability Statement"
    else "Other"
  }

  /** `x || fallback` on an optional string: missing and "" are falsy. */
  function OrElse(x: Option<string>, fallback: string): (r: string)
    ensures x.Some? && x.value != "" ==> r == x.value
    ensures x.None? || x.value == "" ==> r == fallback
  {
    if x.Some? && x.value != "" then x.value else fallback
  }

  /** The form pre-filled from AI-generated content and its metadata. */
  function AIForm(content: string, templateType: string, agency: Option<string>, contractType: Option<string>): (f: TemplateForm)
    ensures f.name == "AI Generated - " + templateType
    ensures f.description == "Generated for " + OrElse(agency, "Federal Government") + " - " + OrElse(contractType, "General")
    ensures f.category in Categories && f.content == content && !f.isPublic
    ensures f.tags == Text.Join(["AI-generated", OrElse(contractType, ""), OrElse(agency, "")], ',')
  {
    var parts := ["AI-generated", OrElse(contractType, ""), OrElse(agency, "")];
    assert Text.Join(parts[2..], ',') == parts[2];
    assert Text.Join(parts[1..], ',') == parts[1] + [','] + parts[2];
    TemplateForm(
      "AI Generated - " + templateType,
      "Generated for " + OrElse(agency, "Federal Government") + " - " + OrElse(contractType, "General"),
      CategoryOfType(templateType),
      content,
      "AI-generated," + OrElse(contractType, "") + "," + OrElse(agency, ""),
      false)
  }

  /** An AI-filled form passes the required-field guard exactly when the
      generated content is non-empty. */
  lemma AIFormGuard(content: string, templateType: string, agency: Option<string>, contractType: Option<string>)
    ensures CreateTemplate(AIForm(content, templateType, agency, contractType)).Ok? <==> content != ""
  {
    var f := AIForm(content, templateType, agency, contractType);
    assert f.name[0] == 'A';
    assert f.category != "" by {
      assert forall i :: 0 <= i < |Categories| ==> Categories[i] != "";
    }
  }

  lemma AIGeneratedIsTag()
    ensures Text.IsTag("AI-generated")
  {
    Text.TrimNoop("AI-generated");
  }

  /** The AI form's tag string is "AI-generated", the contract type and the
      agency (each "" when missing), comma-joined. */
  lemma AIFormTagString(content: string, templateType: string, agency: Option<string>, contractType: Option<string>)
    ensures AIForm(content, templateType, agency, contractType).tags
            == Text.Join(["AI-generated", OrElse(contractType, ""), OrElse(agency, "")], ',')
  {
  }

  /** When the agency and contract type are themselves tags, the AI form's
      tags parse to "AI-generated", the contract type and the agency. */
  lemma AIFormTags(content: string, templateType: string, agency: string, contractType: string)
    requires content != "" && Text.IsTag(agency) && Text.IsTag(contractType)
    ensures CreateTemplate(AIForm(content, templateType, Some(agency), Some(contractType))).value.tags
            == ["AI-generated", contractType, agency]
  {
    AIFormGuard(content, templateType, Some(agency), Some(contractType));
    AIFormTagString(content, templateType, Some(agency), Some(contractType));
    AIGeneratedIsTag();
    ThreeTagsParse("AI-generated", contractType, agency);
  }

  lemma ThreeTagsParse(g: string, c: string, a: string)
    requires Text.IsTag(g) && Text.IsTag(c) && Text.IsTag(a)
    ensures Text.CommaTags(Text.Join([g, c, a], ',')) == [g, c, a]
  {
    Text.CommaTagsRoundTrip([g, c, a]);
  }

  /** Without agency and contract type the tag string is "AI-generated,,",
      whose empty pieces are dropped. */
  lemma AIFormTagsWithoutMetadata(content: string, templateType: string)
    requires content != ""
    ensures CreateTemplate(AIForm(content, templateType, None, None)).value.tags == ["AI-generated"]
  {
    AIFormGuard(content, templateType, None, None);
    AIFormTagString(content, templateType, None, None);
    AIGeneratedIsTag();
    TagThenEmptiesParse("AI-generated");
  }

  /** A tag followed by two empty pieces parses to that one tag. */
  lemma TagThenEmptiesParse(g: string)
    requires Text.IsTag(g)
    ensures Text.CommaTags(Text.Join([g, "", ""], ',')) == [g]
  {
    var parts := [g, "", ""];
    Text.CommaTagsDropsEmpty(parts);
    var keep := (t: string) => t != "";
    assert Seqs.Filter(parts[2..], keep) == [];
    assert Seqs.Filter(parts[1..], keep) == [];
  }

  /** `handleUseTemplate`: the rows with the template's id get the usage
      count the template object carried, plus one; all others are unchanged. */
  function UseTemplate(ts: seq<Template>, used: Template): (r: seq<Template>)
    ensures |r| == |ts|
    ensures forall i :: 0 <= i < |ts| && ts[i].id != used.id ==> r[i] == ts[i]
    ensures forall i :: 0 <= i < |ts| && ts[i].id == used.id ==> r[i] == ts[i].(usageCount := used.usageCount + 1)
  {
    seq(|ts|, i requires 0 <= i < |ts| =>
      if ts[i].id == used.id then ts[i].(usageCount := used.usageCount + 1) else ts[i])
  }

  /** Using a template as currently stored raises its count by exactly one. */
  lemma UseTemplateIncrements(ts: seq<Template>, i: nat)
    requires i < |ts|
    ensures UseTemplate(ts, ts[i])[i].usageCount == ts[i].usageCount + 1
    ensures UseTemplate(ts, ts[i])[i] == ts[i].(usageCount := ts[i].usageCount + 1)
  {
  }
}

=== FILE: text.dfy ===
/** String helpers standing in for the JavaScript string methods the
    components call: `toLowerCase`/`toUpperCase` (ASCII letters only),
    `includes`, `startsWith`, `trim` (ASCII whitespace), `split` on one
    character, `replace` of the first occurrence, and the email-prefix rule
    used to name an author. */
module Text {
  import opened Options
  import Seqs

  function LowerChar(c: char): char {
    if 'A' <= c <= 'Z' then (c as int + 32) as char else c
  }

  function UpperChar(c: char): char {
    if 'a' <= c <= 'z' then (c as int - 32) as char else c
  }

  /** `s.toLowerCase()` restricted to ASCII letters. */
  function ToLower(s: string): (r: string)
    ensures |r| == |s|
    ensures forall i :: 0 <= i < |s| ==> r[i] == LowerChar(s[i])
  {
    seq(|s|, i requires 0 <= i < |s| => LowerChar(s[i]))
  }

  /** `s.toUpperCase()` restricted to ASCII letters. */
  function ToUpper(s: string): (r: string)
    ensures |r| == |s|
    ensures forall i :: 0 <= i < |s| ==> r[i] == UpperChar(s[i])
  {
    seq(|s|, i requires 0 <= i < |s| => UpperChar(s[i]))
  }

  /** `s.startsWith(prefix)`. */
  predicate StartsWith(s: string, prefix: string) {
    |prefix| <= |s| && s[..|prefix|] == prefix
  }

  /** `s.includes(sub)`: `sub` occurs at some position of `s`. */
  predicate Contains(s: string, sub: string) {
    exists i :: 0 <= i <= |s| - |sub| && StartsWith(s[i..], sub)
  }

  /** Every string contains the empty string. */
  lemma ContainsEmpty(s: string)
    ensures Contains(s, "")
  {
    assert StartsWith(s[0..], "");
  }

  /** A string that contains `sub` is at least as long as `sub`. */
  lemma ContainsLength(s: string, sub: string)
    ensures Contains(s, sub) ==> |sub| <= |s|
  {
  }

  /** Case-insensitive containment, as the search boxes test it. */
  predicate ContainsIgnoringCase(s: string, sub: string) {
    Contains(ToLower(s), ToLower(sub))
  }

  /** The characters `String.prototype.trim` strips (ASCII subset). */
  predicate IsSpace(c: char) {
    c == ' ' || c == '\t' || c == '\n' || c == '\r' || c as int == 11 || c as int == 12
  }

  /** The number of whitespace characters at the start of `s`. */
  function LeadingSpaces(s: string): (n: nat)
    ensures n <= |s|
    ensures forall i :: 0 <= i < n ==> IsSpace(s[i])
    ensures n < |s| ==> !IsSpace(s[n])
  {
    if |s| > 0 && IsSpace(s[0]) then 1 + LeadingSpaces(s[1..]) else 0
  }

  /** The number of whitespace characters at the end of `s`. */
  function TrailingSpaces(s: string): (n: nat)
    ensures n <= |s|
    ensures forall i :: |s| - n <= i < |s| ==> IsSpace(s[i])
    ensures n < |s| ==> !IsSpace(s[|s| - n - 1])
  {
    if |s| > 0 && IsSpace(s[|s| - 1]) then 1 + TrailingSpaces(s[..|s| - 1]) else 0
  }

  /** `s.trim()`: the slice of `s` left after deleting the leading and the
      trailing whitespace; it neither starts nor ends with whitespace. */
  function Trim(s: string): (r: string)
    ensures LeadingSpaces(s) + |r| <= |s|
    ensures r == s[LeadingSpaces(s)..LeadingSpaces(s) + |r|]
    ensures forall i :: LeadingSpaces(s) + |r| <= i < |s| ==> IsSpace(s[i])
    ensures |r| > 0 ==> !IsSpace(r[0]) && !IsSpace(r[|r| - 1])
  {
    var t := s[LeadingSpaces(s)..];
    t[..|t| - TrailingSpaces(t)]
  }

  /** A string is blank when trimming leaves nothing. */
  predicate IsBlank(s: string) {
    Trim(s) == ""
  }

  /** A string is blank exactly when all its characters are whitespace. */
  lemma BlankIffAllSpace(s: string)
    ensures IsBlank(s) <==> forall i :: 0 <= i < |s| ==> IsSpace(s[i])
  {
  }

  /** Trimming a string with no surrounding whitespace changes nothing. */
  lemma TrimNoop(s: string)
    requires |s| > 0 ==> !IsSpace(s[0]) && !IsSpace(s[|s| - 1])
    ensures Trim(s) == s
  {
  }

  /** Trimming is idempotent. */
  lemma TrimIdempotent(s: string)
    ensures Trim(Trim(s)) == Trim(s)
  {
    TrimNoop(Trim(s));
  }

  /** `s.split(sep)`: the maximal `sep`-free pieces between separators; there
      is always at least one piece. */
  function Split(s: string, sep: char): (r: seq<string>)
    ensures |r| >= 1
    ensures forall i :: 0 <= i < |r| ==> sep !in r[i]
  {
    if |s| == 0 then [""]
    else if s[0] == sep then [""] + Split(s[1..], sep)
    else
      var rest := Split(s[1..], sep);
      [[s[0]] + rest[0]] + rest[1..]
  }

  /** `parts.join(sep)`. */
  function Join(parts: seq<string>, sep: char): string
    requires |parts| >= 1
  {
    if |parts| == 1 then parts[0] else parts[0] + [sep] + Join(parts[1..], sep)
  }

  /** Splitting and joining again gives back the original string. */
  lemma {:induction false} JoinSplit(s: string, sep: char)
    ensures Join(Split(s, sep), sep) == s
  {
    if |s| > 0 {
      JoinSplit(s[1..], sep);
      var rest := Split(s[1..], sep);
      if s[0] != sep && |rest| > 1 {
        assert Split(s, sep)[1..] == rest[1..];
        assert Join(rest, sep) == rest[0] + [sep] + Join(rest[1..], sep);
      }
    }
  }

  /** A separator-free prefix splits off as one piece. */
  lemma {:induction false} SplitPiece(a: string, b: string, sep: char)
    requires sep !in a
    ensures Split(a + [sep] + b, sep) == [a] + Split(b, sep)
    ensures Split(a, sep) == [a]
  {
    if |a| > 0 {
      assert (a + [sep] + b)[1..] == a[1..] + [sep] + b;
      SplitPiece(a[1..], b, sep);
      assert [a[0]] + a[1..] == a;
    }
  }

  /** A string without the separator splits into itself alone. */
  lemma SplitWithoutSeparator(s: string, sep: char)
    ensures sep !in s ==> Split(s, sep) == [s]
  {
    if sep !in s {
      SplitPiece(s, "", sep);
    }
  }

  /** Joining separator-free pieces and splitting again gives back the pieces. */
  lemma {:induction false} SplitJoin(parts: seq<string>, sep: char)
    requires |parts| >= 1
    requires forall i :: 0 <= i < |parts| ==> sep !in parts[i]
    ensures Split(Join(parts, sep), sep) == parts
  {
    if |parts| == 1 {
      SplitPiece(parts[0], "", sep);
    } else {
      SplitJoin(parts[1..], sep);
      SplitPiece(parts[0], Join(parts[1..], sep), sep);
    }
  }

  /** The first piece of a split is a prefix of the string. */
  lemma {:induction false} SplitHeadIsPrefix(s: string, sep: char)
    ensures StartsWith(s, Split(s, sep)[0])
  {
    if |s| > 0 && s[0] != sep {
      SplitHeadIsPrefix(s[1..], sep);
    }
  }

  function TrimAll(parts: seq<string>): (r: seq<string>)
    ensures |r| == |parts|
    ensures forall i :: 0 <= i < |r| ==> r[i] == Trim(parts[i])
  {
    seq(|parts|, i requires 0 <= i < |parts| => Trim(parts[i]))
  }

  /** A trimmed, non-empty, comma-free tag, as `CommaTags` produces them. */
  predicate IsTag(t: string) {
    t != "" && Trim(t) == t && ',' !in t
  }

  /** `text.split(',').map(t => t.trim()).filter(Boolean)`: the non-empty
      trimmed pieces of a comma-separated list, in order. */
  function CommaTags(text: string): (r: seq<string>)
    ensures forall i :: 0 <= i < |r| ==> IsTag(r[i])
  {
    var pieces := Split(text, ',');
    TrimmedPieces(pieces);
    Seqs.Filter(TrimAll(pieces), (t: string) => t != "")
  }

  /** Trimming deletes characters only, so it keeps a string comma-free. */
  lemma TrimmedPieces(pieces: seq<string>)
    requires forall i :: 0 <= i < |pieces| ==> ',' !in pieces[i]
    ensures forall t :: t in TrimAll(pieces) && t != "" ==> IsTag(t)
  {
    forall k | 0 <= k < |pieces| ensures Trim(pieces[k]) != "" ==> IsTag(Trim(pieces[k])) {
      TrimIdempotent(pieces[k]);
      TrimKeepsCharOut(pieces[k], ',');
    }
  }

  /** Trimming only deletes characters. */
  lemma TrimKeepsCharOut(s: string, c: char)
    requires c !in s
    ensures c !in Trim(s)
  {
    var r := Trim(s);
    var n := LeadingSpaces(s);
    forall i | 0 <= i < |r| ensures r[i] != c {
      assert r[i] == s[n + i];
    }
  }

  /** Parsing comma-joined pieces trims each piece and drops those that
      trim to nothing, keeping the order: "a, b" gives ["a", "b"]. */
  lemma CommaTagsOfPieces(parts: seq<string>)
    requires |parts| >= 1
    requires forall i :: 0 <= i < |parts| ==> ',' !in parts[i]
    ensures CommaTags(Join(parts, ',')) == Seqs.Filter(TrimAll(parts), (t: string) => t != "")
  {
    SplitJoin(parts, ',');
  }

  /** For instance " a, ,b " parses to ["a", "b"]. */
  lemma CommaTagsExample()
    ensures CommaTags(" a, ,b ") == ["a", "b"]
  {
    JoinExample();
    TrimExamples();
    PiecesAroundBlank(" a", " ", "b ");
  }

  /** Three comma-free pieces whose middle one is blank parse to the outer
      two, trimmed. */
  lemma PiecesAroundBlank(x: string, m: string, y: string)
    requires ',' !in x && ',' !in m && ',' !in y
    requires Trim(x) != "" && Trim(m) == "" && Trim(y) != ""
    ensures CommaTags(Join([x, m, y], ',')) == [Trim(x), Trim(y)]
  {
    ThreePiecesParse(x, m, y);
    DropsMiddleBlank(Trim(x), Trim(y));
  }

  /** Three comma-free pieces parse as the filter of their trimmed forms. */
  lemma ThreePiecesParse(x: string, m: string, y: string)
    requires ',' !in x && ',' !in m && ',' !in y
    ensures CommaTags(Join([x, m, y], ',')) == Seqs.Filter([Trim(x), Trim(m), Trim(y)], (t: string) => t != "")
  {
    var parts := [x, m, y];
    assert forall i :: 0 <= i < |parts| ==> ',' !in parts[i];
    CommaTagsOfPieces(parts);
    assert TrimAll(parts) == [Trim(x), Trim(m), Trim(y)];
  }

  lemma DropsMiddleBlank(a: string, b: string)
    requires a != "" && b != ""
    ensures Seqs.Filter([a, "", b], (t: string) => t != "") == [a, b]
  {
    var keep := (t: string) => t != "";
    var s := [a, "", b];
    assert s[1..][1..] == [b];
    assert Seqs.Filter([b], keep) == [b];
    assert Seqs.Filter(s[1..], keep) == [b];
  }

  lemma JoinExample()
    ensures Join([" a", " ", "b "], ',') == " a, ,b "
  {
    var parts := [" a", " ", "b "];
    assert Join(parts[2..], ',') == "b ";
    assert Join(parts[1..], ',') == " " + [','] + "b ";
  }

  lemma TrimExamples()
    ensures Trim(" a") == "a" && Trim(" ") == "" && Trim("b ") == "b"
  {
    assert LeadingSpaces(" a") == 1 by { assert " a"[1..] == "a"; }
    assert LeadingSpaces(" ") == 1 by { assert " "[1..] == ""; }
    assert LeadingSpaces("b ") == 0;
    assert TrailingSpaces("a") == 0;
    assert TrailingSpaces("b ") == 1 by { assert "b "[..1] == "b"; }
  }

  /** Writing tags out comma-separated and parsing them back is lossless. */
  lemma CommaTagsRoundTrip(tags: seq<string>)
    requires |tags| >= 1
    requires forall i :: 0 <= i < |tags| ==> IsTag(tags[i])
    ensures CommaTags(Join(tags, ',')) == tags
  {
    SplitJoin(tags, ',');
    assert TrimAll(tags) == tags;
    Seqs.FilterAll(tags, (t: string) => t != "");
  }

  /** Joining pieces that are tags or empty and parsing them back gives the
      non-empty pieces. */
  lemma CommaTagsDropsEmpty(parts: seq<string>)
    requires |parts| >= 1
    requires forall i :: 0 <= i < |parts| ==> parts[i] == "" || IsTag(parts[i])
    ensures CommaTags(Join(parts, ',')) == Seqs.Filter(parts, (t: string) => t != "")
  {
    SplitJoin(parts, ',');
    assert TrimAll(parts) == parts;
  }

  /** `email?.split('@')[0] || 'User'`: the part of the address before the
      first '@', or "User" when the address is missing or that part is empty. */
  function UserNameFromEmail(email: Option<string>): (r: string)
    ensures r != "" && '@' !in r
    ensures email.None? ==> r == "User"
    ensures email.Some? && !StartsWith(email.value, "@") && email.value != "" ==> StartsWith(email.value, r)
    ensures email.Some? && '@' !in email.value && email.value != "" ==> r == email.value
    ensures email.Some? && (email.value == "" || email.value[0] == '@') ==> r == "User"
  {
    match email
    case None => "User"
    case Some(e) =>
      var head := Split(e, '@')[0];
      SplitHeadIsPrefix(e, '@');
      SplitWithoutSeparator(e, '@');
      if head == "" then "User" else head
  }

  /** The user name of an address `local@domain` is its local part. */
  lemma UserNameOfAddress(local: string, domain: string)
    requires local != "" && '@' !in local
    ensures UserNameFromEmail(Some(local + "@" + domain)) == local
  {
    assert local + "@" + domain == local + ['@'] + domain;
    SplitPiece(local, domain, '@');
  }

  /** `s.replace(from, to)` with a one-character pattern: only the FIRST
      occurrence is replaced. */
  function ReplaceFirst(s: string, from: char, to: char): (r: string)
    ensures |r| == |s|
    ensures from !in s ==> r == s
    ensures forall i :: 0 <= i < |s| && s[i] != from ==> r[i] == s[i]
    ensures forall i :: 0 <= i < |s| && s[i] == from ==>
              (r[i] == to <==> forall j :: 0 <= j < i ==> s[j] != from) || r[i] == from == to
  {
    if |s| == 0 then s
    else if s[0] == from then [to] + s[1..]
    else [s[0]] + ReplaceFirst(s[1..], from, to)
  }

  /** Replacing the first separator of `a + sep + b`, with none in `a`,
      changes exactly that separator. */
  lemma {:induction false} ReplaceFirstAt(a: string, b: string, from: char, to: char)
    requires from !in a
    ensures ReplaceFirst(a + [from] + b, from, to) == a + [to] + b
  {
    var s := a + [from] + b;
    if |a| == 0 {
      assert s == [from] + b;
      ReplaceFirstCons(from, b, from, to);
    } else {
      var t := a[1..] + [from] + b;
      calc {
        ReplaceFirst(s, from, to);
      == { assert s == [a[0]] + t; ReplaceFirstCons(a[0], t, from, to); }
        [a[0]] + ReplaceFirst(t, from, to);
      == { assert from !in a[1..]; ReplaceFirstAt(a[1..], b, from, to); }
        [a[0]] + (a[1..] + [to] + b);
      == { assert a == [a[0]] + a[1..]; }
        a + [to] + b;
      }
    }
  }

  /** One step of `ReplaceFirst`: a leading match is replaced and the rest
      kept; any other leading character is kept and the search goes on. */
  lemma ReplaceFirstCons(c: char, rest: string, from: char, to: char)
    ensures ReplaceFirst([c] + rest, from, to) ==
      if c == from then [to] + rest else [c] + ReplaceFirst(rest, from, to)
  {
    assert ([c] + rest)[0] == c && ([c] + rest)[1..] == rest;
  }

  /** `status.replace('_', ' ')`, the label the status badges show: the
      first underscore becomes a space. */
  function StatusLabel(status: string): (l: string)
    ensures |l| == |status|
    ensures '_' !in status ==> l == status
  {
    ReplaceFirst(status, '_', ' ')
  }

  /** Only the first underscore is replaced: `a_b` shows as `a b` whatever
      underscores `b` holds. */
  lemma StatusLabelReplacesFirstOnly(a: string, b: string)
    requires '_' !in a
    ensures StatusLabel(a + "_" + b) == a + " " + b
  {
    assert a + "_" + b == a + ['_'] + b;
    assert a + " " + b == a + [' '] + b;
    ReplaceFirstAt(a, b, '_', ' ');
  }

  /** Upper-casing ignores the case of the input. */
  lemma ToUpperIgnoresCase(s: string)
    ensures ToUpper(ToLower(s)) == ToUpper(s)
    ensures ToUpper(ToUpper(s)) == ToUpper(s)
  {
  }

  function DigitChar(d: nat): char
    requires d < 10
  {
    ('0' as int + d) as char
  }

  /** Decimal rendering of a natural number, as template literals print it. */
  function NatToString(n: nat): (r: string)
    ensures |r| >= 1
    ensures forall i :: 0 <= i < |r| ==> '0' <= r[i] <= '9'
  {
    if n < 10 then [DigitChar(n)] else NatToString(n / 10) + [DigitChar(n % 10)]
  }

  /** Reads back a string of decimal digits. */
  function ParseDigits(s: string): nat
    requires forall i :: 0 <= i < |s| ==> '0' <= s[i] <= '9'
  {
    if |s| == 0 then 0 else ParseDigits(s[..|s| - 1]) * 10 + (s[|s| - 1] as int - '0' as int)
  }

  /** The decimal rendering loses nothing: parsing it gives the number back. */
  lemma {:induction false} NatToStringRoundTrip(n: nat)
    ensures ParseDigits(NatToString(n)) == n
  {
    if n >= 10 {
      NatToStringRoundTrip(n / 10);
      var r := NatToString(n);
      assert r[..|r| - 1] == NatToString(n / 10);
    }
  }

  /** Different numbers print differently. */
  lemma NatToStringInjective(m: nat, n: nat)
    requires m != n
    ensures NatToString(m) != NatToString(n)
  {
    NatToStringRoundTrip(m);
    NatToStringRoundTrip(n);
  }
}

=== FILE: workflow_tracker.dfy ===
/** The workflow tracker: six stages in order, the one matching the current
    stage highlighted, those before it complete and those after it
    pending. */
module WorkflowTracker {

  datatype Stage = Stage(id: string, title: string)

  const Stages: seq<Stage> := [
    Stage("discovery", "Discovery"),
    Stage("analysis", "Analysis"),
    Stage("outreach", "Outreach"),
    Stage("pricing", "Pricing"),
    Stage("proposal", "Proposal"),
    Stage("submission", "Submission")
  ]

  /** `findIndex`: the position of the first stage with the id, or -1. */
  function FindIndex(stages: seq<Stage>, id: string): (i: int)
    ensures -1 <= i < |stages|
    ensures i >= 0 ==> stages[i].id == id && forall k :: 0 <= k < i ==> stages[k].id != id
    ensures i == -1 <==> forall k :: 0 <= k < |stages| ==> stages[k].id != id
  {
    if |stages| == 0 then -1
    else if stages[0].id == id then 0
    else
      var rest := FindIndex(stages[1..], id);
      if rest < 0 then -1 else rest + 1
  }

  /** The three flags computed for the stage at `index`. */
  datatype Flags = Flags(isComplete: bool, isCurrent: bool, isPending: bool)

  function StageFlags(index: int, currentIndex: int): (f: Flags)
    ensures f.isComplete <==> index < currentIndex
    ensures f.isCurrent <==> index == currentIndex
    ensures f.isPending <==> index > currentIndex
  {
    Flags(index < currentIndex, index == currentIndex, index > currentIndex)
  }

  /** Exactly one of the three flags holds for every stage. */
  predicate ExactlyOne(f: Flags) {
    (f.isComplete && !f.isCurrent && !f.isPending) ||
    (!f.isComplete && f.isCurrent && !f.isPending) ||
    (!f.isComplete && !f.isCurrent && f.isPending)
  }

  lemma FlagsPartition(index: int, currentIndex: int)
    ensures ExactlyOne(StageFlags(index, currentIndex))
  {
  }

  /** The circle's colour: green when complete, blue when current, grey
      otherwise. */
  datatype Circle = GreenCircle | BlueCircle | GreyCircle

  function CircleOf(f: Flags): Circle {
    if f.isComplete then GreenCircle else if f.isCurrent then BlueCircle else GreyCircle
  }

  /** The circles of the whole tracker. */
  function Circles(stages: seq<Stage>, current: string): (r: seq<Circle>)
    ensures |r| == |stages|
    ensures forall i :: 0 <= i < |r| ==> r[i] == CircleOf(StageFlags(i, FindIndex(stages, current)))
    ensures forall i :: 0 <= i < |r| ==> (r[i] == GreenCircle <==> i < FindIndex(stages, current))
    ensures forall i :: 0 <= i < |r| ==> (r[i] == BlueCircle <==> i == FindIndex(stages, current))
  {
    var c := FindIndex(stages, current);
    seq(|stages|, i requires 0 <= i < |stages| => CircleOf(StageFlags(i, c)))
  }

  /** For a known stage: the stages before it are green, it is blue and
      the rest are grey, so exactly one stage is current. */
  lemma KnownStage(stages: seq<Stage>, k: nat)
    requires k < |stages|
    requires forall i :: 0 <= i < k ==> stages[i].id != stages[k].id
    ensures var r := Circles(stages, stages[k].id);
      && (forall i :: 0 <= i < k ==> r[i] == GreenCircle)
      && r[k] == BlueCircle
      && (forall i :: k < i < |r| ==> r[i] == GreyCircle)
  {
  }

  /** The ids of the tracker's stages are distinct. */
  lemma StageIdsDistinct()
    ensures forall i, j :: 0 <= i < j < |Stages| ==> Stages[i].id != Stages[j].id
  {
    assert forall i :: 0 <= i < |Stages| ==> Stages[i].id[0] in "daops";
    assert Stages[3].id[2] != Stages[4].id[2];
  }

  /** An unknown stage name leaves every stage pending and grey. */
  lemma UnknownStage(stages: seq<Stage>, current: string)
    requires forall i :: 0 <= i < |stages| ==> stages[i].id != current
    ensures forall i :: 0 <= i < |stages| ==> StageFlags(i, FindIndex(stages, current)).isPending
    ensures forall i :: 0 <= i < |stages| ==> Circles(stages, current)[i] == GreyCircle
  {
  }

  /** The connectors between neighbouring stages: `n - 1` of them, each
      green exactly when the stage on its left is complete. */
  function Connectors(stages: seq<Stage>, current: string): (r: seq<bool>)
    ensures |stages| > 0 ==> |r| == |stages| - 1
    ensures forall i :: 0 <= i < |r| ==> (r[i] <==> StageFlags(i, FindIndex(stages, current)).isComplete)
  {
    var c := FindIndex(stages, current);
    if |stages| == 0 then []
    else seq(|stages| - 1, i requires 0 <= i < |stages| - 1 => StageFlags(i, c).isComplete)
  }

  /** The green connectors run exactly up to the current stage. */
  lemma ConnectorsUpToCurrent(k: nat)
    requires k < |Stages|
    ensures var r := Connectors(Stages, Stages[k].id);
      forall i :: 0 <= i < |r| ==> (r[i] <==> i < k)
  {
    StageIdsDistinct();
  }
}
